=== FILE: README.md ===
# gwiz-admin booking core in Dafny

A functional model of the booking and ticketing logic of the gwiz-admin
Django back end, with proofs of what that logic promises. The model covers:

- recurring class sessions generated from recurrence rules;
- the effective capacity and price of a session;
- the booking, ticket and membership status predicates;
- the membership credit ledger, with its two independent counters;
- guest cancel tokens;
- price-to-minor-unit conversion for Stripe and TrueLayer;
- the TrueLayer pre-checks, status normalisation and detached-JWS reconstruction;
- the event ticket purchase, cancel and Stripe webhook views;
- the expiry of stale pending bookings;
- the two session listings.

The database is a value. Each table is a `seq` in creation order, so Django's
`.first()` under the `-created_at` ordering is the last match. A request is
one pure transition from a store to a store and a response. The clock,
settings, signer, payment provider and JWS verifier are parameters:

- instants are whole seconds;
- dates are day numbers, where day 0 is 0001-01-01, a Monday;
- prices are exact decimals (`Money.Decimal`).

Modules follow the source layout:

| module | models |
|---|---|
| `Common` | `Option`/`Result`, ids, day numbers, settings lookup |
| `Money` | `quantize(Decimal("0.01"), ROUND_HALF_UP)` |
| `Text` | `strip`, `lower`, `upper`, `split`, `join` |
| `BookingModels` | booking/models.py |
| `EventModels` | events/models.py |
| `Recurrence` | the two date matchers |
| `SessionGeneration` | generate_sessions.py and booking/services.py |
| `Membership` | booking/membership.py |
| `CancelTokens` | booking/tokens.py |
| `Stripe` | the Stripe helpers shared by both payment modules |
| `BookingPayments` | booking/payments.py |
| `EventPayments` | events/payments.py |
| `EventTickets` | events/views.py purchase, cancel and webhook views |
| `ExpirePending` | expire_pending_bookings.py |
| `SessionListing` | booking/views.py |
| `Base64Url` | unpadded base64url, section 5 of RFC 4648 |
| `TrueLayer` | gwiz_admin/truelayer.py |

## Model

| member | source | states |
|---|---|---|
| Common.Weekday | booking/management/commands/generate_sessions.py:170 | the weekday index of a day number lies in 0..6 (Monday is 0) |
| Common.WeekdayPeriodic | booking/services.py:15 | a day seven days later has the same weekday index |
| Common.Setting | booking/payments.py:17 | `getattr(settings, name, default)`: the configured value when the setting exists, the default otherwise |
| Money.HundredthsExact | booking/payments.py:40-44 | a price with at most two decimal places converts to minor units exactly: cents times 10^exp equals 100 times its digits |
| Money.HundredthsNearest | booking/payments.py:40-44 | the minor-unit amount is within half a cent of the exact value; an exact tie rounds away from zero (ROUND_HALF_UP); the sign is the price's |
| Money.HundredthsOfTwoPlaces | booking/models.py:161-167 | a stored two-place price converts to exactly its stored hundredths |
| Money.HundredthsPositive | booking/payments.py:44-47 | the rounded amount is positive exactly when the price is at least half a cent |
| Money.HundredthsNegative | events/payments.py:36-39 | the rounded amount is negative exactly when the price is at most minus half a cent |
| Text.Strip | gwiz_admin/truelayer.py:230 | the result has no whitespace at either end and is a contiguous slice of the input |
| Text.StripIdempotent | gwiz_admin/truelayer.py:230 | stripping twice equals stripping once |
| Text.Lower | gwiz_admin/truelayer.py:230 | same length, each ASCII letter lower-cased and every other character kept, no upper-case ASCII left |
| Text.Upper | gwiz_admin/truelayer.py:113 | same length, each ASCII letter upper-cased and every other character kept, no lower-case ASCII left |
| Text.LowerIdempotent | gwiz_admin/truelayer.py:230 | lower-casing twice equals lower-casing once |
| Text.StripLower | gwiz_admin/truelayer.py:230 | stripping and lower-casing commute |
| Text.Split | gwiz_admin/truelayer.py:210 | `str.split(sep)`: at least one piece, no piece contains the separator, and joining the pieces with it gives the input back |
| Text.SplitJoin | gwiz_admin/truelayer.py:210-214 | splitting the join of separator-free pieces returns those pieces |
| BookingModels.CapacityEffective | booking/models.py:191-193 | the effective capacity is the override or the class capacity; it differs from the class capacity only when it is a nonzero override |
| BookingModels.PriceEffective | booking/models.py:195-197 | the effective price is the override or the base price; it differs from the base price only when it is a nonzero override |
| BookingModels.EffectiveValues | booking/models.py:191-197 | a nonzero override wins; a missing or zero override falls back to the class value, for capacity and price alike |
| BookingModels.NewBookingDefaults | booking/models.py:255-289 | a booking created with defaults is active, included, paid, has no attendance marked, and is not flagged as a guest purchase and has no guest email |
| BookingModels.BookingPredicates | booking/models.py:312-337 | included implies paid; paid iff the payment is neither pending nor void; present or no-show implies attendance marked; never both present and no-show |
| BookingModels.InsertAllowed | booking/models.py:296-305 | from a table that satisfies the conditional unique constraint, an insert is allowed iff the table still satisfies it afterwards; unconstrained rows are always allowed |
| BookingModels.InsertAllowedSound | booking/models.py:296-305 | no clash with any existing row (or an unconstrained new row) is exactly the condition that keeps the constraint |
| BookingModels.UnconstrainedRowsAlwaysInsert | booking/models.py:296-305 | guest, pending, void and non-booked rows never violate the constraint |
| BookingModels.ActiveMembershipMeaning | booking/models.py:410-416 | a membership is active iff its status is active and it has no expiry before now |
| EventModels.TicketsReserved | events/models.py:71-81 | zero when no active ticket of the event exists, and at least the quantity of every active ticket of the event |
| EventModels.TicketsReservedAppend | events/models.py:76-81 | a new ticket adds its quantity exactly when it is active for the event |
| EventModels.TicketsReservedUpdate | events/models.py:76-81 | replacing one ticket changes the total by the new ticket's share minus the old one's |
| EventModels.RemainingTickets | events/models.py:83-85 | remaining places lie in 0..capacity; when positive they are exactly capacity minus the reserved total, otherwise the reserved total has reached capacity |
| EventModels.SoldOutMeaning | events/models.py:87-89 | sold out iff the reserved total is at least the capacity |
| EventModels.ValidEventOnSale | events/models.py:45-48 | an event whose capacity passes its validator (at least 1) and that no ticket holds has all its places remaining and is not sold out |
| EventModels.CancelReleases | events/models.py:77 | cancelling an active ticket lowers the reserved total by exactly its quantity |
| EventModels.NewTicketDefaults | events/models.py:133-158 | a new ticket is active, not paid, has quantity at least 1, and is not flagged as a guest purchase |
| Recurrence.WeekdayCodeTable | booking/services.py:7-15 | index 0 is "mon", 2 is "wed", 6 is "sun", and two days share a code iff they share a weekday |
| Recurrence.MatchersAgree | booking/services.py:6-20 | `_matches_rule` and `_date_matches_rule` agree on every date and rule |
| Recurrence.MatchingByType | booking/management/commands/generate_sessions.py:160-179 | one-off matches only its start date; daily matches everything; weekly and multi-weekly match iff the weekday code is listed, so never with an empty list; any other type never matches |
| Recurrence.MatchingIsWeekly | booking/management/commands/generate_sessions.py:170-176 | for every type but one-off, a date matches iff the same weekday a week later does |
| SessionGeneration.SessionsFor | booking/management/commands/generate_sessions.py:147-153 | one new session per date, carrying the rule's class, times and link and no overrides |
| SessionGeneration.DayListsMeaning | booking/management/commands/generate_sessions.py:133-156 | a day is walked-and-matching, missing or existing exactly as the loop classifies it |
| SessionGeneration.DayListsAscending | booking/management/commands/generate_sessions.py:133-156 | each day list is strictly increasing, so every date is counted once |
| SessionGeneration.DayListsPartition | booking/management/commands/generate_sessions.py:143-154 | missing plus existing dates equal the matching dates |
| SessionGeneration.NoneMissingIffCovered | booking/management/commands/generate_sessions.py:137-145 | no date is missing iff every matching date already has its (rule, date, start time) session |
| SessionGeneration.HasSessionAppend | booking/management/commands/generate_sessions.py:137-141 | after generation a key has a session iff it had one before or it is one of the generated dates of the same rule and start time |
| SessionGeneration.GenerationCovers | booking/management/commands/generate_sessions.py:137-153 | after one run every matching date in range has its session and none is missing |
| SessionGeneration.OtherRulesIrrelevant | booking/management/commands/generate_sessions.py:137-141 | sessions of other rules do not change which dates are missing or existing |
| SessionGeneration.ProcessRule | booking/management/commands/generate_sessions.py:116-158 | the loop over the clamped range counts the missing dates as created and the existing ones as skipped; the two add up to the matching dates; a dry run writes nothing, a real run appends exactly the missing sessions |
| SessionGeneration.GenerateWalkMeaning | booking/services.py:33-56 | the recursive walk creates exactly the missing dates and counts the existing ones |
| SessionGeneration.GenerateSessionsForRule | booking/services.py:23-56 | range clamped to max(start, from)..min(end or to, to); creates exactly the missing dates and returns (created, skipped) |
| SessionGeneration.PreviewWalkMeaning | booking/services.py:71-87 | the preview walk counts the missing and the existing dates |
| SessionGeneration.PreviewSessionsForRule | booking/services.py:59-87 | the preview returns the counts the real generation would return from the same table, and writes nothing |
| SessionGeneration.GenerationIdempotent | booking/services.py:35-56 | a second run over the same window creates nothing, leaves the table as it is, and skips every matching date |
| SessionGeneration.GenerationCountsPartition | booking/services.py:33-56 | created plus skipped equals the number of matching dates in the clamped range |
| SessionGeneration.NoOverlapNoWork | booking/services.py:30-34 | an empty clamped range yields (0, 0) and an unchanged table |
| SessionGeneration.TwoWeeksOfMondaysAndWednesdays | booking/services.py:6-56 | a Monday/Wednesday rule over the two weeks from Monday 2024-01-01 creates 4 sessions in an empty table |
| SessionGeneration.RuleStep | booking/management/commands/generate_sessions.py:87-92 | processing the next rule keeps the earlier rules' dates covered and covers its own |
| SessionGeneration.CreatedSessions | booking/management/commands/generate_sessions.py:87-92 | the sessions the rule loop appends, rule by rule, number exactly the reference created total |
| SessionGeneration.RunRules | booking/management/commands/generate_sessions.py:84-92 | after the rule loop the counts are the reference totals of missing and existing days over the selected rules, each counted against the table before the run; a real run has appended exactly those rules' missing sessions and covers every selected rule; a dry run writes nothing |
| SessionGeneration.GenerateSessions | booking/management/commands/generate_sessions.py:47-114 | an inverted window is refused and a window with no selected rule is reported, both writing nothing. Otherwise the reported created and skipped totals equal the selected rules' missing and existing days counted against the table before the run, in a dry run as in a real one. A dry run writes nothing; a real run appends exactly the selected rules' missing sessions, covers every selected rule, and creates nothing iff everything was already covered |
| Membership.NewestAmong | booking/membership.py:14-19 | the chosen membership is an active, unexpired one of the user with the latest start; none is chosen iff no such membership exists |
| Membership.ActiveMembership | booking/membership.py:8-19 | no user or no candidate gives none; otherwise the choice is active and has the latest start among the user's candidates |
| Membership.CanBook | booking/membership.py:22-35 | allowed iff an active membership has at least n credits of the kind; the reason is "No active membership" or the kind's shortfall message exactly when refused |
| Membership.Consume | booking/membership.py:38-56 | succeeds iff `CanBook`; on success subtracts exactly n from the chosen membership's counter of that kind, leaves its other fields and every other membership as they were, and logs one non-reversed usage; on failure changes nothing |
| Membership.Restore | booking/membership.py:59-76 | succeeds iff an active membership exists; then adds n with no upper bound to the chosen membership's counter of that kind, leaves its other fields and every other membership as they were, and logs one reversed usage; otherwise changes nothing |
| Membership.ConsumeConserves | booking/membership.py:97-104 | consuming keeps every counter plus its net logged usage unchanged, and never touches the other kind's counter |
| Membership.RestoreConserves | booking/membership.py:113-121 | restoring keeps every counter plus its net logged usage unchanged, and never touches the other kind's counter |
| Membership.NewestIgnoresCounters | booking/membership.py:15-19 | which membership is chosen does not depend on the counters |
| Membership.ConsumeRestoreRoundTrip | booking/membership.py:48-75 | a successful consume of n followed by a restore of n returns every counter to its value and nets the log to zero |
| Membership.TraceConserves | booking/membership.py:38-122 | over any sequence of consumes and restores, each counter plus its net logged usage stays what it was |
| CancelTokens.MaxAge | booking/tokens.py:5-7 | the default maximum age is 604800 seconds (7 days), unless configured |
| CancelTokens.GenerateCancelToken | booking/tokens.py:10-11 | the token carries the kind, the id as text, and the issue time |
| CancelTokens.LoadClaims | booking/tokens.py:15-22 | claims load iff the token decodes, its signature under the salt matches and it is no older than the maximum age; a failure is `None`, not an exception |
| CancelTokens.VerifyCancelToken | booking/tokens.py:14-23 | a token verifies only if it decodes, is correctly signed, is within age and names exactly the expected kind and id |
| CancelTokens.TokenRoundTrip | booking/tokens.py:10-23 | a generated token verifies for kind k' and id i' iff k' and i' are the ones it was made for and it is within age |
| CancelTokens.TamperedTokenFails | booking/tokens.py:15-22 | a token whose signature does not match its claims, or one that does not decode, is rejected |
| CancelTokens.DefaultAgeBoundary | booking/tokens.py:5-20 | with the default age a token is accepted 604800 s after issue and rejected one second later |
| Stripe.ConfigureStripe | booking/payments.py:20-30 | succeeds iff a non-empty secret key is configured, returning that key; otherwise raises ImproperlyConfigured with the fixed message |
| Stripe.Currency | booking/payments.py:86 | the currency defaults to "usd" |
| Stripe.ReceiptEmail | booking/payments.py:95-97 | a receipt email is set iff the user's email is non-empty, and it is that email |
| BookingPayments.ConvertPriceToCents | booking/payments.py:33-49 | no price raises the "not configured" error; otherwise the result is the half-up rounded cents, and it is returned iff it is positive; a non-positive result raises the "greater than zero" error |
| BookingPayments.ConvertStoredPrice | booking/payments.py:40-49 | a stored two-place price converts to its hundredths when positive, and is rejected when zero or negative |
| BookingPayments.HalfCentBoundary | booking/payments.py:40-47 | 0.005 rounds up to 1 cent and is accepted; 0.004 rounds to 0 and is rejected |
| Stripe.PaymentDescription | booking/payments.py:52-60 | "{prefix}: {subject} on {date}", the prefix being the configured one when set and otherwise the caller's default ("Gwiz Class Booking" here, "Gwiz Event" in events/payments.py:44-47) |
| BookingPayments.BookingIntentRequest | booking/payments.py:68-97 | Stripe not configured is raised first, then a conversion error; on success the amount is the effective price of the booking's own session in cents (positive), in the configured currency, with the booking id, user id, that session's id and "booking" as metadata, the description naming the session's class and date, and a receipt email iff the user has one |
| BookingPayments.StoredPriceIntent | booking/payments.py:40-49 | with Stripe configured, a booking whose session price is `h` hundredths is charged exactly `h` cents when `h` is positive and refused as not positive otherwise |
| BookingPayments.FreeSessionHasNoIntent | booking/payments.py:72-75 | a session whose effective price is zero never gets an intent |
| BookingPayments.ParseStripeEvent | booking/payments.py:147-159 | a missing webhook secret raises ImproperlyConfigured before any parsing; otherwise the provider's verdict is passed through |
| EventPayments.ConvertPriceToCents | events/payments.py:28-41 | no price raises; otherwise the half-up rounded cents, returned iff not negative, so zero is accepted; a negative price raises the "cannot be negative" error |
| EventPayments.FreeEventConverts | events/payments.py:36-41 | a zero price converts to 0 cents at any scale |
| EventPayments.TicketIntentRequest | events/payments.py:44-79 | Stripe not configured is raised first, then a negative price of the ticket's own event; on success the amount is that event's price in cents times the quantity, with the ticket id, user id and the ticket's event id as metadata, the description naming the event and its start date, and a receipt email iff the user has one |
| EventPayments.StoredTicketPriceIntent | events/payments.py:27-41 | with Stripe configured, a ticket whose event price is `h` hundredths is charged `h` cents per place when `h` is zero or more, and refused as negative otherwise |
| EventPayments.CreatePaymentIntentForTicket | events/payments.py:50-89 | a request error is raised before the provider is called; otherwise the provider's answer is returned |
| EventPayments.RefundPaymentIntent | events/payments.py:92-103 | an empty or missing id is a no-op that does not look at the configuration; otherwise Stripe not configured is raised; a requested refund names that id; provider errors are swallowed |
| EventPayments.WebhookSecret | events/payments.py:114-118 | the events secret when that setting exists, else the booking secret when it exists, else "" |
| EventPayments.ParseStripeEvent | events/payments.py:106-128 | with a secret, the signature is checked against it; with none, the event is built unverified (an empty header becoming None); it never raises ImproperlyConfigured |
| EventTickets.NewestWhere | events/views.py:242-244 | none iff no ticket matches; otherwise a matching ticket with no later match, i.e. the newest one |
| EventTickets.PurchaseTicket | events/views.py:79-220 | 201 iff the request passes every check and the ticket is free or its intent was created; any other status leaves the store unchanged; the new ticket is appended active with the requested quantity, confirmed/included iff free or credit-funded, reserved/pending with an intent id otherwise; a cancel token is returned iff the buyer is a guest; on 201 the events and refunds are unchanged, and exactly one confirmation e-mail carrying the returned token is sent iff the purchase is free (none for a paid purchase) |
| EventTickets.PurchaseKeepsCapacity | events/views.py:108-157 | a purchase never takes the reserved total of any event past its capacity |
| EventTickets.PurchaseCreditRule | events/views.py:132-203 | credits are consumed, by exactly the quantity, iff the member could use them and the purchase succeeded; guests and members without usable credits leave the ledger unchanged |
| EventTickets.GuestTokenCancelsTicket | events/views.py:215-218 | a successful guest purchase returns a token that verifies for this ticket |
| EventTickets.CancelChecks | events/views.py:240-282 | a cancellation passes iff the newest ticket with the id exists, is not cancelled, belongs to the caller (or is a user-less ticket with a valid token), and its event has not started; each failure is 400, 403 or 404 |
| EventTickets.Cancelled | events/views.py:284-298 | the ticket becomes cancelled and inactive; pending or paid become void; included and void are kept; nothing else changes |
| EventTickets.CancelAndRefund | events/views.py:284-298 | the request fails with a server error iff a paid ticket needs a refund and Stripe is not configured; otherwise the ticket is saved cancelled, the ledger is untouched, and the paid ticket's intent id is added to the requested refunds exactly when Stripe accepts the refund request |
| EventTickets.CancelTicketAsWritten | events/views.py:240-313 | 200 iff every check passes and the refund step does not fail; a failed check returns its response, a failed refund step returns 500, both changing nothing; on success the ticket is cancelled, a cancellation notice is queued, the refund is recorded, and an included ticket credits the caller's membership with its quantity |
| EventTickets.CancelTicket | events/views.py:240-313 | the same 200 iff and error cases as above, but the credits go back only when the ticket is included and the log shows its quantity still consumed for it |
| EventTickets.CancelUntilStart | events/views.py:277-282 | an owner can cancel an active, unpaid ticket any time up to the event's start |
| EventTickets.PaidCancelRefunds | events/views.py:246-294 | a paid ticket that its owner, or a guest with a valid token, cancels before the start with Stripe configured answers 200, becomes cancelled and void, and its intent's refund is requested |
| EventTickets.CancelKeepsCapacity | events/views.py:284-298 | cancelling never breaks capacity for any event |
| EventTickets.LedgerStepsRefNet | booking/membership.py:90-122 | consuming never lowers any ticket's net consumed credits; restoring for a ticket lowers only that ticket's |
| EventTickets.PurchaseMintsNothing | events/views.py:199-203 | after a purchase no ticket has had more credits given back than consumed |
| EventTickets.CancelMintsNothing | events/views.py:299-302 | with the guarded restore, cancelling never gives back more credits than were consumed |
| EventTickets.OpenDayPurchase | events/views.py:132-157 | a member with no event credits buying a place at a free event gets it confirmed/included and spends no credit |
| EventTickets.OpenDayCancelAllowed | events/views.py:240-282 | that member may cancel that ticket before the event |
| EventTickets.OpenDayCancelAsWritten | events/views.py:299-302 | the as-written cancellation credits the membership with an event credit it never spent |
| EventTickets.OpenDayCancelGuarded | events/views.py:299-302 | the guarded cancellation leaves the ledger as it was |
| EventTickets.FreeTicketCancelMintsCredit | events/views.py:299-302 | buying and then cancelling a free ticket mints one event credit as written and none with the guard |
| EventTickets.IntentId | events/views.py:374-377 | the intent id is present iff the payload has a non-empty "id" |
| EventTickets.WebhookTarget | events/views.py:373-386 | no target without an intent id; otherwise the newest ticket carrying that id, and none exactly when no ticket carries it |
| EventTickets.HandleSucceeded | events/views.py:373-402 | with no target, or a target already paid, nothing changes; otherwise exactly the target becomes paid and confirmed and one confirmation is queued for it, with a cancel token iff it is a guest ticket; the ledger is untouched |
| EventTickets.SucceededIdempotent | events/views.py:388-389 | a repeated success event changes nothing more |
| EventTickets.SucceededMayExceedCapacity | events/views.py:388-393 | a late success on a cancelled ticket revives it without any capacity check, taking a full event over capacity |
| EventTickets.HandleFailed | events/views.py:404-439 | with no target, or a target already cancelled and void, nothing changes; otherwise exactly the target becomes cancelled and void and one cancellation notice is queued for it; credits are never restored |
| EventTickets.FailedIdempotent | events/views.py:419-429 | a repeated failure event changes nothing more |
| EventTickets.FailedKeepsCapacity | events/views.py:419-433 | the failure handler never breaks capacity |
| EventTickets.StripeWebhook | events/views.py:329-371 | unparsable or badly signed events and events without data answer 400 and change nothing; all others answer 200; a succeeded event applies `HandleSucceeded`, a failed or canceled event applies `HandleFailed`, and other event types change nothing; the ledger is never touched |
| ExpirePending.Cutoff | booking/management/commands/expire_pending_bookings.py:38 | the cutoff lies before now whenever minutes is positive |
| ExpirePending.CountStale | booking/management/commands/expire_pending_bookings.py:39-44 | the count never exceeds the number of bookings |
| ExpirePending.CountZeroIffNoneStale | booking/management/commands/expire_pending_bookings.py:39-44 | the count is zero iff no booking matches the filter |
| ExpirePending.CountStaleMeaning | booking/management/commands/expire_pending_bookings.py:39-44 | the count is the number of positions the filter selects |
| ExpirePending.Expire | booking/management/commands/expire_pending_bookings.py:60-62 | an expired booking is cancelled and void, with everything else as it was |
| ExpirePending.IntentsToCancel | booking/management/commands/expire_pending_bookings.py:57-58 | at most one non-empty intent per selected booking, in table order (the command visits newest first), and none when Stripe is disabled |
| ExpirePending.ExpirePendingBookings | booking/management/commands/expire_pending_bookings.py:30-63 | the intended run, with the cancel helper as a recorded call: non-positive minutes is refused with nothing changed; a dry run reports the selected count and changes nothing; a real run expires exactly the selected bookings, leaves the rest alone, cancels their intents, and reports the count |
| ExpirePending.ExpirePendingAsWritten | booking/management/commands/expire_pending_bookings.py:30-63 | the command as written: a real run fails with the undefined cancel helper exactly when some selected booking has an intent and Stripe is enabled, and then every booking is left as it was; otherwise it is the intended run |
| ExpirePending.StaleWithIntentSelected | booking/management/commands/expire_pending_bookings.py:39-58 | a booked, pending booking ten minutes old with intent "pi_1" is selected by a five-minute run and its intent would be cancelled when Stripe is enabled |
| ExpirePending.StaleIntentRollsBack | booking/management/commands/expire_pending_bookings.py:55-63 | on that booking the command as written fails and leaves it booked and pending, while the intended run reports one expired |
| ExpirePending.SecondRunExpiresNothing | booking/management/commands/expire_pending_bookings.py:39-63 | after a real run the filter selects nothing |
| ExpirePending.CutoffInclusive | booking/management/commands/expire_pending_bookings.py:38-43 | a pending booking exactly `minutes` old is selected; one a second younger is not |
| SessionListing.NameKey | booking/views.py:27 | a name's key is its sequence of code points |
| SessionListing.SessionKeyOrder | booking/views.py:66 | the (date, start time) key orders by date, then by start time |
| SessionListing.SortBy | booking/views.py:66 | the result is sorted by the key and is a permutation of the input |
| SessionListing.ActiveClasses | booking/views.py:23-28 | every active class as often as stored, no inactive one, in name order |
| SessionListing.UpcomingSessions | booking/views.py:44-66 | each session appears, as often as stored, iff it is scheduled, on or after from_date (today when absent), on or before to_date when given, and of the genre when one is given; ordered by date and start time |
| SessionListing.UpcomingMembership | booking/views.py:45-64 | a session is listed iff it is stored and passes every filter |
| SessionListing.NothingPastOrCancelled | booking/views.py:45-56 | without from_date nothing before today and nothing cancelled is listed |
| Base64Url.Encode | gwiz_admin/truelayer.py:213 | four characters per three bytes, no padding, never a length of 1 mod 4, only URL-safe alphabet characters |
| Base64Url.Decode | gwiz_admin/truelayer.py:213 | text decodes only if every character is in the alphabet |
| Base64Url.RoundTrip | gwiz_admin/truelayer.py:213 | decoding undoes encoding for every byte string |
| Base64Url.EncodingHasNoSeparator | gwiz_admin/truelayer.py:213-214 | the encoding never contains '.' or '=' |
| Base64Url.KnownEncodings | gwiz_admin/truelayer.py:213 | "Man" encodes to "TWFu", "M" to "TQ", and 0xfb 0xff to "-_8" |
| TrueLayer.NormalizeStatus | gwiz_admin/truelayer.py:227-230 | no status or "" gives ""; the result is never longer than the input, has no outer whitespace and no upper-case letter |
| TrueLayer.NormalizeIdempotent | gwiz_admin/truelayer.py:227-230 | normalising a normalised status changes nothing |
| TrueLayer.NormalizeMeaning | gwiz_admin/truelayer.py:227-230 | the result is the lower-cased input with its outer whitespace trimmed |
| TrueLayer.StatusClassesDisjoint | gwiz_admin/truelayer.py:233-238 | no status is both a success and a failure; "" is neither |
| TrueLayer.NormalizedClassification | gwiz_admin/truelayer.py:227-238 | "Settled" normalises to a success and "CANCELED" to a failure; a missing status is neither |
| TrueLayer.ToMinorUnits | gwiz_admin/truelayer.py:241-248 | no amount raises "Amount is required."; otherwise the half-up rounded minor units, returned iff positive, else "Amount must be greater than zero." |
| TrueLayer.PaymentPrecheck | gwiz_admin/truelayer.py:102-109 | passes iff the amount is positive, both URLs are non-empty, TrueLayer is enabled and an auth audience is set; the amount is checked first; a configuration failure implies the arguments were valid |
| TrueLayer.CreatePayment | gwiz_admin/truelayer.py:86-153 | a failed pre-check is raised before any request; a success came from a request below status 400 carrying the upper-cased currency and the merchant account, and returns its non-empty payment id and authorization URL; once the pre-checks pass, success holds iff the answer is below 400 with a non-empty id and URL, a status of 400 or more is the "Failed to create" failure, and a good status lacking either field is the "missing id" failure |
| TrueLayer.CreatePaymentFollowsAnswer | gwiz_admin/truelayer.py:137-153 | after passing pre-checks, an accepting answer with an id and URL yields exactly that pair and a refusing one the HTTP failure |
| TrueLayer.PrecheckBeforeRequest | gwiz_admin/truelayer.py:102-109 | when a pre-check fails, the HTTP client's behaviour cannot affect the result |
| TrueLayer.Tolerance | gwiz_admin/truelayer.py:189 | the tolerance defaults to 300 seconds |
| TrueLayer.ReconstructSplits | gwiz_admin/truelayer.py:210-214 | the reconstructed string splits back into header, encoded payload and signature iff header and signature contain no '.' |
| TrueLayer.VerifyWebhook | gwiz_admin/truelayer.py:176-224 | no signing key accepts; a key without a signature rejects; with a key, a webhook is accepted exactly when the signature is present, the timestamp (when given) parses and is within tolerance, the header names a non-empty algorithm, the signature has three parts, and the verifier approves the reconstructed token |
| TrueLayer.ToleranceBoundary | gwiz_admin/truelayer.py:189-200 | a timestamp exactly 300 s away passes the age check in either direction; 301 s fails |
| TrueLayer.DetachedReconstruction | gwiz_admin/truelayer.py:210-214 | a detached JWS "header..sig" reconstructs to header, encoded payload and sig, which splits back into those three parts |
| TrueLayer.AttachedPayloadIgnored | gwiz_admin/truelayer.py:210-214 | a middle part in the signature is ignored: the reconstruction always uses the received payload |

## Left out

- Network calls, as abstract function parameters: Stripe `PaymentIntent.create` and `Refund.create`, and TrueLayer's `requests.post`. Their success or failure is whatever the parameter returns.
- `payments.cancel_payment_intent` (expire_pending_bookings.py:58) is not defined in booking/payments.py. The intended run records the intent ids it would be called with (`ExpirePending.IntentsToCancel`); the run as written is under "## Findings".
- Cryptography, kept uninterpreted:
  - the signer of `django.core.signing`;
  - Stripe signature checking;
  - `jwt.get_unverified_header` and `jwt.decode`;
  - the RS256 client assertion of `_auth_token`.
- ISO-8601 timestamp parsing in `verify_webhook`. A timestamp arrives already parsed as absent, unparsable or an instant. The clock (`timezone.now`, `date.today`, `time.time`) is a parameter.
- Concurrency: `transaction.atomic` and `select_for_update`. Each request is one atomic transition.
- Email, PDF and WhatsApp notification content. The model only records which confirmation or cancellation notice is queued.
- Response bodies: serializer output, the Stripe `client_secret` of a purchase, and the `email_sent` flags. Only the status, detail, ticket and cancel token are modelled.
- `create_payment_intent_for_membership`, `_membership_payment_description` and TrueLayer's `cancel_payment`: they are outside the modelled core.
- The optional TrueLayer `metadata` and `payer` fields of `create_payment`.
- `PaymentPrecheck` also checks the auth audience, which `_auth_token` checks before the request is sent (truelayer.py:45-52). The private-key check after it is folded into `TrueLayerEnabled`.
- The class-session booking, cancel and webhook views and the TrueLayer webhook views. The URL files name them, but their code is not part of this model.
- The events webhook's 503 branch for ImproperlyConfigured (events/views.py:345-350) is unreachable: the events `parse_stripe_event` never raises that error. The model has no such outcome.
- SessionListing.ActiveClasses: orders names by code point. The database collation may order some names differently.
- Membership.NewestAmong: among candidates sharing the latest `starts_at` it picks the earliest row. `order_by("-starts_at")` has no tie-break, so the database may return any of them; `Membership.ActiveMembership` promises only a latest-start candidate.
- SessionListing.SortBy: is a stable insertion sort. The tie order among equal keys is the database's and is not promised.
- Text.Lower: lower-cases ASCII letters only. Python's `str.lower` also maps non-ASCII letters, so `TrueLayer.NormalizeStatus` is exact for ASCII statuses.
- Text.Upper: upper-cases ASCII letters only. Python's `str.upper` also maps non-ASCII letters and can change the length ("ß" becomes "SS"). The model keeps such characters unchanged, so the currency sent by `TrueLayer.CreatePayment` is exact for ASCII currency codes.
- CancelTokens.VerifyCancelToken: models a token as claims, an issue time and a signature. It does not model the base64/JSON text of `signing.dumps`.
- EventTickets.PurchaseTicket: `PurchaseRequestSerializer` validates only `quantity`. The model receives it already parsed as an optional integer, so the 400 for non-integer text is not modelled; absent means 1 and below 1 is a 400. The guest email is only stripped and must be non-empty; the source checks no email format, so the model checks none.

- SessionGeneration.ProcessRule, SessionGeneration.GenerateSessionsForRule, SessionGeneration.PreviewSessionsForRule, SessionGeneration.GenerateSessions: day numbers (`Common.Day`) are unbounded. Python dates end at 9999-12-31, so stepping past it raises `OverflowError`. That happens in the day loop of generate_sessions.py:156 and services.py:54 and 85 when a range ends on the last date, and in `from_date + timedelta(days=days)` at generate_sessions.py:62 for a large `--days`. The model has no such error and finishes those runs normally.

## Findings

| source | as written | input that shows it | evidently intended | confidence | as-written member | corrected member |
|---|---|---|---|---|---|---|
| events/views.py:299-302 | cancelling any `included` ticket calls `restore_event_credit` for the caller, whether or not credits were consumed for it | a member with an active membership and 0 event credits buys one place at a free event (price 0, so the ticket is included but no credit is consumed), then cancels it: the membership gains 1 event credit | give back only the event credits that were consumed for this ticket | not executed | EventTickets.CancelTicketAsWritten, EventTickets.FreeTicketCancelMintsCredit | EventTickets.CancelTicket, EventTickets.CancelMintsNothing |
| booking/management/commands/expire_pending_bookings.py:57-58 | a real run calls `payments.cancel_payment_intent`, which booking/payments.py does not define, so the AttributeError aborts the transaction and nothing is expired or reported | one booking, booked and payment pending, older than the cutoff, with intent "pi_1", and `STRIPE_SECRET_KEY` set: the run fails and the booking stays booked and pending | cancel the intent with the provider, then expire the booking and report the count | not executed | ExpirePending.ExpirePendingAsWritten, ExpirePending.StaleIntentRollsBack | ExpirePending.ExpirePendingBookings, ExpirePending.SecondRunExpiresNothing |

=== FILE: base64url.dfy ===
/**
 * Base64url without padding, the encoding of section 5 of RFC 4648 as JWS
 * uses it (section 2 of RFC 7515): each three bytes become four characters
 * of the URL-safe alphabet, a final one or two bytes become two or three,
 * and no `=` is appended. The decoder is the encoder's inverse.
 */
module Base64Url {
  import opened Common

  type Byte = x: int | 0 <= x < 256

  /** A six-bit group, the value one character carries. */
  type Sextet = x: int | 0 <= x < 64

  /** The URL-safe alphabet: A-Z, a-z, 0-9, '-' and '_' for the values 0 to 63. */
  function SextetChar(v: Sextet): (c: char)
  {
    if v < 26 then ('A' as int + v) as char
    else if v < 52 then ('a' as int + (v - 26)) as char
    else if v < 62 then ('0' as int + (v - 52)) as char
    else if v == 62 then '-'
    else '_'
  }

  /** The value of an alphabet character, `None` for any other character. */
  function CharSextet(c: char): (r: Option<Sextet>)
    ensures r.Some? ==> SextetChar(r.value) == c
  {
    if 'A' <= c <= 'Z' then Some(c as int - 'A' as int)
    else if 'a' <= c <= 'z' then Some(c as int - 'a' as int + 26)
    else if '0' <= c <= '9' then Some(c as int - '0' as int + 52)
    else if c == '-' then Some(62)
    else if c == '_' then Some(63)
    else None
  }

  lemma CharRoundTrip(v: Sextet)
    ensures CharSextet(SextetChar(v)) == Some(v)
  {
  }

  predicate InAlphabet(c: char) {
    CharSextet(c).Some?
  }

  /**
   * The six-bit groups of `b`, most significant bit first, the last group
   * padded with zero bits.
   */
  function EncodeSextets(b: seq<Byte>): (v: seq<Sextet>)
    ensures |v| == (4 * |b| + 2) / 3
    decreases |b|
  {
    if |b| == 0 then []
    else if |b| == 1 then [b[0] / 4, (b[0] % 4) * 16]
    else if |b| == 2 then [b[0] / 4, (b[0] % 4) * 16 + b[1] / 16, (b[1] % 16) * 4]
    else [b[0] / 4, (b[0] % 4) * 16 + b[1] / 16, (b[1] % 16) * 4 + b[2] / 64, b[2] % 64]
         + EncodeSextets(b[3..])
  }

  /** `base64url_encode`: the unpadded URL-safe text of `b`. */
  function Encode(b: seq<Byte>): (s: string)
    ensures |s| == (4 * |b| + 2) / 3
    ensures |s| % 4 != 1
    ensures forall i | 0 <= i < |s| :: InAlphabet(s[i])
  {
    var v := EncodeSextets(b);
    seq(|v|, i requires 0 <= i < |v| => CharRound(v[i]))
  }

  /** `SextetChar` with the fact that its result is in the alphabet. */
  function CharRound(v: Sextet): (c: char)
    ensures InAlphabet(c) && CharSextet(c) == Some(v)
  {
    CharRoundTrip(v);
    SextetChar(v)
  }

  /** The values of the characters of `s`, or `None` when one is outside the alphabet. */
  function Sextets(s: string): (r: Option<seq<Sextet>>)
    ensures r.Some? <==> forall i | 0 <= i < |s| :: InAlphabet(s[i])
    ensures r.Some? ==> |r.value| == |s| && forall i | 0 <= i < |s| :: Some(r.value[i]) == CharSextet(s[i])
    decreases |s|
  {
    if |s| == 0 then Some([])
    else
      match CharSextet(s[0])
      case None => None
      case Some(x) =>
        match Sextets(s[1..])
        case None => None
        case Some(rest) => Some([x] + rest)
  }

  /** Four groups back into three bytes; a dangling single group is malformed. */
  function DecodeSextets(v: seq<Sextet>): (r: Option<seq<Byte>>)
    ensures r.Some? ==> |v| % 4 != 1
    decreases |v|
  {
    if |v| == 0 then Some([])
    else if |v| == 1 then None
    else
      var b0: Byte := (v[0] as int) * 4 + (v[1] as int) / 16;
      if |v| == 2 then Some([b0])
      else
        var b1: Byte := ((v[1] as int) % 16) * 16 + (v[2] as int) / 4;
        if |v| == 3 then Some([b0, b1])
        else
          var b2: Byte := ((v[2] as int) % 4) * 64 + v[3];
          match DecodeSextets(v[4..])
          case None => None
          case Some(rest) => Some([b0, b1, b2] + rest)
  }

  /** One block of three bytes survives the split into four groups. */
  lemma BlockRoundTrip(x: Byte, y: Byte, z: Byte)
    ensures (x / 4) * 4 + ((x % 4) * 16 + y / 16) / 16 == x
    ensures (((x % 4) * 16 + y / 16) % 16) * 16 + ((y % 16) * 4 + z / 64) / 4 == y
    ensures (((y % 16) * 4 + z / 64) % 4) * 64 + z % 64 == z
  {
  }

  /** The bytes of unpadded base64url text, `None` when it is not such text. */
  function Decode(s: string): (r: Option<seq<Byte>>)
    ensures r.Some? ==> forall i | 0 <= i < |s| :: InAlphabet(s[i])
  {
    match Sextets(s)
    case None => None
    case Some(v) => DecodeSextets(v)
  }

  lemma {:induction false} SextetsRoundTrip(b: seq<Byte>)
    ensures DecodeSextets(EncodeSextets(b)) == Some(b)
    decreases |b|
  {
    if |b| >= 3 {
      SextetsRoundTrip(b[3..]);
      BlockRoundTrip(b[0], b[1], b[2]);
      var v := EncodeSextets(b);
      assert v[4..] == EncodeSextets(b[3..]);
      assert b == [b[0], b[1], b[2]] + b[3..];
    } else if |b| == 2 {
      BlockRoundTrip(b[0], b[1], 0);
      assert EncodeSextets(b) == [b[0] / 4, (b[0] % 4) * 16 + b[1] / 16, (b[1] % 16) * 4];
      assert [b[0], b[1]] == b;
    } else if |b| == 1 {
      BlockRoundTrip(b[0], 0, 0);
      assert [b[0]] == b;
    }
  }

  lemma SextetsOfEncoding(b: seq<Byte>)
    ensures Sextets(Encode(b)) == Some(EncodeSextets(b))
  {
    var s := Encode(b);
    var v := EncodeSextets(b);
    var r := Sextets(s);
    assert r.Some?;
    forall i | 0 <= i < |v|
      ensures r.value[i] == v[i]
    {
      assert s[i] == CharRound(v[i]);
    }
    assert r.value == v;
  }

  /** Decoding undoes encoding, for every byte string. */
  lemma RoundTrip(b: seq<Byte>)
    ensures Decode(Encode(b)) == Some(b)
  {
    SextetsOfEncoding(b);
    SextetsRoundTrip(b);
  }

  /** The encoding never contains the JWS separator '.' nor the padding '='. */
  lemma EncodingHasNoSeparator(b: seq<Byte>)
    ensures forall i | 0 <= i < |Encode(b)| :: Encode(b)[i] != '.' && Encode(b)[i] != '='
  {
  }

  /** "Man" encodes to "TWFu", as in section 4 of RFC 4648; "M" to "TQ" with no padding. */
  lemma KnownEncodings()
    ensures Encode([77, 97, 110]) == "TWFu"
    ensures Encode([77]) == "TQ"
    ensures Encode([0xfb, 0xff]) == "-_8"
  {
    assert EncodeSextets([77, 97, 110]) == [19, 22, 5, 46];
    assert EncodeSextets([77]) == [19, 16];
    assert EncodeSextets([0xfb, 0xff]) == [62, 63, 60];
  }
}

=== FILE: booking_models.dfy ===
/**
 * The class-booking tables: fitness classes, recurrence rules, concrete
 * class sessions, bookings, membership plans held by users and the usage
 * log of their credits, with the derived properties the tables expose.
 */
module BookingModels {
  import opened Common
  import opened Money

  /** A class definition such as "Beginner Yoga"; `genre` is its stored code. */
  datatype FitnessClass = FitnessClass(
    id: Id,
    name: string,
    genre: string,
    basePrice: Decimal,
    capacity: nat,
    isActive: bool)

  /**
   * The stored `recurrence_type`. Choices are not enforced by the database,
   * so any other stored code is kept as `Unrecognised`.
   */
  datatype RecurrenceType = OneOff | Weekly | MultiWeekly | Daily | Unrecognised(code: string)

  /** When a fitness class recurs; `daysOfWeek` holds codes such as "mon". */
  datatype RecurrenceRule = RecurrenceRule(
    id: Id,
    fitnessClass: FitnessClass,
    recurrenceType: RecurrenceType,
    daysOfWeek: seq<string>,
    startTime: TimeOfDay,
    endTime: TimeOfDay,
    startDate: Day,
    endDate: Option<Day>,
    isActive: bool)

  datatype SessionStatus = Scheduled | SessionCancelled

  /**
   * A concrete class occurrence. The fitness class is held by value, as the
   * source reads it through `select_related`.
   */
  datatype ClassSession = ClassSession(
    fitnessClass: FitnessClass,
    date: Day,
    startTime: TimeOfDay,
    endTime: TimeOfDay,
    capacityOverride: Option<nat>,
    priceOverride: Option<Decimal>,
    status: SessionStatus,
    createdFromRule: Option<Id>)

  /**
   * `capacity_override or fitness_class.capacity`: Python's `or` treats an
   * override of 0 like a missing one.
   */
  function CapacityEffective(s: ClassSession): (c: nat)
    ensures c == s.fitnessClass.capacity || Some(c) == s.capacityOverride
    ensures c != s.fitnessClass.capacity ==> c != 0
  {
    match s.capacityOverride
    case Some(o) => if o != 0 then o else s.fitnessClass.capacity
    case None => s.fitnessClass.capacity
  }

  /** `price_override or fitness_class.base_price`: a 0.00 override falls back. */
  function PriceEffective(s: ClassSession): (p: Decimal)
    ensures p == s.fitnessClass.basePrice || Some(p) == s.priceOverride
    ensures p != s.fitnessClass.basePrice ==> !IsZero(p)
  {
    match s.priceOverride
    case Some(o) => if !IsZero(o) then o else s.fitnessClass.basePrice
    case None => s.fitnessClass.basePrice
  }

  /**
   * The override decides exactly when it is present and non-zero; a zero
   * or missing override yields the class default.
   */
  lemma EffectiveValues(s: ClassSession)
    ensures s.capacityOverride.Some? && s.capacityOverride.value != 0 ==>
                CapacityEffective(s) == s.capacityOverride.value
    ensures s.capacityOverride == None || s.capacityOverride == Some(0) ==>
                CapacityEffective(s) == s.fitnessClass.capacity
    ensures s.priceOverride.Some? && !IsZero(s.priceOverride.value) ==>
                PriceEffective(s) == s.priceOverride.value
    ensures s.priceOverride == None || (s.priceOverride.Some? && IsZero(s.priceOverride.value)) ==>
                PriceEffective(s) == s.fitnessClass.basePrice
  {
  }

  datatype BookingStatus = Booked | BookingCancelled | NoShow

  /** Shared by bookings and event tickets. */
  datatype PaymentStatus = Included | Pending | Paid | Void

  datatype Attendance = Unknown | Present | Absent | AttendanceNoShow

  /**
   * A place on a class session, held by a user or by a guest (`user == None`);
   * `session` is the `class_session` foreign key, the session's id as text.
   */
  datatype Booking = Booking(
    id: Id,
    user: Option<UserId>,
    isGuestPurchase: bool,
    guestEmail: string,
    session: Id,
    status: BookingStatus,
    paymentStatus: PaymentStatus,
    intentId: Option<string>,
    attendance: Attendance,
    createdAt: Instant)

  /**
   * A booking as created with only its required fields, taking the column
   * defaults; `is_guest_purchase` defaults to false whoever holds it.
   */
  function NewBooking(id: Id, user: Option<UserId>, session: Id, createdAt: Instant): Booking {
    Booking(id, user, false, "", session, Booked, Included, None, Unknown, createdAt)
  }

  predicate IsActive(b: Booking) {
    b.status == Booked
  }

  predicate IsIncluded(b: Booking) {
    b.paymentStatus == Included
  }

  /** `payment_status in {included, paid}`: covered by membership or paid online. */
  predicate IsPaid(b: Booking) {
    b.paymentStatus in {Included, Paid}
  }

  predicate AttendanceMarked(b: Booking) {
    b.attendance != Unknown
  }

  predicate IsPresent(b: Booking) {
    b.attendance == Present
  }

  predicate IsNoShow(b: Booking) {
    b.attendance == AttendanceNoShow
  }

  /**
   * A new booking is active and counted as paid through its membership, and
   * its attendance is not yet marked.
   */
  lemma NewBookingDefaults(id: Id, user: Option<UserId>, session: Id, createdAt: Instant)
    ensures IsActive(NewBooking(id, user, session, createdAt))
    ensures IsIncluded(NewBooking(id, user, session, createdAt))
    ensures IsPaid(NewBooking(id, user, session, createdAt))
    ensures !AttendanceMarked(NewBooking(id, user, session, createdAt))
    ensures !NewBooking(id, user, session, createdAt).isGuestPurchase && NewBooking(id, user, session, createdAt).guestEmail == ""
  {
  }

  /** How the predicates relate: included implies paid, a marked code is exclusive. */
  lemma BookingPredicates(b: Booking)
    ensures IsIncluded(b) ==> IsPaid(b)
    ensures IsPaid(b) <==> b.paymentStatus != Pending && b.paymentStatus != Void
    ensures IsPresent(b) || IsNoShow(b) ==> AttendanceMarked(b)
    ensures !(IsPresent(b) && IsNoShow(b))
  {
  }

  /**
   * The rows the `unique_active_booking_per_session` constraint covers:
   * booked, held by a user, and included or paid.
   */
  predicate Constrained(b: Booking) {
    b.status == Booked && b.user.Some? && b.paymentStatus in {Included, Paid}
  }

  /** No two constrained bookings share a (user, session) pair. */
  predicate UniqueActiveBookings(bs: seq<Booking>) {
    forall i, j | 0 <= i < j < |bs| :: !Clash(bs[i], bs[j])
  }

  /**
   * Whether the database accepts inserting `b`: it fails only when `b` and
   * an existing row are both constrained for the same user and session.
   */
  function InsertAllowed(bs: seq<Booking>, b: Booking): (ok: bool)
    ensures UniqueActiveBookings(bs) ==> (ok <==> UniqueActiveBookings(bs + [b]))
    ensures !Constrained(b) ==> ok
  {
    var ok := !Constrained(b) || forall i | 0 <= i < |bs| :: !Clash(bs[i], b);
    InsertAllowedSound(bs, b, ok);
    ok
  }

  /** Both rows are constrained and share the user and the session. */
  predicate Clash(x: Booking, y: Booking) {
    Constrained(x) && Constrained(y) && x.user == y.user && x.session == y.session
  }

  lemma InsertAllowedSound(bs: seq<Booking>, b: Booking, ok: bool)
    requires ok == (!Constrained(b) || forall i | 0 <= i < |bs| :: !Clash(bs[i], b))
    ensures UniqueActiveBookings(bs) ==> (ok <==> UniqueActiveBookings(bs + [b]))
  {
    var t := bs + [b];
    if UniqueActiveBookings(bs) {
      if ok {
        forall i, j | 0 <= i < j < |t|
          ensures !Clash(t[i], t[j])
        {
          if j < |bs| {
            assert t[i] == bs[i] && t[j] == bs[j];
          } else {
            assert t[i] == bs[i] && t[j] == b;
          }
        }
      }
      if UniqueActiveBookings(t) && Constrained(b) {
        forall i | 0 <= i < |bs|
          ensures !Clash(bs[i], b)
        {
          assert t[i] == bs[i] && t[|bs|] == b;
        }
      }
    }
  }

  /** Guest, pending and void bookings are never refused by the constraint. */
  lemma UnconstrainedRowsAlwaysInsert(bs: seq<Booking>, b: Booking)
    requires UniqueActiveBookings(bs)
    requires b.user.None? || b.paymentStatus in {Pending, Void} || b.status != Booked
    ensures UniqueActiveBookings(bs + [b])
  {
    assert InsertAllowed(bs, b);
  }

  datatype MembershipStatus = MembershipActive | MembershipCancelled | MembershipExpired

  /** A user's membership with its two independent credit counters. */
  datatype UserMembership = UserMembership(
    id: Id,
    user: UserId,
    planId: Id,
    remainingClassSessions: nat,
    remainingEvents: nat,
    status: MembershipStatus,
    startsAt: Instant,
    expiresAt: Option<Instant>)

  /** Active and not past its expiry; expiring exactly now still counts. */
  predicate IsActiveMembership(m: UserMembership, now: Instant) {
    if m.status != MembershipActive then false
    else if m.expiresAt.Some? && m.expiresAt.value < now then false
    else true
  }

  lemma ActiveMembershipMeaning(m: UserMembership, now: Instant)
    ensures IsActiveMembership(m, now) <==>
                m.status == MembershipActive && (m.expiresAt.None? || m.expiresAt.value >= now)
  {
  }

  datatype UsageKind = ClassCredit | EventCredit

  /**
   * One entry of a membership's credit log: `amount` credits of `kind`,
   * consumed, or given back when `reversed`. `membership` is the position
   * of the membership in the membership table.
   */
  datatype MembershipUsage = MembershipUsage(
    membership: nat,
    kind: UsageKind,
    amount: nat,
    referenceId: Option<Id>,
    reversed: bool)
}

=== FILE: booking_payments.dfy ===
/**
 * The Stripe helpers of the class-booking side: converting a session price
 * to cents, describing the payment, building the PaymentIntent request for
 * a booking, and the secret check before a webhook is parsed.
 */
module BookingPayments {
  import opened Common
  import opened Money
  import opened BookingModels
  import opened Stripe

  const PriceMissingMessage := "Session price is not configured."
  const PriceNotPositiveMessage := "Session price must be greater than zero."

  /**
   * `_convert_price_to_cents` for bookings: a missing price and a price
   * that rounds half-up to zero or less are refused; otherwise the result
   * is the rounded amount in cents, which is therefore at least 1. A price
   * converts exactly when it is at least half a cent.
   */
  function ConvertPriceToCents(amount: Option<Decimal>): (r: Result<int, PaymentError>)
    ensures amount.None? ==> r == Err(ValueError(PriceMissingMessage))
    ensures r.Ok? ==> amount.Some? && r.value == Hundredths(amount.value) && r.value > 0
    ensures r.Ok? <==> amount.Some? && 200 * amount.value.digits >= Pow10(amount.value.exp)
    ensures amount.Some? && r.Err? ==> r == Err(ValueError(PriceNotPositiveMessage))
  {
    match amount
    case None => Err(ValueError(PriceMissingMessage))
    case Some(a) =>
      HundredthsPositive(a);
      var cents := Hundredths(a);
      if cents <= 0 then Err(ValueError(PriceNotPositiveMessage)) else Ok(cents)
  }

  /** Every price stored with two decimal places converts to its own hundredths, or is refused when not positive. */
  lemma ConvertStoredPrice(h: int)
    ensures h > 0 ==> ConvertPriceToCents(Some(FromHundredths(h))) == Ok(h)
    ensures h <= 0 ==> ConvertPriceToCents(Some(FromHundredths(h))) == Err(ValueError(PriceNotPositiveMessage))
  {
    HundredthsOfTwoPlaces(h);
  }

  /** 0.005 rounds half-up to one cent; 0.004 rounds to nothing and is refused. */
  lemma HalfCentBoundary()
    ensures ConvertPriceToCents(Some(Decimal(5, 3))) == Ok(1)
    ensures ConvertPriceToCents(Some(Decimal(4, 3))) == Err(ValueError(PriceNotPositiveMessage))
  {
    assert Pow10(3) == 1000;
    assert Pow10(1) == 10;
  }

  /** `_payment_description`: the prefix defaults to "Gwiz Class Booking". */
  const ClassDescriptionPrefix := "Gwiz Class Booking"


  /** The metadata a booking intent carries. */
  function BookingMetadata(b: Booking): seq<(string, string)> {
    [("booking_id", b.id), ("user_id", UserIdText(b.user)), ("class_session_id", b.session), ("type", "booking")]
  }

  /**
   * The request `create_payment_intent_for_booking` sends. The session is
   * the booking's own `class_session`, looked up in the sessions table by
   * its id (the foreign key guarantees the row exists); `dateText` renders
   * a date as Python prints it. Stripe must be configured (checked first),
   * the session's effective price must convert, and then the amount is that
   * price in cents, the metadata names the booking, its user and its
   * session, the description names the class and the session's date, and
   * a receipt goes to the booking user's account e-mail when there is one.
   */
  function BookingIntentRequest(
    settings: map<string, string>, emails: map<UserId, string>,
    sessions: map<Id, ClassSession>, b: Booking, dateText: Day -> string): (r: Result<IntentRequest, PaymentError>)
    requires b.session in sessions
    ensures !StripeEnabled(settings) ==> r == Err(ImproperlyConfigured(SecretMissingMessage))
    ensures StripeEnabled(settings) && ConvertPriceToCents(Some(PriceEffective(sessions[b.session]))).Err? ==>
              r == Err(ConvertPriceToCents(Some(PriceEffective(sessions[b.session]))).error)
    ensures r.Ok? ==>
              var s := sessions[b.session];
              && r.value.amount == Hundredths(PriceEffective(s)) && r.value.amount > 0
              && r.value.currency == Currency(settings)
              && ("booking_id", b.id) in r.value.metadata
              && ("user_id", UserIdText(b.user)) in r.value.metadata
              && ("class_session_id", b.session) in r.value.metadata
              && ("type", "booking") in r.value.metadata
              && r.value.description == PaymentDescription(settings, ClassDescriptionPrefix, s.fitnessClass.name, dateText(s.date))
              && (r.value.receiptEmail.Some? <==> AccountEmail(emails, b.user) != "")
              && (b.user.None? ==> r.value.receiptEmail.None?)
  {
    var s := sessions[b.session];
    match ConfigureStripe(settings)
    case Err(e) => Err(e)
    case Ok(_) =>
      match ConvertPriceToCents(Some(PriceEffective(s)))
      case Err(e) => Err(e)
      case Ok(cents) =>
        Ok(IntentRequest(
          cents, Currency(settings), BookingMetadata(b),
          PaymentDescription(settings, ClassDescriptionPrefix, s.fitnessClass.name, dateText(s.date)),
          ReceiptEmail(AccountEmail(emails, b.user))))
  }

  /**
   * With Stripe configured, a booking's intent is decided by its session's
   * stored two-place price alone: a positive price of `h` hundredths is
   * charged as exactly `h` cents, and a zero or negative one is refused.
   */
  lemma StoredPriceIntent(
    settings: map<string, string>, emails: map<UserId, string>,
    sessions: map<Id, ClassSession>, b: Booking, dateText: Day -> string, h: int)
    requires b.session in sessions && StripeEnabled(settings)
    requires PriceEffective(sessions[b.session]) == FromHundredths(h)
    ensures h > 0 ==> BookingIntentRequest(settings, emails, sessions, b, dateText).Ok?
                      && BookingIntentRequest(settings, emails, sessions, b, dateText).value.amount == h
    ensures h <= 0 ==> BookingIntentRequest(settings, emails, sessions, b, dateText)
                       == Err(ValueError(PriceNotPositiveMessage))
  {
    ConvertStoredPrice(h);
  }

  /** A session whose effective price is zero can never be paid for online. */
  lemma FreeSessionHasNoIntent(
    settings: map<string, string>, emails: map<UserId, string>,
    sessions: map<Id, ClassSession>, b: Booking, dateText: Day -> string)
    requires b.session in sessions && IsZero(PriceEffective(sessions[b.session]))
    ensures BookingIntentRequest(settings, emails, sessions, b, dateText).Err?
  {
    HundredthsPositive(PriceEffective(sessions[b.session]));
  }

  const WebhookSecretMissingMessage := "STRIPE_WEBHOOK_SECRET is not configured for booking webhooks."

  /**
   * `parse_stripe_event` for bookings: without a non-empty
   * `STRIPE_WEBHOOK_SECRET` it refuses before looking at the payload;
   * otherwise the provider checks the payload under that secret.
   */
  function ParseStripeEvent(
    settings: map<string, string>, payload: string, sigHeader: string, construct: ConstructEvent)
    : (r: Result<StripeEvent, ParseFailure>)
    ensures Setting(settings, "STRIPE_WEBHOOK_SECRET", "") == "" ==>
              r == Err(NotConfigured(WebhookSecretMissingMessage))
    ensures Setting(settings, "STRIPE_WEBHOOK_SECRET", "") != "" ==>
              var c := construct(payload, Some(sigHeader), Some(settings["STRIPE_WEBHOOK_SECRET"]));
              (c.Ok? ==> r == Ok(c.value)) && (c.Err? ==> r == Err(Rejected(c.error)))
  {
    var secret := Setting(settings, "STRIPE_WEBHOOK_SECRET", "");
    if secret == "" then Err(NotConfigured(WebhookSecretMissingMessage))
    else
      match construct(payload, Some(sigHeader), Some(secret))
      case Ok(ev) => Ok(ev)
      case Err(f) => Err(Rejected(f))
  }
}

=== FILE: common.dfy ===
/**
 * Shared vocabulary of the booking back end: optional values, results,
 * identifiers, and the clock and calendar conventions every module uses.
 */
module Common {

  /** A value that may be absent (a nullable column, a missing query parameter). */
  datatype Option<+T> = None | Some(value: T) {
    function GetOr(default: T): T {
      match this
      case Some(v) => v
      case None => default
    }
  }

  /** Either a value or the error the source raises or returns instead. */
  datatype Result<+T, +E> = Ok(value: T) | Err(error: E)

  /** The text form of a primary key (a UUID or an integer id, as `str()` prints it). */
  type Id = string

  /** A user account, identified by the text of its primary key. */
  type UserId = string

  /**
   * A calendar date as a day number: day 0 is 0001-01-01 (Python's ordinal 1,
   * a Monday), so the Python `date.weekday()` of day `d` is `d % 7`.
   */
  type Day = int

  /** A point in time in whole seconds. */
  type Instant = int

  /** A time of day in seconds after midnight. */
  type TimeOfDay = int

  /** Python's `datetime.weekday()` for a day number: 0 is Monday, 6 is Sunday. */
  function Weekday(d: Day): (w: int)
    ensures 0 <= w < 7
  {
    d % 7
  }

  /** Weekdays repeat every seven days, also across negative day numbers. */
  lemma WeekdayPeriodic(d: Day)
    ensures Weekday(d + 7) == Weekday(d)
  {
  }

  /**
   * Django's `getattr(settings, name, default)`: the configured value when the
   * setting exists, otherwise the default.
   */
  function Setting(settings: map<string, string>, name: string, default: string): (v: string)
    ensures name in settings ==> v == settings[name]
    ensures name !in settings ==> v == default
  {
    if name in settings then settings[name] else default
  }
}

=== FILE: event_models.dfy ===
/**
 * Public events and the tickets bought for them, with the capacity
 * accounting derived from the ticket table.
 */
module EventModels {
  import opened Common
  import opened Money
  import opened BookingModels

  /** A public event; `ticketPrice` of zero means a free event. */
  datatype Event = Event(
    id: Id,
    name: string,
    startAt: Instant,
    ticketPrice: Decimal,
    capacity: nat,
    isActive: bool)

  datatype TicketStatus = Reserved | Confirmed | TicketCancelled

  /** A ticket order of `quantity` places, held by a user or by a guest. */
  datatype EventTicket = EventTicket(
    id: Id,
    event: Id,
    user: Option<UserId>,
    isGuestPurchase: bool,
    guestName: string,
    guestEmail: string,
    guestPhone: string,
    status: TicketStatus,
    paymentStatus: PaymentStatus,
    intentId: Option<string>,
    quantity: nat)

  /** `ACTIVE_STATUSES`: the states that hold capacity. */
  predicate TicketIsActive(t: EventTicket) {
    t.status in {Reserved, Confirmed}
  }

  predicate TicketIsPaid(t: EventTicket) {
    t.paymentStatus in {Included, Paid}
  }

  /** The capacity and quantity validators (`MinValueValidator(1)`). */
  predicate ValidEvent(e: Event) {
    e.capacity >= 1
  }

  predicate ValidTicket(t: EventTicket) {
    t.quantity >= 1
  }

  /** Whether `t` holds capacity of event `e`. */
  predicate Holds(t: EventTicket, e: Id) {
    t.event == e && TicketIsActive(t)
  }

  /**
   * `tickets_reserved`: the sum of `quantity` over the event's reserved and
   * confirmed tickets, 0 when there are none.
   */
  function TicketsReserved(ts: seq<EventTicket>, e: Id): (n: nat)
    ensures (forall i | 0 <= i < |ts| :: !Holds(ts[i], e)) ==> n == 0
    ensures forall i | 0 <= i < |ts| && Holds(ts[i], e) :: n >= ts[i].quantity
    decreases |ts|
  {
    if |ts| == 0 then 0
    else
      var last := ts[|ts| - 1];
      var before := TicketsReserved(ts[..|ts| - 1], e);
      before + (if Holds(last, e) then last.quantity else 0)
  }

  /** Appending a ticket adds its quantity exactly when it holds capacity. */
  lemma TicketsReservedAppend(ts: seq<EventTicket>, t: EventTicket, e: Id)
    ensures TicketsReserved(ts + [t], e)
            == TicketsReserved(ts, e) + (if Holds(t, e) then t.quantity else 0)
  {
    assert (ts + [t])[..|ts|] == ts;
  }

  /**
   * Replacing one ticket changes the total by the difference of what the
   * old and the new row hold.
   */
  lemma {:induction false} TicketsReservedUpdate(ts: seq<EventTicket>, i: nat, t: EventTicket, e: Id)
    requires i < |ts|
    ensures TicketsReserved(ts[i := t], e)
            == TicketsReserved(ts, e)
               - (if Holds(ts[i], e) then ts[i].quantity else 0)
               + (if Holds(t, e) then t.quantity else 0)
    decreases |ts|
  {
    var n := |ts| - 1;
    var u := ts[i := t];
    assert |u| == |ts|;
    var hOld := if Holds(ts[i], e) then ts[i].quantity else 0;
    var hNew := if Holds(t, e) then t.quantity else 0;
    var hLast := if Holds(ts[n], e) then ts[n].quantity else 0;
    assert TicketsReserved(ts, e) == TicketsReserved(ts[..n], e) + hLast;
    if i == n {
      assert u[..n] == ts[..n];
      assert TicketsReserved(u, e) == TicketsReserved(ts[..n], e) + hNew;
    } else {
      assert u[..n] == ts[..n][i := t];
      assert u[n] == ts[n];
      assert TicketsReserved(u, e) == TicketsReserved(u[..n], e) + hLast;
      TicketsReservedUpdate(ts[..n], i, t, e);
      assert ts[..n][i] == ts[i];
    }
  }

  /** `remaining_tickets`: capacity minus reserved, floored at 0. */
  function RemainingTickets(ev: Event, ts: seq<EventTicket>): (r: nat)
    ensures r <= ev.capacity
    ensures r + TicketsReserved(ts, ev.id) >= ev.capacity
    ensures r > 0 ==> r + TicketsReserved(ts, ev.id) == ev.capacity
  {
    if ev.capacity > TicketsReserved(ts, ev.id) then ev.capacity - TicketsReserved(ts, ev.id) else 0
  }

  /** `is_sold_out`: nothing remains, i.e. reservations reach the capacity. */
  predicate IsSoldOut(ev: Event, ts: seq<EventTicket>) {
    RemainingTickets(ev, ts) <= 0
  }

  lemma SoldOutMeaning(ev: Event, ts: seq<EventTicket>)
    ensures IsSoldOut(ev, ts) <==> TicketsReserved(ts, ev.id) >= ev.capacity
  {
  }

  /**
   * An event whose capacity passes its validator is on sale while none of
   * the tickets hold it: all its places remain.
   */
  lemma ValidEventOnSale(ev: Event, ts: seq<EventTicket>)
    requires ValidEvent(ev)
    requires forall i | 0 <= i < |ts| :: !Holds(ts[i], ev.id)
    ensures RemainingTickets(ev, ts) == ev.capacity >= 1
    ensures !IsSoldOut(ev, ts)
  {
  }

  /**
   * Cancelling an active ticket of the event releases exactly its quantity;
   * a cancelled ticket never counts against capacity.
   */
  lemma CancelReleases(ts: seq<EventTicket>, i: nat, e: Id)
    requires i < |ts| && Holds(ts[i], e)
    ensures TicketsReserved(ts[i := ts[i].(status := TicketCancelled)], e)
            == TicketsReserved(ts, e) - ts[i].quantity
  {
    TicketsReservedUpdate(ts, i, ts[i].(status := TicketCancelled), e);
  }

  /**
   * A new ticket takes the column defaults: reserved, pending payment, one
   * place, and not marked as a guest purchase (the views set that flag).
   */
  function NewTicket(id: Id, event: Id, user: Option<UserId>): EventTicket {
    EventTicket(id, event, user, false, "", "", "", Reserved, Pending, None, 1)
  }

  lemma NewTicketDefaults(id: Id, event: Id, user: Option<UserId>)
    ensures TicketIsActive(NewTicket(id, event, user))
    ensures !TicketIsPaid(NewTicket(id, event, user))
    ensures ValidTicket(NewTicket(id, event, user))
    ensures !NewTicket(id, event, user).isGuestPurchase
  {
  }
}

=== FILE: event_payments.dfy ===
/**
 * The Stripe helpers of the event side: price conversion (which, unlike the
 * booking side, accepts zero), the ticket intent amount, refunds on
 * cancellation, and which secret checks webhooks.
 */
module EventPayments {
  import opened Common
  import opened Money
  import opened EventModels
  import opened Stripe

  const PriceMissingMessage := "Event price is not configured."
  const PriceNegativeMessage := "Event price cannot be negative."

  /**
   * `_convert_price_to_cents` for events: a missing price and a price that
   * rounds half-up below zero are refused; zero is accepted. A price
   * converts exactly when it is above minus half a cent.
   */
  function ConvertPriceToCents(amount: Option<Decimal>): (r: Result<nat, PaymentError>)
    ensures amount.None? ==> r == Err(ValueError(PriceMissingMessage))
    ensures r.Ok? ==> amount.Some? && r.value == Hundredths(amount.value)
    ensures r.Ok? <==> amount.Some? && 200 * amount.value.digits > -(Pow10(amount.value.exp) as int)
    ensures amount.Some? && r.Err? ==> r == Err(ValueError(PriceNegativeMessage))
  {
    match amount
    case None => Err(ValueError(PriceMissingMessage))
    case Some(a) =>
      HundredthsNegative(a);
      var cents := Hundredths(a);
      if cents < 0 then Err(ValueError(PriceNegativeMessage)) else Ok(cents)
  }

  /** A free event converts to zero cents rather than being refused. */
  lemma FreeEventConverts(exp: nat)
    ensures ConvertPriceToCents(Some(Decimal(0, exp))) == Ok(0)
  {
  }

  /** `_payment_description`: the prefix defaults to "Gwiz Event". */
  const EventDescriptionPrefix := "Gwiz Event"


  /** The metadata a ticket intent carries; the event id is the ticket's `event` foreign key. */
  function TicketMetadata(t: EventTicket): seq<(string, string)> {
    [("ticket_id", t.id), ("user_id", UserIdText(t.user)), ("event_id", t.event)]
  }

  /**
   * The request `create_payment_intent_for_ticket` sends. The event is the
   * ticket's own, looked up in the events table by its id (the foreign key
   * guarantees the row exists); `dateText` renders the date of an instant
   * as Python prints it. Stripe must be configured (checked first), the
   * event's ticket price must convert, and then the amount is the
   * per-ticket price in cents times the ticket's quantity, the metadata
   * names the ticket, its user and its event, the description names the
   * event and its start date, and a receipt goes to the holder's account
   * e-mail when there is one.
   */
  function TicketIntentRequest(
    settings: map<string, string>, emails: map<UserId, string>,
    events: map<Id, Event>, t: EventTicket, dateText: Instant -> string): (r: Result<IntentRequest, PaymentError>)
    requires t.event in events
    ensures !StripeEnabled(settings) ==> r == Err(ImproperlyConfigured(SecretMissingMessage))
    ensures StripeEnabled(settings) && ConvertPriceToCents(Some(events[t.event].ticketPrice)).Err? ==>
              r == Err(ValueError(PriceNegativeMessage))
    ensures r.Ok? ==>
              var e := events[t.event];
              && r.value.amount == Hundredths(e.ticketPrice) * t.quantity
              && r.value.amount >= 0
              && r.value.currency == Currency(settings)
              && ("ticket_id", t.id) in r.value.metadata
              && ("user_id", UserIdText(t.user)) in r.value.metadata
              && ("event_id", t.event) in r.value.metadata
              && r.value.description == PaymentDescription(settings, EventDescriptionPrefix, e.name, dateText(e.startAt))
              && (r.value.receiptEmail.Some? <==> AccountEmail(emails, t.user) != "")
    ensures r.Err? ==> r.error.ImproperlyConfigured? || r.error.ValueError?
  {
    var e := events[t.event];
    match ConfigureStripe(settings)
    case Err(err) => Err(err)
    case Ok(_) =>
      match ConvertPriceToCents(Some(e.ticketPrice))
      case Err(err) => Err(err)
      case Ok(cents) =>
        Ok(IntentRequest(
          cents * t.quantity, Currency(settings), TicketMetadata(t),
          PaymentDescription(settings, EventDescriptionPrefix, e.name, dateText(e.startAt)),
          ReceiptEmail(AccountEmail(emails, t.user))))
  }

  /**
   * With Stripe configured, a ticket's intent is decided by its event's
   * stored two-place price alone: a price of `h` hundredths, zero
   * included, is charged `h` cents per place, and a negative one is
   * refused.
   */
  lemma StoredTicketPriceIntent(
    settings: map<string, string>, emails: map<UserId, string>,
    events: map<Id, Event>, t: EventTicket, dateText: Instant -> string, h: int)
    requires t.event in events && StripeEnabled(settings)
    requires events[t.event].ticketPrice == FromHundredths(h)
    ensures h >= 0 ==> TicketIntentRequest(settings, emails, events, t, dateText).Ok?
                       && TicketIntentRequest(settings, emails, events, t, dateText).value.amount == h * t.quantity
    ensures h < 0 ==> TicketIntentRequest(settings, emails, events, t, dateText)
                      == Err(ValueError(PriceNegativeMessage))
  {
    HundredthsOfTwoPlaces(h);
  }

  /**
   * `stripe.PaymentIntent.create`: the new intent's id, or the provider's
   * error. The provider is not modelled.
   */
  type CreateIntent = IntentRequest -> Result<string, PaymentError>

  /**
   * `create_payment_intent_for_ticket`: a request that cannot be built is
   * refused before the provider is reached; otherwise the provider decides.
   */
  function CreatePaymentIntentForTicket(
    settings: map<string, string>, emails: map<UserId, string>,
    events: map<Id, Event>, t: EventTicket, dateText: Instant -> string, create: CreateIntent)
    : (r: Result<string, PaymentError>)
    requires t.event in events
    ensures TicketIntentRequest(settings, emails, events, t, dateText).Err? ==>
              r == Err(TicketIntentRequest(settings, emails, events, t, dateText).error)
    ensures TicketIntentRequest(settings, emails, events, t, dateText).Ok? ==>
              r == create(TicketIntentRequest(settings, emails, events, t, dateText).value)
  {
    match TicketIntentRequest(settings, emails, events, t, dateText)
    case Err(err) => Err(err)
    case Ok(req) => create(req)
  }

  /** What `refund_payment_intent` does. */
  datatype RefundOutcome = NoRefund | RefundRequested(intentId: string) | RefundNotConfigured

  /**
   * `refund_payment_intent`: a missing or empty intent id is a no-op that
   * does not look at the configuration; otherwise an unconfigured Stripe
   * raises `ImproperlyConfigured`, and a configured one requests the
   * refund. Provider errors on the refund are swallowed, so its outcome is
   * not an input here.
   */
  function RefundPaymentIntent(settings: map<string, string>, intentId: Option<string>): (r: RefundOutcome)
    ensures intentId.None? || intentId == Some("") ==> r == NoRefund
    ensures intentId.Some? && intentId.value != "" ==>
              (r == RefundNotConfigured <==> !StripeEnabled(settings))
    ensures r.RefundRequested? ==> intentId == Some(r.intentId) && r.intentId != "" && StripeEnabled(settings)
  {
    match intentId
    case None => NoRefund
    case Some(id) =>
      if id == "" then NoRefund
      else if ConfigureStripe(settings).Err? then RefundNotConfigured
      else RefundRequested(id)
  }

  /**
   * The webhook secret: `STRIPE_EVENTS_WEBHOOK_SECRET` whenever that
   * setting exists (even when empty), else `STRIPE_WEBHOOK_SECRET`, else "".
   */
  function WebhookSecret(settings: map<string, string>): (s: string)
    ensures "STRIPE_EVENTS_WEBHOOK_SECRET" in settings ==> s == settings["STRIPE_EVENTS_WEBHOOK_SECRET"]
    ensures "STRIPE_EVENTS_WEBHOOK_SECRET" !in settings && "STRIPE_WEBHOOK_SECRET" in settings ==>
              s == settings["STRIPE_WEBHOOK_SECRET"]
    ensures "STRIPE_EVENTS_WEBHOOK_SECRET" !in settings && "STRIPE_WEBHOOK_SECRET" !in settings ==> s == ""
  {
    Setting(settings, "STRIPE_EVENTS_WEBHOOK_SECRET", Setting(settings, "STRIPE_WEBHOOK_SECRET", ""))
  }

  /**
   * `parse_stripe_event` for events: with a secret the provider checks the
   * signature under it; without one the event is still constructed, an
   * empty signature header and the missing secret passed as `None`.
   * Configuration is never an error here.
   */
  function ParseStripeEvent(settings: map<string, string>, payload: string, sigHeader: string, construct: ConstructEvent)
    : (r: Result<StripeEvent, WebhookFailure>)
    ensures WebhookSecret(settings) != "" ==> r == construct(payload, Some(sigHeader), Some(WebhookSecret(settings)))
    ensures WebhookSecret(settings) == "" ==>
              r == construct(payload, if sigHeader == "" then None else Some(sigHeader), None)
  {
    var secret := WebhookSecret(settings);
    if secret != "" then construct(payload, Some(sigHeader), Some(secret))
    else construct(payload, if sigHeader == "" then None else Some(sigHeader), None)
  }
}

=== FILE: event_tickets.dfy ===
/**
 * The event-ticket views as transitions over one store: buying tickets,
 * cancelling them, and the Stripe webhook that settles or fails a payment.
 * Each request is one sequential step; the payment provider, the signer and
 * the clock are part of the environment the step receives.
 */
module EventTickets {
  import opened Common
  import opened Money
  import opened Text
  import opened BookingModels
  import opened EventModels
  import opened Membership
  import opened CancelTokens
  import opened Stripe
  import opened EventPayments

  /** An e-mail the views send, recorded instead of delivered. */
  datatype Notice = TicketConfirmation(ticket: Id, token: Option<Token>) | TicketCancellation(ticket: Id)

  /**
   * The tables the views touch: events by primary key, tickets in creation
   * order, the membership ledger, the e-mails sent and the refunds
   * requested from Stripe.
   */
  datatype Store = Store(
    events: map<Id, Event>,
    tickets: seq<EventTicket>,
    ledger: Ledger,
    outbox: seq<Notice>,
    refunds: seq<string>)

  /** What a request sees besides the store. */
  datatype Env = Env(
    now: Instant,
    settings: map<string, string>,
    emails: map<UserId, string>,
    dateText: Instant -> string,
    create: CreateIntent,
    sign: Signer,
    maxAge: int)

  /** The HTTP response: status, detail message, the ticket and a guest's cancel token. */
  datatype Response = Response(status: nat, detail: string, ticket: Option<EventTicket>, cancelToken: Option<Token>)

  datatype Outcome = Outcome(store: Store, response: Response)

  function Refuse(status: nat, detail: string): Response {
    Response(status, detail, None, None)
  }

  const TicketKind := "event_ticket"

  /** Every event is stored under its own primary key. */
  predicate WellKeyed(s: Store) {
    forall k | k in s.events :: s.events[k].id == k
  }

  /** Every ticket's event exists (the foreign key). */
  predicate TicketsReferToEvents(s: Store) {
    forall i | 0 <= i < |s.tickets| :: s.tickets[i].event in s.events
  }

  /** No event holds more places than its capacity. */
  predicate CapacityRespected(s: Store) {
    forall k | k in s.events :: TicketsReserved(s.tickets, k) <= s.events[k].capacity
  }

  /** The newest ticket satisfying `p`, as `.filter(...).first()` under `-created_at`. */
  function NewestWhere(ts: seq<EventTicket>, p: EventTicket -> bool): (r: Option<nat>)
    ensures r.None? <==> forall i | 0 <= i < |ts| :: !p(ts[i])
    ensures r.Some? ==> r.value < |ts| && p(ts[r.value])
    ensures r.Some? ==> forall j | r.value < j < |ts| :: !p(ts[j])
    decreases |ts|
  {
    if |ts| == 0 then None
    else if p(ts[|ts| - 1]) then Some(|ts| - 1)
    else NewestWhere(ts[..|ts| - 1], p)
  }

  /** The user already holds a reserved or confirmed ticket for the event. */
  predicate HasActiveTicket(ts: seq<EventTicket>, user: UserId, event: Id) {
    exists i | 0 <= i < |ts| :: ts[i].user == Some(user) && ts[i].event == event && TicketIsActive(ts[i])
  }

  // ---------------------------------------------------------------- purchase

  /**
   * The body of a purchase: the buyer (`None` for a guest), the event id of
   * the URL, the `quantity` field (absent means 1) and the guest fields as
   * sent.
   */
  datatype PurchaseRequest = PurchaseRequest(
    user: Option<UserId>,
    eventId: Id,
    quantity: Option<int>,
    guestName: string,
    guestEmail: string,
    guestPhone: string)

  const QuantityMessage := "Ensure this value is greater than or equal to 1."

  function Quantity(req: PurchaseRequest): int {
    req.quantity.GetOr(1)
  }

  /** Every check a purchase makes before it creates a ticket. */
  predicate PurchaseAdmissible(s: Store, req: PurchaseRequest, now: Instant) {
    && Quantity(req) >= 1
    && req.eventId in s.events && s.events[req.eventId].isActive
    && s.events[req.eventId].startAt >= now
    && Quantity(req) <= RemainingTickets(s.events[req.eventId], s.tickets)
    && (req.user.Some? ==> !HasActiveTicket(s.tickets, req.user.value, req.eventId))
    && (req.user.None? ==> Strip(req.guestEmail) != "")
  }

  /** A signed-in buyer whose membership covers the quantity in event credits. */
  predicate UsesMembership(s: Store, req: PurchaseRequest, now: Instant) {
    req.user.Some? && Quantity(req) >= 1 && CanBook(s.ledger, req.user, now, EventCredit, Quantity(req)).0
  }

  /** `is_free`: a zero ticket price, or credits that cover it. */
  predicate IsFreePurchase(s: Store, req: PurchaseRequest, now: Instant)
    requires req.eventId in s.events
  {
    IsZero(s.events[req.eventId].ticketPrice) || UsesMembership(s, req, now)
  }

  /**
   * `PurchaseTicketView.post`. The checks run in order: quantity, event
   * found and active (404), not started, enough places left, no second
   * active ticket for a signed-in buyer, an e-mail for a guest (400 each).
   * A free or credit-covered ticket is confirmed at once, credits being
   * consumed when used; any other is reserved pending payment and kept only
   * if Stripe accepts the intent, with the intent id recorded. A guest's
   * response always carries a cancel token. A refused request changes
   * nothing.
   */
  function PurchaseTicket(s: Store, req: PurchaseRequest, env: Env, newId: Id): (o: Outcome)
    ensures o.response.status != 201 ==> o.store == s
    ensures o.response.status == 201 <==>
              PurchaseAdmissible(s, req, env.now)
              && (IsFreePurchase(s, req, env.now)
                  || CreatePaymentIntentForTicket(
                       env.settings, env.emails, s.events, PendingTicket(s, req, newId), env.dateText, env.create).Ok?)
    ensures o.response.status == 201 ==>
              && o.response.ticket.Some?
              && var t := o.response.ticket.value;
              && o.store.tickets == s.tickets + [t]
              && t.id == newId && t.event == req.eventId && t.user == req.user
              && t.quantity == Quantity(req) && TicketIsActive(t)
              && (t.status == Confirmed <==> IsFreePurchase(s, req, env.now))
              && (t.paymentStatus == Included <==> IsFreePurchase(s, req, env.now))
              && (t.paymentStatus == Pending <==> !IsFreePurchase(s, req, env.now))
              && (t.paymentStatus == Pending ==> t.intentId.Some?)
              && (req.user.None? <==> o.response.cancelToken.Some?)
              && o.store.events == s.events && o.store.refunds == s.refunds
              && o.store.outbox == s.outbox + (if IsFreePurchase(s, req, env.now)
                                               then [TicketConfirmation(newId, o.response.cancelToken)] else [])
    ensures !PurchaseAdmissible(s, req, env.now) ==> o.response.status in {400, 404}
  {
    var q := Quantity(req);
    if q < 1 then Outcome(s, Refuse(400, QuantityMessage))
    else if req.eventId !in s.events || !s.events[req.eventId].isActive then
      Outcome(s, Refuse(404, "Event not found or inactive."))
    else
      var e := s.events[req.eventId];
      if e.startAt < env.now then Outcome(s, Refuse(400, "This event has already started."))
      else if q > RemainingTickets(e, s.tickets) then Outcome(s, Refuse(400, "Not enough tickets available."))
      else if req.user.Some? && HasActiveTicket(s.tickets, req.user.value, req.eventId) then
        Outcome(s, Refuse(400, "You already have an active ticket for this event."))
      else if req.user.None? && Strip(req.guestEmail) == "" then
        Outcome(s, Refuse(400, "guest_email is required for guest tickets."))
      else
        var token := if req.user.None? then Some(GenerateCancelToken(env.sign, TicketKind, newId, env.now)) else None;
        if !IsFreePurchase(s, req, env.now) then
          var t := PendingTicket(s, req, newId);
          match CreatePaymentIntentForTicket(env.settings, env.emails, s.events, t, env.dateText, env.create)
          case Err(ImproperlyConfigured(_)) => Outcome(s, Refuse(503, "Online payments are currently unavailable."))
          case Err(ValueError(m)) => Outcome(s, Refuse(400, m))
          case Err(StripeError) => Outcome(s, Refuse(502, "Unable to start payment. Please try again."))
          case Ok(intent) =>
            var t' := t.(intentId := Some(intent));
            Outcome(s.(tickets := s.tickets + [t']), Response(201, "", Some(t'), token))
        else
          var t := EventTicket(newId, req.eventId, req.user, req.user.None?, Strip(req.guestName),
                               Strip(req.guestEmail), Strip(req.guestPhone), Confirmed, Included, None, q);
          var ledger :=
            if UsesMembership(s, req, env.now) then Consume(s.ledger, req.user, env.now, EventCredit, q, Some(newId)).1
            else s.ledger;
          Outcome(s.(tickets := s.tickets + [t], ledger := ledger, outbox := s.outbox + [TicketConfirmation(newId, token)]),
                  Response(201, "", Some(t), token))
  }

  /** The reserved, pending ticket a paid purchase creates before asking Stripe. */
  function PendingTicket(s: Store, req: PurchaseRequest, newId: Id): EventTicket {
    var q := Quantity(req);
    EventTicket(newId, req.eventId, req.user, req.user.None?, Strip(req.guestName),
                Strip(req.guestEmail), Strip(req.guestPhone), Reserved, Pending, None,
                if q >= 1 then q else 1)
  }

  /**
   * A successful purchase keeps every event within its capacity: the new
   * ticket fits in what remained.
   */
  lemma PurchaseKeepsCapacity(s: Store, req: PurchaseRequest, env: Env, newId: Id)
    requires WellKeyed(s) && CapacityRespected(s)
    ensures CapacityRespected(PurchaseTicket(s, req, env, newId).store)
  {
    var o := PurchaseTicket(s, req, env, newId);
    if o.response.status == 201 {
      var t := o.response.ticket.value;
      forall k | k in s.events
        ensures TicketsReserved(o.store.tickets, k) <= s.events[k].capacity
      {
        TicketsReservedAppend(s.tickets, t, k);
      }
    }
  }

  /**
   * Credits change exactly when the buyer's membership covers the
   * quantity: then `quantity` event credits are consumed for the new
   * ticket, even when the event itself is free. A paid purchase and a
   * guest purchase never touch the ledger.
   */
  lemma PurchaseCreditRule(s: Store, req: PurchaseRequest, env: Env, newId: Id)
    ensures var o := PurchaseTicket(s, req, env, newId);
      && (o.response.status == 201 && UsesMembership(s, req, env.now) ==>
            o.store.ledger == Consume(s.ledger, req.user, env.now, EventCredit, Quantity(req), Some(newId)).1
            && Consume(s.ledger, req.user, env.now, EventCredit, Quantity(req), Some(newId)).0)
      && (!UsesMembership(s, req, env.now) ==> o.store.ledger == s.ledger)
      && (req.user.None? ==> o.store.ledger == s.ledger)
  {
  }

  /** A guest's response carries a token that cancels exactly the new ticket. */
  lemma GuestTokenCancelsTicket(s: Store, req: PurchaseRequest, env: Env, newId: Id)
    requires req.user.None?
    requires PurchaseTicket(s, req, env, newId).response.status == 201
    ensures var tok := PurchaseTicket(s, req, env, newId).response.cancelToken;
      && tok.Some?
      && (VerifyCancelToken(env.sign, tok.value, TicketKind, newId, env.now, env.maxAge) <==> env.maxAge >= 0)
  {
  }

  // ------------------------------------------------------------------ cancel

  /**
   * A cancellation: the signed-in user (`None` for a guest), the ticket id
   * of the URL, and the token from the body or query (`None` when missing
   * or empty).
   */
  datatype CancelRequest = CancelRequest(user: Option<UserId>, ticketId: Id, token: Option<Token>)

  /** The caller may cancel the ticket: its owner, or a guest with a valid token for a guest ticket. */
  predicate MayCancel(t: EventTicket, req: CancelRequest, env: Env) {
    if req.user.Some? then t.user == req.user
    else
      && req.token.Some?
      && VerifyCancelToken(env.sign, req.token.value, TicketKind, req.ticketId, env.now, env.maxAge)
      && t.user.None?
  }

  /**
   * The checks of `CancelTicketView.post` in order: the ticket exists (404),
   * is not already cancelled (400), belongs to the caller (404 for another
   * member, 403 for a guest without a valid token, 404 for a guest on a
   * member's ticket), and its event has not started (400). On success the
   * result is the ticket's position.
   */
  function CancelChecks(s: Store, req: CancelRequest, env: Env): (r: Result<nat, Response>)
    requires TicketsReferToEvents(s)
    ensures r.Ok? <==>
              && NewestWhere(s.tickets, (t: EventTicket) => t.id == req.ticketId).Some?
              && var t := s.tickets[NewestWhere(s.tickets, (t: EventTicket) => t.id == req.ticketId).value];
              && t.status != TicketCancelled && MayCancel(t, req, env) && s.events[t.event].startAt >= env.now
    ensures r.Ok? ==> r.value < |s.tickets| && s.tickets[r.value].id == req.ticketId
    ensures r.Err? ==> r.error.status in {400, 403, 404}
  {
    match NewestWhere(s.tickets, (t: EventTicket) => t.id == req.ticketId)
    case None => Err(Refuse(404, "Not found."))
    case Some(i) =>
      var t := s.tickets[i];
      if t.status == TicketCancelled then Err(Refuse(400, "Ticket is already cancelled."))
      else if req.user.Some? && t.user != req.user then Err(Refuse(404, "Not found."))
      else if req.user.None? && (req.token.None? || !VerifyCancelToken(env.sign, req.token.value, TicketKind, req.ticketId, env.now, env.maxAge)) then
        Err(Refuse(403, "Invalid or missing cancel token."))
      else if req.user.None? && t.user.Some? then Err(Refuse(404, "Not found."))
      else if s.events[t.event].startAt < env.now then Err(Refuse(400, "Event has already started."))
      else Ok(i)
  }

  /**
   * The ticket after cancellation: cancelled, a pending or paid payment
   * voided, an included payment kept.
   */
  function Cancelled(t: EventTicket): (c: EventTicket)
    ensures c.status == TicketCancelled && !TicketIsActive(c)
    ensures c.paymentStatus == (if t.paymentStatus in {Pending, Paid} then Void else t.paymentStatus)
    ensures c == t.(status := TicketCancelled, paymentStatus := c.paymentStatus)
  {
    t.(status := TicketCancelled,
       paymentStatus := if t.paymentStatus in {Pending, Paid} then Void else t.paymentStatus)
  }

  /**
   * The part of a cancellation both variants share: a paid ticket's intent
   * is refunded first (an unconfigured Stripe aborts the request with a
   * server error and nothing saved), then the ticket is saved cancelled.
   */
  function CancelAndRefund(s: Store, i: nat, env: Env): (r: Result<Store, Response>)
    requires i < |s.tickets|
    ensures r.Err? <==>
              s.tickets[i].paymentStatus == Paid
              && RefundPaymentIntent(env.settings, s.tickets[i].intentId) == RefundNotConfigured
    ensures r.Err? ==> r.error.status == 500
    ensures r.Ok? ==> r.value.tickets == s.tickets[i := Cancelled(s.tickets[i])]
    ensures r.Ok? ==> r.value.ledger == s.ledger && r.value.events == s.events && r.value.outbox == s.outbox
    ensures r.Ok? ==>
              var refund := RefundPaymentIntent(env.settings, s.tickets[i].intentId);
              r.value.refunds == s.refunds + (if s.tickets[i].paymentStatus == Paid && refund.RefundRequested?
                                              then [refund.intentId] else [])
  {
    var t := s.tickets[i];
    var refund := if t.paymentStatus == Paid then RefundPaymentIntent(env.settings, t.intentId) else NoRefund;
    match refund
    case RefundNotConfigured => Err(Refuse(500, SecretMissingMessage))
    case RefundRequested(id) => Ok(s.(tickets := s.tickets[i := Cancelled(t)], refunds := s.refunds + [id]))
    case NoRefund => Ok(s.(tickets := s.tickets[i := Cancelled(t)]))
  }

  /**
   * `CancelTicketView.post` as written: after the checks and the save, the
   * caller's current membership is credited with the ticket's quantity of
   * event credits whenever the cancelled ticket's payment is `included`,
   * whether or not credits were ever consumed for it.
   */
  function CancelTicketAsWritten(s: Store, req: CancelRequest, env: Env): (o: Outcome)
    requires TicketsReferToEvents(s)
    ensures CancelChecks(s, req, env).Err? ==> o == Outcome(s, CancelChecks(s, req, env).error)
    ensures o.response.status == 200 <==>
              CancelChecks(s, req, env).Ok? && CancelAndRefund(s, CancelChecks(s, req, env).value, env).Ok?
    ensures CancelChecks(s, req, env).Ok? && CancelAndRefund(s, CancelChecks(s, req, env).value, env).Err? ==>
              o == Outcome(s, CancelAndRefund(s, CancelChecks(s, req, env).value, env).error) && o.response.status == 500
    ensures o.response.status == 200 ==>
              var i := CancelChecks(s, req, env).value;
              && CancelChecks(s, req, env).Ok?
              && o.store.tickets == s.tickets[i := Cancelled(s.tickets[i])]
              && o.store.outbox == s.outbox + [TicketCancellation(s.tickets[i].id)]
              && o.store.events == s.events
              && o.store.refunds == CancelAndRefund(s, i, env).value.refunds
              && (s.tickets[i].paymentStatus == Included ==>
                    o.store.ledger == Restore(s.ledger, req.user, env.now, EventCredit, s.tickets[i].quantity, Some(s.tickets[i].id)).1)
              && (s.tickets[i].paymentStatus != Included ==> o.store.ledger == s.ledger)
    ensures o.response.status != 200 ==> o.store == s
  {
    match CancelChecks(s, req, env)
    case Err(resp) => Outcome(s, resp)
    case Ok(i) =>
      match CancelAndRefund(s, i, env)
      case Err(resp) => Outcome(s, resp)
      case Ok(s1) =>
        var t := s1.tickets[i];
        var ledger :=
          if t.paymentStatus == Included then Restore(s1.ledger, req.user, env.now, EventCredit, t.quantity, Some(t.id)).1
          else s1.ledger;
        Outcome(s1.(ledger := ledger, outbox := s1.outbox + [TicketCancellation(t.id)]),
                Response(200, "", Some(t), None))
  }

  /**
   * The event credits consumed for ticket `ref` net of those given back,
   * over all memberships.
   */
  function RefNet(us: seq<MembershipUsage>, ref: Id): int
    decreases |us|
  {
    if |us| == 0 then 0
    else
      var u := us[|us| - 1];
      RefNet(us[..|us| - 1], ref) + (if u.referenceId == Some(ref) && u.kind == EventCredit then Signed(u) else 0)
  }

  lemma RefNetAppend(us: seq<MembershipUsage>, u: MembershipUsage, ref: Id)
    ensures RefNet(us + [u], ref)
            == RefNet(us, ref) + (if u.referenceId == Some(ref) && u.kind == EventCredit then Signed(u) else 0)
  {
    assert (us + [u])[..|us|] == us;
  }

  /** No ticket has had more event credits given back than were consumed for it. */
  ghost predicate NoCreditsMinted(l: Ledger) {
    forall ref: Id :: RefNet(l.usages, ref) >= 0
  }

  /** Credits for ticket `ref` are still held: at least `n` consumed and not given back. */
  predicate CreditsHeld(l: Ledger, ref: Id, n: nat) {
    RefNet(l.usages, ref) >= n
  }

  /**
   * `CancelTicketView.post` with the restore guarded by the ledger: credits
   * go back only when the ticket is `included` and the log shows its
   * quantity of event credits still consumed for it.
   */
  function CancelTicket(s: Store, req: CancelRequest, env: Env): (o: Outcome)
    requires TicketsReferToEvents(s)
    ensures CancelChecks(s, req, env).Err? ==> o == Outcome(s, CancelChecks(s, req, env).error)
    ensures o.response.status == 200 <==>
              CancelChecks(s, req, env).Ok? && CancelAndRefund(s, CancelChecks(s, req, env).value, env).Ok?
    ensures CancelChecks(s, req, env).Ok? && CancelAndRefund(s, CancelChecks(s, req, env).value, env).Err? ==>
              o == Outcome(s, CancelAndRefund(s, CancelChecks(s, req, env).value, env).error) && o.response.status == 500
    ensures o.response.status == 200 ==>
              var i := CancelChecks(s, req, env).value;
              var t := s.tickets[i];
              && CancelChecks(s, req, env).Ok?
              && o.store.tickets == s.tickets[i := Cancelled(t)]
              && o.store.outbox == s.outbox + [TicketCancellation(t.id)]
              && o.store.events == s.events
              && o.store.refunds == CancelAndRefund(s, i, env).value.refunds
              && (t.paymentStatus == Included && CreditsHeld(s.ledger, t.id, t.quantity) ==>
                    o.store.ledger == Restore(s.ledger, req.user, env.now, EventCredit, t.quantity, Some(t.id)).1)
              && (!(t.paymentStatus == Included && CreditsHeld(s.ledger, t.id, t.quantity)) ==> o.store.ledger == s.ledger)
    ensures o.response.status != 200 ==> o.store == s
    ensures o.response.status in {200, 400, 403, 404, 500}
  {
    match CancelChecks(s, req, env)
    case Err(resp) => Outcome(s, resp)
    case Ok(i) =>
      match CancelAndRefund(s, i, env)
      case Err(resp) => Outcome(s, resp)
      case Ok(s1) =>
        var t := s1.tickets[i];
        var ledger :=
          if t.paymentStatus == Included && CreditsHeld(s1.ledger, t.id, t.quantity) then
            Restore(s1.ledger, req.user, env.now, EventCredit, t.quantity, Some(t.id)).1
          else s1.ledger;
        Outcome(s1.(ledger := ledger, outbox := s1.outbox + [TicketCancellation(t.id)]),
                Response(200, "", Some(t), None))
  }

  /**
   * The only time limit on cancelling is the event's start: an owner can
   * cancel an active ticket of a free, not yet started event at any moment
   * before it starts.
   */
  lemma CancelUntilStart(s: Store, req: CancelRequest, env: Env, i: nat)
    requires TicketsReferToEvents(s)
    requires i < |s.tickets| && s.tickets[i].id == req.ticketId
    requires forall j | 0 <= j < |s.tickets| && j != i :: s.tickets[j].id != req.ticketId
    requires req.user.Some? && s.tickets[i].user == req.user
    requires s.tickets[i].status != TicketCancelled && s.tickets[i].paymentStatus != Paid
    requires s.events[s.tickets[i].event].startAt >= env.now
    ensures CancelTicket(s, req, env).response.status == 200
    ensures CancelTicketAsWritten(s, req, env).response.status == 200
  {
    var r := NewestWhere(s.tickets, (t: EventTicket) => t.id == req.ticketId);
    assert r == Some(i);
  }

  /**
   * A paid ticket cancels once the caller may cancel it (its owner, or a
   * guest with a valid token) and Stripe is configured: the answer is 200,
   * the payment is void and the intent's refund is requested.
   */
  lemma PaidCancelRefunds(s: Store, req: CancelRequest, env: Env, i: nat, intent: string)
    requires TicketsReferToEvents(s)
    requires i < |s.tickets| && s.tickets[i].id == req.ticketId
    requires forall j | 0 <= j < |s.tickets| && j != i :: s.tickets[j].id != req.ticketId
    requires MayCancel(s.tickets[i], req, env)
    requires s.tickets[i].status != TicketCancelled && s.events[s.tickets[i].event].startAt >= env.now
    requires s.tickets[i].paymentStatus == Paid && s.tickets[i].intentId == Some(intent) && intent != ""
    requires StripeEnabled(env.settings)
    ensures var o := CancelTicket(s, req, env);
      && o.response.status == 200
      && o.store.tickets[i].paymentStatus == Void && o.store.tickets[i].status == TicketCancelled
      && o.store.refunds == s.refunds + [intent]
    ensures var o := CancelTicketAsWritten(s, req, env);
      o.response.status == 200 && o.store.refunds == s.refunds + [intent]
  {
    var r := NewestWhere(s.tickets, (t: EventTicket) => t.id == req.ticketId);
    assert r == Some(i);
  }

  /** Cancelling releases the ticket's places and never breaks capacity. */
  lemma CancelKeepsCapacity(s: Store, req: CancelRequest, env: Env)
    requires TicketsReferToEvents(s) && CapacityRespected(s)
    ensures CapacityRespected(CancelTicket(s, req, env).store)
    ensures CapacityRespected(CancelTicketAsWritten(s, req, env).store)
  {
    if CancelChecks(s, req, env).Ok? {
      var i := CancelChecks(s, req, env).value;
      forall k | k in s.events
        ensures TicketsReserved(s.tickets[i := Cancelled(s.tickets[i])], k) <= s.events[k].capacity
      {
        TicketsReservedUpdate(s.tickets, i, Cancelled(s.tickets[i]), k);
      }
    }
  }

  /** Consuming and restoring for a ticket reference: only that reference's net moves, by the amount. */
  lemma LedgerStepsRefNet(l: Ledger, user: Option<UserId>, now: Instant, n: nat, ref: Id)
    ensures var c := Consume(l, user, now, EventCredit, n, Some(ref)).1;
      forall r: Id :: RefNet(c.usages, r) >= RefNet(l.usages, r)
    ensures var c := Restore(l, user, now, EventCredit, n, Some(ref)).1;
      && RefNet(c.usages, ref) >= RefNet(l.usages, ref) - n
      && forall r: Id | r != ref :: RefNet(c.usages, r) == RefNet(l.usages, r)
  {
    var (ok1, c1) := Consume(l, user, now, EventCredit, n, Some(ref));
    if ok1 {
      forall r: Id
        ensures RefNet(c1.usages, r) >= RefNet(l.usages, r)
      {
        RefNetAppend(l.usages, c1.usages[|l.usages|], r);
      }
    }
    var (ok2, c2) := Restore(l, user, now, EventCredit, n, Some(ref));
    if ok2 {
      forall r: Id
        ensures RefNet(c2.usages, r) == RefNet(l.usages, r) - (if r == ref then n else 0)
      {
        RefNetAppend(l.usages, c2.usages[|l.usages|], r);
      }
    }
  }

  /** A purchase only ever consumes credits, so it mints none. */
  lemma PurchaseMintsNothing(s: Store, req: PurchaseRequest, env: Env, newId: Id)
    requires NoCreditsMinted(s.ledger)
    ensures NoCreditsMinted(PurchaseTicket(s, req, env, newId).store.ledger)
  {
    if Quantity(req) >= 1 {
      LedgerStepsRefNet(s.ledger, req.user, env.now, Quantity(req), newId);
    }
  }

  /** The guarded cancellation never gives back credits that were not consumed for the ticket. */
  lemma CancelMintsNothing(s: Store, req: CancelRequest, env: Env)
    requires TicketsReferToEvents(s) && NoCreditsMinted(s.ledger)
    ensures NoCreditsMinted(CancelTicket(s, req, env).store.ledger)
  {
    if CancelChecks(s, req, env).Ok? {
      var t := s.tickets[CancelChecks(s, req, env).value];
      LedgerStepsRefNet(s.ledger, req.user, env.now, t.quantity, t.id);
    }
  }

  /** A free event, and a member whose active membership has no event credits left. */
  function OpenDayStore(): Store {
    Store(map["e1" := Event("e1", "Open day", 100, Decimal(0, 2), 10, true)], [],
          Ledger([UserMembership("m1", "u1", "p1", 0, 0, MembershipActive, 0, None)], []), [], [])
  }

  function OpenDayTicket(): EventTicket {
    EventTicket("t1", "e1", Some("u1"), false, "", "", "", Confirmed, Included, None, 1)
  }

  /** The member's purchase of one place: confirmed and included, no credits consumed. */
  lemma OpenDayPurchase(env: Env)
    requires env.now == 0
    ensures PurchaseTicket(OpenDayStore(), PurchaseRequest(Some("u1"), "e1", Some(1), "", "", ""), env, "t1").store
         == OpenDayStore().(tickets := [OpenDayTicket()], outbox := [TicketConfirmation("t1", None)])
  {
    var s0 := OpenDayStore();
    var preq := PurchaseRequest(Some("u1"), "e1", Some(1), "", "", "");
    assert RemainingTickets(s0.events["e1"], []) == 10;
    assert !HasActiveTicket([], "u1", "e1");
    assert ActiveMembership(s0.ledger, Some("u1"), 0) == Some(0);
    assert !UsesMembership(s0, preq, 0);
  }

  /** The store right after that purchase. */
  function OpenDayBought(): Store {
    OpenDayStore().(tickets := [OpenDayTicket()], outbox := [TicketConfirmation("t1", None)])
  }

  /** The member may cancel the ticket: it is theirs, active, and the event has not started. */
  lemma OpenDayCancelAllowed(env: Env)
    requires env.now == 0
    ensures TicketsReferToEvents(OpenDayBought())
    ensures CancelChecks(OpenDayBought(), CancelRequest(Some("u1"), "t1", None), env) == Ok(0)
    ensures ActiveMembership(OpenDayBought().ledger, Some("u1"), 0) == Some(0)
  {
    var b := OpenDayBought();
    assert NewestWhere(b.tickets, (x: EventTicket) => x.id == "t1") == Some(0);
  }

  /** The as-written cancellation records one event credit given back for a ticket that consumed none. */
  lemma OpenDayCancelAsWritten(env: Env)
    requires env.now == 0
    ensures TicketsReferToEvents(OpenDayBought())
    ensures var l := CancelTicketAsWritten(OpenDayBought(), CancelRequest(Some("u1"), "t1", None), env).store.ledger;
      && l.memberships[0].remainingEvents == 1
      && l.usages == [MembershipUsage(0, EventCredit, 1, Some("t1"), true)]
  {
    OpenDayCancelAllowed(env);
  }

  /** The guarded cancellation sees no credits held for the ticket and leaves the ledger alone. */
  lemma OpenDayCancelGuarded(env: Env)
    requires env.now == 0
    ensures TicketsReferToEvents(OpenDayBought())
    ensures CancelTicket(OpenDayBought(), CancelRequest(Some("u1"), "t1", None), env).store.ledger
         == OpenDayStore().ledger
  {
    OpenDayCancelAllowed(env);
    assert !CreditsHeld(OpenDayBought().ledger, "t1", 1);
  }

  /**
   * The counterexample to the unguarded restore: after that purchase the
   * member cancels; the as-written cancellation credits the membership
   * with one event credit consumed nowhere, the guarded one leaves the
   * ledger as it was.
   */
  lemma FreeTicketCancelMintsCredit(env: Env)
    requires env.now == 0
    ensures var s0 := OpenDayStore();
      var bought := PurchaseTicket(s0, PurchaseRequest(Some("u1"), "e1", Some(1), "", "", ""), env, "t1").store;
      var req := CancelRequest(Some("u1"), "t1", None);
      && TicketsReferToEvents(bought)
      && bought.ledger == s0.ledger
      && var asWritten := CancelTicketAsWritten(bought, req, env).store;
      && asWritten.ledger.memberships[0].remainingEvents == 1
      && RefNet(asWritten.ledger.usages, "t1") == -1
      && !NoCreditsMinted(asWritten.ledger)
      && CancelTicket(bought, req, env).store.ledger == s0.ledger
  {
    OpenDayPurchase(env);
    OpenDayCancelAsWritten(env);
    OpenDayCancelGuarded(env);
    var u := MembershipUsage(0, EventCredit, 1, Some("t1"), true);
    RefNetAppend([], u, "t1");
    assert [] + [u] == [u];
  }

  // ----------------------------------------------------------------- webhook

  /** The PaymentIntent id of a webhook's `data.object`, when present and non-empty. */
  function IntentId(data: map<string, string>): (r: Option<string>)
    ensures r.Some? <==> "id" in data && data["id"] != ""
    ensures r.Some? ==> r.value == data["id"]
  {
    if "id" in data && data["id"] != "" then Some(data["id"]) else None
  }

  /**
   * The ticket a PaymentIntent notification addresses: none without an
   * intent id, otherwise the newest ticket carrying that id (`.first()`
   * under the newest-first ordering), none when no ticket carries it.
   */
  function WebhookTarget(ts: seq<EventTicket>, data: map<string, string>): (r: Option<nat>)
    ensures r.None? <==> IntentId(data).None? || forall i | 0 <= i < |ts| :: ts[i].intentId != IntentId(data)
    ensures r.Some? ==> r.value < |ts| && IntentId(data).Some? && ts[r.value].intentId == IntentId(data)
    ensures r.Some? ==> forall j | r.value < j < |ts| :: ts[j].intentId != IntentId(data)
  {
    if IntentId(data).None? then None
    else NewestWhere(ts, (t: EventTicket) => t.intentId == IntentId(data))
  }

  /**
   * `_handle_payment_intent_succeeded`: the newest ticket with the intent
   * id becomes paid and confirmed and its holder is e-mailed, unless it is
   * already paid. Capacity and an earlier cancellation are not rechecked.
   */
  function HandleSucceeded(s: Store, data: map<string, string>, env: Env): (s': Store)
    ensures s'.ledger == s.ledger && s'.events == s.events && s'.refunds == s.refunds
    ensures |s'.tickets| == |s.tickets|
    ensures forall i | 0 <= i < |s.tickets| && s'.tickets[i] != s.tickets[i] ::
              s.tickets[i].intentId == IntentId(data) && IntentId(data).Some?
              && s.tickets[i].paymentStatus != Paid
              && s'.tickets[i] == s.tickets[i].(paymentStatus := Paid, status := Confirmed)
    ensures s' == s || |s'.outbox| == |s.outbox| + 1
    ensures WebhookTarget(s.tickets, data).None? ==> s' == s
    ensures WebhookTarget(s.tickets, data).Some? && s.tickets[WebhookTarget(s.tickets, data).value].paymentStatus == Paid ==>
              s' == s
    ensures WebhookTarget(s.tickets, data).Some? && s.tickets[WebhookTarget(s.tickets, data).value].paymentStatus != Paid ==>
              var i := WebhookTarget(s.tickets, data).value;
              var t := s.tickets[i];
              && s'.tickets == s.tickets[i := t.(paymentStatus := Paid, status := Confirmed)]
              && |s'.outbox| == |s.outbox| + 1 && s'.outbox[..|s.outbox|] == s.outbox
              && s'.outbox[|s.outbox|].TicketConfirmation? && s'.outbox[|s.outbox|].ticket == t.id
              && (s'.outbox[|s.outbox|].token.Some? <==> t.user.None?)
  {
    match WebhookTarget(s.tickets, data)
    case None => s
    case Some(i) =>
      var t := s.tickets[i];
      if t.paymentStatus == Paid then s
      else
        var t' := t.(paymentStatus := Paid, status := Confirmed);
        var token := if t.user.None? then Some(GenerateCancelToken(env.sign, TicketKind, t.id, env.now)) else None;
        s.(tickets := s.tickets[i := t'], outbox := s.outbox + [TicketConfirmation(t.id, token)])
  }

  /** A repeated success notification changes nothing more. */
  lemma SucceededIdempotent(s: Store, data: map<string, string>, env: Env)
    ensures HandleSucceeded(HandleSucceeded(s, data, env), data, env) == HandleSucceeded(s, data, env)
  {
    var s1 := HandleSucceeded(s, data, env);
    if s1 != s {
      var i := WebhookTarget(s.tickets, data).value;
      assert WebhookTarget(s1.tickets, data) == Some(i);
    }
  }

  /**
   * The success handler can push an event past its capacity: a ticket the
   * failure handler cancelled, whose place was then sold again, is
   * confirmed when a late success arrives for it.
   */
  lemma SucceededMayExceedCapacity(env: Env)
    ensures var ev := Event("e1", "Talk", 100, Decimal(500, 2), 1, true);
      var late := EventTicket("t1", "e1", None, true, "", "a@b", "", TicketCancelled, Void, Some("pi_1"), 1);
      var other := EventTicket("t2", "e1", Some("u2"), false, "", "", "", Confirmed, Paid, Some("pi_2"), 1);
      var s := Store(map["e1" := ev], [late, other], Ledger([], []), [], []);
      var s' := HandleSucceeded(s, map["id" := "pi_1"], env);
      && CapacityRespected(s)
      && !CapacityRespected(s')
  {
    var ev := Event("e1", "Talk", 100, Decimal(500, 2), 1, true);
    var late := EventTicket("t1", "e1", None, true, "", "a@b", "", TicketCancelled, Void, Some("pi_1"), 1);
    var other := EventTicket("t2", "e1", Some("u2"), false, "", "", "", Confirmed, Paid, Some("pi_2"), 1);
    var s := Store(map["e1" := ev], [late, other], Ledger([], []), [], []);
    assert [late, other][..1] == [late];
    assert TicketsReserved([late, other], "e1") == 1;
    assert WebhookTarget(s.tickets, map["id" := "pi_1"]) == Some(0);
    var s' := HandleSucceeded(s, map["id" := "pi_1"], env);
    var late' := late.(paymentStatus := Paid, status := Confirmed);
    assert s'.tickets == [late', other];
    assert [late', other][..1] == [late'];
    assert TicketsReserved(s'.tickets, "e1") == 2;
  }

  /**
   * `_handle_payment_intent_failed`: the newest ticket with the intent id
   * becomes cancelled with its payment void, saved and e-mailed only when
   * either field changes. The credit restore it guards with
   * `payment_status == included` sits after the payment was set to void,
   * so it never runs: the ledger is never touched.
   */
  function HandleFailed(s: Store, data: map<string, string>, env: Env): (s': Store)
    ensures s'.ledger == s.ledger && s'.events == s.events && s'.refunds == s.refunds
    ensures |s'.tickets| == |s.tickets|
    ensures forall i | 0 <= i < |s.tickets| && s'.tickets[i] != s.tickets[i] ::
              s.tickets[i].intentId == IntentId(data) && IntentId(data).Some?
              && s'.tickets[i] == s.tickets[i].(status := TicketCancelled, paymentStatus := Void)
    ensures s' != s <==> |s'.outbox| == |s.outbox| + 1
    ensures WebhookTarget(s.tickets, data).None? ==> s' == s
    ensures WebhookTarget(s.tickets, data).Some? ==>
              var i := WebhookTarget(s.tickets, data).value;
              var t := s.tickets[i];
              if t.status == TicketCancelled && t.paymentStatus == Void then s' == s
              else && s'.tickets == s.tickets[i := t.(status := TicketCancelled, paymentStatus := Void)]
                   && s'.outbox == s.outbox + [TicketCancellation(t.id)]
  {
    match WebhookTarget(s.tickets, data)
    case None => s
    case Some(i) =>
      var t := s.tickets[i];
      var changed := t.status != TicketCancelled || t.paymentStatus != Void;
      if !changed then s
      else
        var t' := t.(status := TicketCancelled, paymentStatus := Void);
        var ledger :=
          if t'.paymentStatus == Included then Restore(s.ledger, t'.user, env.now, EventCredit, t'.quantity, Some(t'.id)).1
          else s.ledger;
        s.(tickets := s.tickets[i := t'], ledger := ledger, outbox := s.outbox + [TicketCancellation(t.id)])
  }

  /** A repeated failure notification changes nothing more. */
  lemma FailedIdempotent(s: Store, data: map<string, string>, env: Env)
    ensures HandleFailed(HandleFailed(s, data, env), data, env) == HandleFailed(s, data, env)
  {
    var s1 := HandleFailed(s, data, env);
    if s1 != s {
      var i := WebhookTarget(s.tickets, data).value;
      assert WebhookTarget(s1.tickets, data) == Some(i);
    }
  }

  /** The failure handler only releases places. */
  lemma FailedKeepsCapacity(s: Store, data: map<string, string>, env: Env)
    requires CapacityRespected(s)
    ensures CapacityRespected(HandleFailed(s, data, env))
  {
    var s1 := HandleFailed(s, data, env);
    if s1 != s {
      var i := WebhookTarget(s.tickets, data).value;
      forall k | k in s.events
        ensures TicketsReserved(s1.tickets, k) <= s.events[k].capacity
      {
        TicketsReservedUpdate(s.tickets, i, s1.tickets[i], k);
      }
    }
  }

  /**
   * `StripeWebhookView.post`: a payload or signature the provider rejects,
   * and an event without `data.object`, are answered 400 with nothing
   * changed; otherwise the event type selects a handler and the answer is
   * 200, also for an ignored type or an unknown intent.
   */
  function StripeWebhook(s: Store, env: Env, payload: string, sigHeader: string, construct: ConstructEvent): (o: Outcome)
    ensures o.response.status in {200, 400}
    ensures o.response.status == 400 ==> o.store == s
    ensures var p := ParseStripeEvent(env.settings, payload, sigHeader, construct);
      o.response.status == 200 <==> p.Ok? && |p.value.data| > 0
    ensures var p := ParseStripeEvent(env.settings, payload, sigHeader, construct);
      (p.Ok? && p.value.eventType !in {Some("payment_intent.succeeded"),
                                       Some("payment_intent.payment_failed"),
                                       Some("payment_intent.canceled")}) ==> o.store == s
    ensures var p := ParseStripeEvent(env.settings, payload, sigHeader, construct);
      p.Ok? && |p.value.data| > 0 && p.value.eventType == Some("payment_intent.succeeded") ==>
        o.store == HandleSucceeded(s, p.value.data, env)
    ensures var p := ParseStripeEvent(env.settings, payload, sigHeader, construct);
      p.Ok? && |p.value.data| > 0
      && p.value.eventType in {Some("payment_intent.payment_failed"), Some("payment_intent.canceled")} ==>
        o.store == HandleFailed(s, p.value.data, env)
    ensures o.store.ledger == s.ledger
  {
    match ParseStripeEvent(env.settings, payload, sigHeader, construct)
    case Err(InvalidPayload) => Outcome(s, Refuse(400, "Invalid payload."))
    case Err(InvalidSignature) => Outcome(s, Refuse(400, "Invalid Stripe signature."))
    case Ok(ev) =>
      if |ev.data| == 0 then Outcome(s, Refuse(400, "Event payload missing data."))
      else
        var s' :=
          if ev.eventType == Some("payment_intent.succeeded") then HandleSucceeded(s, ev.data, env)
          else if ev.eventType == Some("payment_intent.payment_failed") || ev.eventType == Some("payment_intent.canceled") then
            HandleFailed(s, ev.data, env)
          else s;
        Outcome(s', Response(200, "", None, None))
  }
}

=== FILE: expire_pending.dfy ===
/**
 * The `expire_pending_bookings` command: class bookings still waiting for
 * payment longer than a number of minutes are cancelled and their payment
 * voided, the provider being asked to cancel the intent when there is one
 * and Stripe is enabled.
 */
module ExpirePending {
  import opened Common
  import opened BookingModels
  import opened Stripe

  /**
   * What the command reports; `CancelHelperMissing` is the AttributeError
   * the command as written raises on its call of the undefined
   * `payments.cancel_payment_intent`.
   */
  datatype ExpireOutcome = InvalidMinutes | WouldExpire(total: nat) | Expired(count: nat) | CancelHelperMissing

  /** The instant `minutes` minutes before `now`, in seconds. */
  function Cutoff(now: Instant, minutes: int): (c: Instant)
    ensures minutes > 0 ==> c < now
  {
    now - minutes * 60
  }

  /** The filter: booked, payment pending, and created no later than the cutoff. */
  predicate Stale(b: Booking, cutoff: Instant) {
    b.status == Booked && b.paymentStatus == Pending && b.createdAt <= cutoff
  }

  /** The number of bookings the filter selects. */
  function CountStale(bs: seq<Booking>, cutoff: Instant): (n: nat)
    ensures n <= |bs|
    decreases |bs|
  {
    if |bs| == 0 then 0
    else CountStale(bs[..|bs| - 1], cutoff) + (if Stale(bs[|bs| - 1], cutoff) then 1 else 0)
  }

  /** The count is zero exactly when the filter selects nothing. */
  lemma {:induction false} CountZeroIffNoneStale(bs: seq<Booking>, cutoff: Instant)
    ensures CountStale(bs, cutoff) == 0 <==> forall i | 0 <= i < |bs| :: !Stale(bs[i], cutoff)
    decreases |bs|
  {
    if |bs| > 0 {
      var init := bs[..|bs| - 1];
      CountZeroIffNoneStale(init, cutoff);
      assert forall i | 0 <= i < |init| :: init[i] == bs[i];
    }
  }

  /** The positions the filter selects. */
  function StaleIndices(bs: seq<Booking>, cutoff: Instant): set<nat> {
    set i: nat | i < |bs| && Stale(bs[i], cutoff)
  }

  /** The count is the number of distinct bookings selected. */
  lemma {:induction false} CountStaleMeaning(bs: seq<Booking>, cutoff: Instant)
    ensures CountStale(bs, cutoff) == |StaleIndices(bs, cutoff)|
    decreases |bs|
  {
    if |bs| > 0 {
      var init := bs[..|bs| - 1];
      CountStaleMeaning(init, cutoff);
      var last: nat := |bs| - 1;
      if Stale(bs[last], cutoff) {
        assert StaleIndices(bs, cutoff) == StaleIndices(init, cutoff) + {last};
      } else {
        assert StaleIndices(bs, cutoff) == StaleIndices(init, cutoff);
      }
    }
  }

  /** A selected booking after the transition. */
  function Expire(b: Booking): (e: Booking)
    ensures e.status == BookingCancelled && e.paymentStatus == Void
    ensures e.(status := b.status, paymentStatus := b.paymentStatus) == b
  {
    b.(status := BookingCancelled, paymentStatus := Void)
  }

  /** The provider is asked to cancel a selected booking's intent only when there is one and Stripe is enabled. */
  predicate CancelsIntent(b: Booking, settings: map<string, string>) {
    b.intentId.Some? && b.intentId.value != "" && StripeEnabled(settings)
  }

  /**
   * The intents the command asks the provider to cancel, listed in table
   * order. The command visits the bookings newest first (the model's
   * `-created_at` ordering), so its calls come in the reverse order when
   * the table is in creation order.
   */
  function IntentsToCancel(bs: seq<Booking>, cutoff: Instant, settings: map<string, string>): (ids: seq<string>)
    ensures |ids| <= CountStale(bs, cutoff)
    ensures forall j | 0 <= j < |ids| :: ids[j] != ""
    ensures !StripeEnabled(settings) ==> ids == []
    decreases |bs|
  {
    if |bs| == 0 then []
    else
      var b := bs[|bs| - 1];
      IntentsToCancel(bs[..|bs| - 1], cutoff, settings)
      + (if Stale(b, cutoff) && CancelsIntent(b, settings) then [b.intentId.value] else [])
  }

  /** Every booking after a real run: the selected ones expired, every other one as it was. */
  predicate ExpiredFrom(bs: seq<Booking>, out: seq<Booking>, cutoff: Instant, k: nat)
    requires k <= |bs| && |out| == |bs|
  {
    && (forall j | 0 <= j < k :: out[j] == (if Stale(bs[j], cutoff) then Expire(bs[j]) else bs[j]))
    && out[k..] == bs[k..]
  }

  /** One more booking visited: the count and the cancelled intents grow by its share. */
  lemma PrefixStep(bs: seq<Booking>, cutoff: Instant, settings: map<string, string>, i: nat)
    requires i < |bs|
    ensures CountStale(bs[..i + 1], cutoff) == CountStale(bs[..i], cutoff) + (if Stale(bs[i], cutoff) then 1 else 0)
    ensures IntentsToCancel(bs[..i + 1], cutoff, settings)
         == IntentsToCancel(bs[..i], cutoff, settings)
            + (if Stale(bs[i], cutoff) && CancelsIntent(bs[i], settings) then [bs[i].intentId.value] else [])
  {
    assert bs[..i + 1][..i] == bs[..i];
  }

  /** Transforming position `i` extends the expired prefix by one. */
  lemma ExpireStep(bs: seq<Booking>, out: seq<Booking>, cutoff: Instant, i: nat)
    requires i < |bs| && |out| == |bs| && ExpiredFrom(bs, out, cutoff, i)
    ensures Stale(bs[i], cutoff) ==> ExpiredFrom(bs, out[i := Expire(bs[i])], cutoff, i + 1)
    ensures !Stale(bs[i], cutoff) ==> ExpiredFrom(bs, out, cutoff, i + 1)
  {
    assert out[i] == bs[i] by { assert out[i..][0] == bs[i..][0]; }
    assert out[i + 1..] == out[i..][1..];
    assert bs[i + 1..] == bs[i..][1..];
    assert out[i := Expire(bs[i])][i + 1..] == out[i + 1..];
  }

  /**
   * `Command.handle`. A non-positive `minutes` is refused with nothing
   * changed; a dry run reports how many bookings would be expired; a real
   * run expires every selected booking, leaves the others alone, asks the
   * provider to cancel the selected intents, and reports the count.
   */
  method ExpirePendingBookings(
    bs: seq<Booking>, now: Instant, minutes: int, dryRun: bool, settings: map<string, string>)
    returns (out: seq<Booking>, cancelled: seq<string>, outcome: ExpireOutcome)
    ensures minutes <= 0 <==> outcome == InvalidMinutes
    ensures minutes <= 0 || dryRun ==> out == bs && cancelled == []
    ensures minutes > 0 && dryRun ==> outcome == WouldExpire(CountStale(bs, Cutoff(now, minutes)))
    ensures minutes > 0 && !dryRun ==>
              && outcome == Expired(CountStale(bs, Cutoff(now, minutes)))
              && |out| == |bs|
              && ExpiredFrom(bs, out, Cutoff(now, minutes), |bs|)
              && cancelled == IntentsToCancel(bs, Cutoff(now, minutes), settings)
  {
    if minutes <= 0 {
      return bs, [], InvalidMinutes;
    }
    var cutoff := Cutoff(now, minutes);
    var total := CountStale(bs, cutoff);
    if dryRun {
      return bs, [], WouldExpire(total);
    }
    out := bs;
    cancelled := [];
    var expired: nat := 0;
    var i := 0;
    while i < |bs|
      invariant 0 <= i <= |bs| && |out| == |bs|
      invariant ExpiredFrom(bs, out, cutoff, i)
      invariant expired == CountStale(bs[..i], cutoff)
      invariant cancelled == IntentsToCancel(bs[..i], cutoff, settings)
    {
      var b := bs[i];
      PrefixStep(bs, cutoff, settings, i);
      ExpireStep(bs, out, cutoff, i);
      if Stale(b, cutoff) {
        if CancelsIntent(b, settings) {
          cancelled := cancelled + [b.intentId.value];
        }
        out := out[i := Expire(b)];
        expired := expired + 1;
      }
      i := i + 1;
    }
    assert bs[..|bs|] == bs;
    return out, cancelled, Expired(expired);
  }

  /**
   * `Command.handle` as written. `booking.payments` defines no
   * `cancel_payment_intent`, so the first selected booking with an intent,
   * when Stripe is enabled, raises AttributeError inside the transaction:
   * every change is rolled back and no count is reported. Without such a
   * booking the run is the intended one.
   */
  method ExpirePendingAsWritten(
    bs: seq<Booking>, now: Instant, minutes: int, dryRun: bool, settings: map<string, string>)
    returns (out: seq<Booking>, outcome: ExpireOutcome)
    ensures minutes <= 0 <==> outcome == InvalidMinutes
    ensures minutes <= 0 || dryRun ==> out == bs
    ensures minutes > 0 && dryRun ==> outcome == WouldExpire(CountStale(bs, Cutoff(now, minutes)))
    ensures minutes > 0 && !dryRun ==>
              (outcome == CancelHelperMissing <==> IntentsToCancel(bs, Cutoff(now, minutes), settings) != [])
    ensures outcome == CancelHelperMissing ==> out == bs
    ensures minutes > 0 && !dryRun && IntentsToCancel(bs, Cutoff(now, minutes), settings) == [] ==>
              && outcome == Expired(CountStale(bs, Cutoff(now, minutes)))
              && |out| == |bs|
              && ExpiredFrom(bs, out, Cutoff(now, minutes), |bs|)
  {
    var cancelled;
    out, cancelled, outcome := ExpirePendingBookings(bs, now, minutes, dryRun, settings);
    if cancelled != [] {
      out, outcome := bs, CancelHelperMissing;
    }
  }

  /** One booking booked and pending for ten minutes, carrying the intent "pi_1". */
  function StaleWithIntent(): Booking {
    Booking("b1", Some("u1"), false, "", "s1", Booked, Pending, Some("pi_1"), Unknown, 0)
  }

  /** With Stripe enabled, a five-minute run selects that booking and would cancel its intent. */
  lemma StaleWithIntentSelected()
    ensures CountStale([StaleWithIntent()], Cutoff(600, 5)) == 1
    ensures IntentsToCancel([StaleWithIntent()], Cutoff(600, 5), map["STRIPE_SECRET_KEY" := "sk_test"]) == ["pi_1"]
  {
    assert [StaleWithIntent()][..0] == [];
  }

  /**
   * The discrepancy on that booking: the command as written rolls back
   * and reports nothing, leaving it booked and pending; the intended run
   * expires it and reports one.
   */
  method StaleIntentRollsBack() returns (asWritten: ExpireOutcome, intended: ExpireOutcome, left: seq<Booking>)
    ensures asWritten == CancelHelperMissing && left == [StaleWithIntent()]
    ensures intended == Expired(1)
  {
    var settings := map["STRIPE_SECRET_KEY" := "sk_test"];
    StaleWithIntentSelected();
    left, asWritten := ExpirePendingAsWritten([StaleWithIntent()], 600, 5, false, settings);
    var out, cancelled;
    out, cancelled, intended := ExpirePendingBookings([StaleWithIntent()], 600, 5, false, settings);
  }

  /** After a real run nothing is left for the filter: a second run expires none. */
  lemma SecondRunExpiresNothing(bs: seq<Booking>, out: seq<Booking>, cutoff: Instant)
    requires |out| == |bs| && ExpiredFrom(bs, out, cutoff, |bs|)
    ensures CountStale(out, cutoff) == 0
  {
    forall i | 0 <= i < |out|
      ensures !Stale(out[i], cutoff)
    {
    }
    CountZeroIffNoneStale(out, cutoff);
  }

  /**
   * The cutoff is inclusive: a pending booking exactly `minutes` old is
   * expired, one a second younger is not.
   */
  lemma CutoffInclusive(b: Booking, now: Instant, minutes: int)
    requires b.status == Booked && b.paymentStatus == Pending
    ensures b.createdAt == now - minutes * 60 ==> Stale(b, Cutoff(now, minutes))
    ensures b.createdAt == now - minutes * 60 + 1 ==> !Stale(b, Cutoff(now, minutes))
  {
  }
}

=== FILE: membership.dfy ===
/**
 * Membership credits: choosing a user's current membership, checking and
 * consuming credits of the two kinds (class sessions, event places), and
 * giving them back. Every change writes a usage entry, so a membership's
 * remaining count plus the net credits its log records never changes.
 */
module Membership {
  import opened Common
  import opened BookingModels

  /** The membership table and the usage log, in creation order. */
  datatype Ledger = Ledger(memberships: seq<UserMembership>, usages: seq<MembershipUsage>)

  /** A membership the query of `_get_active_membership` can return. */
  predicate Candidate(m: UserMembership, user: UserId, now: Instant) {
    m.user == user && m.status == MembershipActive && (m.expiresAt.None? || m.expiresAt.value >= now)
  }

  /**
   * The newest candidate among the first `n` memberships: latest
   * `startsAt`, the earliest row among equals.
   */
  function NewestAmong(ms: seq<UserMembership>, user: UserId, now: Instant, n: nat): (r: Option<nat>)
    requires n <= |ms|
    ensures r.None? <==> forall i | 0 <= i < n :: !Candidate(ms[i], user, now)
    ensures r.Some? ==> r.value < n && Candidate(ms[r.value], user, now)
    ensures r.Some? ==> forall i | 0 <= i < n && Candidate(ms[i], user, now) :: ms[i].startsAt <= ms[r.value].startsAt
    ensures r.Some? ==> forall i | 0 <= i < r.value && Candidate(ms[i], user, now) :: ms[i].startsAt < ms[r.value].startsAt
    decreases n
  {
    if n == 0 then None
    else
      var best := NewestAmong(ms, user, now, n - 1);
      var m := ms[n - 1];
      if Candidate(m, user, now) && (best.None? || m.startsAt > ms[best.value].startsAt) then Some(n - 1)
      else best
  }

  /**
   * `_get_active_membership`: nothing for an anonymous user; otherwise the
   * user's active, unexpired membership with the latest start, if any.
   */
  function ActiveMembership(l: Ledger, user: Option<UserId>, now: Instant): (r: Option<nat>)
    ensures r.None? <==>
              user.None? || forall i | 0 <= i < |l.memberships| :: !Candidate(l.memberships[i], user.value, now)
    ensures r.Some? ==>
              && user.Some? && r.value < |l.memberships|
              && Candidate(l.memberships[r.value], user.value, now)
              && IsActiveMembership(l.memberships[r.value], now)
              && forall i | 0 <= i < |l.memberships| && Candidate(l.memberships[i], user.value, now) ::
                   l.memberships[i].startsAt <= l.memberships[r.value].startsAt
  {
    if user.None? then None else NewestAmong(l.memberships, user.value, now, |l.memberships|)
  }

  /** The counter a kind of credit draws on. */
  function Remaining(m: UserMembership, kind: UsageKind): nat {
    match kind
    case ClassCredit => m.remainingClassSessions
    case EventCredit => m.remainingEvents
  }

  /** `m` with the counter of `kind` set to `v`; the other counter is kept. */
  function WithRemaining(m: UserMembership, kind: UsageKind, v: nat): (m': UserMembership)
    ensures Remaining(m', kind) == v
    ensures forall k: UsageKind | k != kind :: Remaining(m', k) == Remaining(m, k)
    ensures m'.user == m.user && m'.status == m.status
    ensures m'.startsAt == m.startsAt && m'.expiresAt == m.expiresAt
  {
    match kind
    case ClassCredit => m.(remainingClassSessions := v)
    case EventCredit => m.(remainingEvents := v)
  }

  const NoMembershipReason := "No active membership"

  /** The refusal when the counter is too low, which names the kind. */
  function ShortReason(kind: UsageKind): string {
    match kind
    case ClassCredit => "Not enough class sessions remaining"
    case EventCredit => "Not enough event credits remaining"
  }

  /**
   * `can_book_session` / `can_book_event`: allowed exactly when there is a
   * current membership holding at least `n` credits of the kind; a refusal
   * says which of the two conditions failed.
   */
  function CanBook(l: Ledger, user: Option<UserId>, now: Instant, kind: UsageKind, n: nat): (res: (bool, Option<string>))
    ensures var a := ActiveMembership(l, user, now);
      res.0 <==> a.Some? && Remaining(l.memberships[a.value], kind) >= n
    ensures res.0 <==> res.1.None?
    ensures ActiveMembership(l, user, now).None? ==> res.1 == Some(NoMembershipReason)
    ensures ActiveMembership(l, user, now).Some? && !res.0 ==> res.1 == Some(ShortReason(kind))
  {
    match ActiveMembership(l, user, now)
    case None => (false, Some(NoMembershipReason))
    case Some(i) =>
      if Remaining(l.memberships[i], kind) < n then (false, Some(ShortReason(kind)))
      else (true, None)
  }

  /**
   * `consume_credit` / `consume_event_credit`: succeeds exactly when
   * `CanBook` allows it; then the current membership's counter drops by
   * `n` and one non-reversed usage entry of `n` is logged. On refusal
   * nothing changes.
   */
  function Consume(l: Ledger, user: Option<UserId>, now: Instant, kind: UsageKind, n: nat, ref: Option<Id>)
    : (res: (bool, Ledger))
    ensures res.0 == CanBook(l, user, now, kind, n).0
    ensures !res.0 ==> res.1 == l
    ensures res.0 ==>
              var i := ActiveMembership(l, user, now).value;
              && |res.1.memberships| == |l.memberships|
              && Remaining(res.1.memberships[i], kind) + n == Remaining(l.memberships[i], kind)
              && res.1.memberships[i] == WithRemaining(l.memberships[i], kind, Remaining(res.1.memberships[i], kind))
              && res.1.usages == l.usages + [MembershipUsage(i, kind, n, ref, false)]
              && forall j | 0 <= j < |l.memberships| && j != i :: res.1.memberships[j] == l.memberships[j]
  {
    match ActiveMembership(l, user, now)
    case None => (false, l)
    case Some(i) =>
      var m := l.memberships[i];
      if Remaining(m, kind) < n then (false, l)
      else
        var m' := WithRemaining(m, kind, Remaining(m, kind) - n);
        (true, Ledger(l.memberships[i := m'], l.usages + [MembershipUsage(i, kind, n, ref, false)]))
  }

  /**
   * `restore_credit` / `restore_event_credit`: with a current membership the
   * counter grows by `n` and a reversed usage entry is logged, whatever the
   * log says was consumed; without one nothing changes.
   */
  function Restore(l: Ledger, user: Option<UserId>, now: Instant, kind: UsageKind, n: nat, ref: Option<Id>)
    : (res: (bool, Ledger))
    ensures res.0 <==> ActiveMembership(l, user, now).Some?
    ensures !res.0 ==> res.1 == l
    ensures res.0 ==>
              var i := ActiveMembership(l, user, now).value;
              && |res.1.memberships| == |l.memberships|
              && Remaining(res.1.memberships[i], kind) == Remaining(l.memberships[i], kind) + n
              && res.1.memberships[i] == WithRemaining(l.memberships[i], kind, Remaining(res.1.memberships[i], kind))
              && res.1.usages == l.usages + [MembershipUsage(i, kind, n, ref, true)]
              && forall j | 0 <= j < |l.memberships| && j != i :: res.1.memberships[j] == l.memberships[j]
  {
    match ActiveMembership(l, user, now)
    case None => (false, l)
    case Some(i) =>
      var m := l.memberships[i];
      var m' := WithRemaining(m, kind, Remaining(m, kind) + n);
      (true, Ledger(l.memberships[i := m'], l.usages + [MembershipUsage(i, kind, n, ref, true)]))
  }

  /**
   * The credits of `kind` the log records as consumed from membership `i`,
   * net of those given back.
   */
  function Net(us: seq<MembershipUsage>, i: nat, kind: UsageKind): int
    decreases |us|
  {
    if |us| == 0 then 0
    else
      var u := us[|us| - 1];
      Net(us[..|us| - 1], i, kind)
      + (if u.membership == i && u.kind == kind then Signed(u) else 0)
  }

  /** An entry's effect on the net: consumed credits count up, given-back ones down. */
  function Signed(u: MembershipUsage): int {
    if u.reversed then -(u.amount as int) else u.amount
  }

  lemma NetAppend(us: seq<MembershipUsage>, u: MembershipUsage, i: nat, kind: UsageKind)
    ensures Net(us + [u], i, kind)
            == Net(us, i, kind)
               + (if u.membership == i && u.kind == kind then Signed(u) else 0)
  {
    assert (us + [u])[..|us|] == us;
  }

  /** Remaining plus net consumed: what the membership has been granted. */
  function Granted(l: Ledger, i: nat, kind: UsageKind): int
    requires i < |l.memberships|
  {
    Remaining(l.memberships[i], kind) + Net(l.usages, i, kind)
  }

  /**
   * Consuming moves credits from the counter to the log: for every
   * membership and kind the granted total is unchanged, and the other
   * kind's counters are untouched.
   */
  lemma ConsumeConserves(l: Ledger, user: Option<UserId>, now: Instant, kind: UsageKind, n: nat, ref: Option<Id>)
    ensures var l' := Consume(l, user, now, kind, n, ref).1;
      && |l'.memberships| == |l.memberships|
      && (forall i, k | 0 <= i < |l.memberships| :: Granted(l', i, k) == Granted(l, i, k))
      && (forall i, k | 0 <= i < |l.memberships| && k != kind ::
            Remaining(l'.memberships[i], k) == Remaining(l.memberships[i], k))
  {
    var (ok, l') := Consume(l, user, now, kind, n, ref);
    if ok {
      var a := ActiveMembership(l, user, now).value;
      forall i, k | 0 <= i < |l.memberships|
        ensures Granted(l', i, k) == Granted(l, i, k)
      {
        NetAppend(l.usages, MembershipUsage(a, kind, n, ref, false), i, k);
      }
    }
  }

  /** Restoring moves credits back from the log to the counter. */
  lemma RestoreConserves(l: Ledger, user: Option<UserId>, now: Instant, kind: UsageKind, n: nat, ref: Option<Id>)
    ensures var l' := Restore(l, user, now, kind, n, ref).1;
      && |l'.memberships| == |l.memberships|
      && (forall i, k | 0 <= i < |l.memberships| :: Granted(l', i, k) == Granted(l, i, k))
      && (forall i, k | 0 <= i < |l.memberships| && k != kind ::
            Remaining(l'.memberships[i], k) == Remaining(l.memberships[i], k))
  {
    var (ok, l') := Restore(l, user, now, kind, n, ref);
    if ok {
      var a := ActiveMembership(l, user, now).value;
      forall i, k | 0 <= i < |l.memberships|
        ensures Granted(l', i, k) == Granted(l, i, k)
      {
        NetAppend(l.usages, MembershipUsage(a, kind, n, ref, true), i, k);
      }
    }
  }

  /** Two tables that differ only in credit counters. */
  predicate SameButCounters(ms: seq<UserMembership>, ms': seq<UserMembership>) {
    && |ms| == |ms'|
    && forall i | 0 <= i < |ms| ::
         ms[i].user == ms'[i].user && ms[i].status == ms'[i].status
         && ms[i].startsAt == ms'[i].startsAt && ms[i].expiresAt == ms'[i].expiresAt
  }

  /** Counters play no part in choosing the current membership. */
  lemma {:induction false} NewestIgnoresCounters(
    ms: seq<UserMembership>, ms': seq<UserMembership>, user: UserId, now: Instant, n: nat)
    requires SameButCounters(ms, ms') && n <= |ms|
    ensures NewestAmong(ms, user, now, n) == NewestAmong(ms', user, now, n)
    decreases n
  {
    if n > 0 {
      NewestIgnoresCounters(ms, ms', user, now, n - 1);
    }
  }

  /**
   * Consuming and then restoring the same amount for the same user puts
   * every counter back and logs a pair of entries that net to zero.
   */
  lemma ConsumeRestoreRoundTrip(l: Ledger, user: Option<UserId>, now: Instant, kind: UsageKind, n: nat, ref: Option<Id>)
    requires Consume(l, user, now, kind, n, ref).0
    ensures var l1 := Consume(l, user, now, kind, n, ref).1;
      var (ok, l2) := Restore(l1, user, now, kind, n, ref);
      && ok
      && l2.memberships == l.memberships
      && forall i, k :: Net(l2.usages, i, k) == Net(l.usages, i, k)
  {
    var l1 := Consume(l, user, now, kind, n, ref).1;
    var a := ActiveMembership(l, user, now).value;
    assert SameButCounters(l.memberships, l1.memberships);
    NewestIgnoresCounters(l.memberships, l1.memberships, user.value, now, |l.memberships|);
    var l2 := Restore(l1, user, now, kind, n, ref).1;
    assert l2.memberships[a] == l.memberships[a] by {
      match kind
      case ClassCredit =>
      case EventCredit =>
    }
    assert l2.memberships == l.memberships;
    forall i, k
      ensures Net(l2.usages, i, k) == Net(l.usages, i, k)
    {
      NetAppend(l.usages, MembershipUsage(a, kind, n, ref, false), i, k);
      NetAppend(l1.usages, MembershipUsage(a, kind, n, ref, true), i, k);
    }
  }

  /** A credit operation a view performs. */
  datatype LedgerOp =
    | ConsumeOp(user: Option<UserId>, now: Instant, kind: UsageKind, n: nat, ref: Option<Id>)
    | RestoreOp(user: Option<UserId>, now: Instant, kind: UsageKind, n: nat, ref: Option<Id>)

  function Apply(l: Ledger, op: LedgerOp): Ledger {
    match op
    case ConsumeOp(u, t, k, n, r) => Consume(l, u, t, k, n, r).1
    case RestoreOp(u, t, k, n, r) => Restore(l, u, t, k, n, r).1
  }

  function ApplyAll(l: Ledger, ops: seq<LedgerOp>): Ledger
    decreases |ops|
  {
    if |ops| == 0 then l else ApplyAll(Apply(l, ops[0]), ops[1..])
  }

  /**
   * Over any sequence of consumes and restores, no membership is added or
   * removed and each one's granted total of each kind stays what it was.
   */
  lemma {:induction false} TraceConserves(l: Ledger, ops: seq<LedgerOp>)
    ensures |ApplyAll(l, ops).memberships| == |l.memberships|
    ensures forall i, k | 0 <= i < |l.memberships| :: Granted(ApplyAll(l, ops), i, k) == Granted(l, i, k)
    decreases |ops|
  {
    if |ops| > 0 {
      match ops[0] {
        case ConsumeOp(u, t, k, n, r) => ConsumeConserves(l, u, t, k, n, r);
        case RestoreOp(u, t, k, n, r) => RestoreConserves(l, u, t, k, n, r);
      }
      TraceConserves(Apply(l, ops[0]), ops[1..]);
    }
  }
}

=== FILE: money.dfy ===
/**
 * Python `Decimal` amounts and the conversion every payment path applies:
 * `Decimal(amount).quantize(Decimal("0.01"), rounding=ROUND_HALF_UP)`
 * followed by `int(x * 100)`.
 */
module Money {

  /** 10 to the power n. */
  function Pow10(n: nat): (r: nat)
    ensures r >= 1
  {
    if n == 0 then 1 else 10 * Pow10(n - 1)
  }

  function Abs(x: int): nat {
    if x < 0 then -x else x
  }

  /** A decimal number: `digits` scaled by 10 to the power `-exp`. */
  datatype Decimal = Decimal(digits: int, exp: nat)

  /** A `DecimalField(decimal_places=2)` value stored as whole hundredths. */
  function FromHundredths(h: int): Decimal {
    Decimal(h, 2)
  }

  /** Python truthiness of a Decimal: every representation of zero is falsy. */
  predicate IsZero(d: Decimal) {
    d.digits == 0
  }

  lemma Pow10Add(a: nat, b: nat)
    ensures Pow10(a + b) == Pow10(a) * Pow10(b)
  {
    if a > 0 {
      Pow10Add(a - 1, b);
    }
  }

  /**
   * Rounds |x| / p half-up: the nearest whole number, and the larger one when
   * x lies exactly halfway.
   */
  function RoundHalfUpDiv(x: nat, p: nat): (q: nat)
    requires p >= 1
    ensures 2 * Abs(x - q * p) <= p
    ensures 2 * Abs(x - q * p) == p ==> q * p > x
  {
    var q0 := x / p;
    var r := x % p;
    assert x == q0 * p + r;
    if 2 * r >= p then
      assert x - (q0 + 1) * p == r - p;
      q0 + 1
    else
      q0
  }

  /**
   * The amount in hundredths after quantizing to two places with
   * ROUND_HALF_UP, then multiplying by 100.
   */
  function Hundredths(d: Decimal): int {
    if d.exp <= 2 then
      d.digits * Pow10(2 - d.exp)
    else
      var q: int := RoundHalfUpDiv(Abs(d.digits), Pow10(d.exp - 2));
      if d.digits >= 0 then q else -q
  }

  lemma ScaleExact(x: int, k: nat, p: nat)
    requires k * p == 100
    ensures x * k * p == 100 * x
  {
    calc {
      x * k * p;
      x * (k * p);
      100 * x;
    }
  }

  lemma ScaleByHundred(x: int, q: int, p: nat)
    ensures Abs(100 * x - q * (100 * p)) == 100 * Abs(x - q * p)
  {
    assert 100 * x - q * (100 * p) == 100 * (x - q * p);
  }

  lemma HundredthsExact(d: Decimal)
    requires d.exp <= 2
    ensures Hundredths(d) * Pow10(d.exp) == 100 * d.digits
  {
    var k := Pow10(2 - d.exp);
    Pow10Add(2 - d.exp, d.exp);
    ScaleExact(d.digits, k, Pow10(d.exp));
  }

  lemma RoundedDistance(d: Decimal, p: nat)
    requires d.exp > 2 && p == Pow10(d.exp - 2)
    ensures Abs(Hundredths(d)) == RoundHalfUpDiv(Abs(d.digits), p)
    ensures Abs(d.digits - Hundredths(d) * p)
         == Abs(Abs(d.digits) - RoundHalfUpDiv(Abs(d.digits), p) * p)
  {
    var q: int := RoundHalfUpDiv(Abs(d.digits), p);
    var c := Hundredths(d);
    if d.digits < 0 {
      assert c == -q;
      assert c * p == -(q * p);
    }
  }

  lemma HundredthsRounded(d: Decimal, p: nat)
    requires d.exp > 2 && p == Pow10(d.exp - 2)
    ensures Pow10(d.exp) == 100 * p
    ensures 2 * Abs(100 * d.digits - Hundredths(d) * (100 * p)) <= 100 * p
    ensures 2 * Abs(100 * d.digits - Hundredths(d) * (100 * p)) == 100 * p ==>
              Abs(Hundredths(d)) * (100 * p) > Abs(100 * d.digits)
  {
    Pow10Add(2, d.exp - 2);
    RoundedDistance(d, p);
    var q: int := RoundHalfUpDiv(Abs(d.digits), p);
    var c := Hundredths(d);
    var e := Abs(d.digits - c * p);
    assert 2 * e <= p;
    ScaleByHundred(d.digits, c, p);
    assert Abs(100 * d.digits - c * (100 * p)) == 100 * e;
    if 2 * Abs(100 * d.digits - c * (100 * p)) == 100 * p {
      assert 2 * e == p;
      assert q * p > Abs(d.digits);
      assert Abs(c) == q;
      assert q * (100 * p) == 100 * (q * p);
    }
  }

  /**
   * `Hundredths(d)` is the whole number nearest to 100 times the value of
   * `d`; a value exactly halfway between two candidates takes the one farther
   * from zero, and the sign of the value is kept.
   */
  lemma {:induction false} HundredthsNearest(d: Decimal)
    ensures 2 * Abs(100 * d.digits - Hundredths(d) * Pow10(d.exp)) <= Pow10(d.exp)
    ensures 2 * Abs(100 * d.digits - Hundredths(d) * Pow10(d.exp)) == Pow10(d.exp) ==>
              Abs(Hundredths(d)) * Pow10(d.exp) > Abs(100 * d.digits)
    ensures Hundredths(d) > 0 ==> d.digits > 0
    ensures Hundredths(d) < 0 ==> d.digits < 0
  {
    if d.exp <= 2 {
      HundredthsExact(d);
      assert Hundredths(d) == d.digits * Pow10(2 - d.exp);
    } else {
      HundredthsRounded(d, Pow10(d.exp - 2));
    }
  }

  /** An amount that already has two decimal places converts without rounding. */
  lemma HundredthsOfTwoPlaces(h: int)
    ensures Hundredths(FromHundredths(h)) == h
  {
  }

  lemma MulSign(c: int, p: nat)
    requires p >= 1
    ensures c > 0 ==> c * p >= p
    ensures c < 0 ==> c * p <= -(p as int)
    ensures Abs(c) * p == Abs(c * p)
  {
    if c < 0 {
      assert Abs(c) * p == -(c * p);
    }
  }

  /**
   * The converted amount is positive exactly when the value is at least half
   * a hundredth: `200 * digits >= 10^exp`.
   */
  lemma {:induction false} HundredthsPositive(d: Decimal)
    ensures Hundredths(d) > 0 <==> 200 * d.digits >= Pow10(d.exp)
  {
    var c := Hundredths(d);
    var p := Pow10(d.exp);
    HundredthsNearest(d);
    MulSign(c, p);
    var m := c * p;
    var x := 100 * d.digits;
    assert 2 * Abs(x - m) <= p;
    assert 2 * Abs(x - m) == p ==> Abs(m) > Abs(x);
  }

  /**
   * The converted amount is negative exactly when the value is at most minus
   * half a hundredth (ROUND_HALF_UP sends -0.005 to -0.01).
   */
  lemma {:induction false} HundredthsNegative(d: Decimal)
    ensures Hundredths(d) < 0 <==> 200 * d.digits <= -(Pow10(d.exp) as int)
  {
    var c := Hundredths(d);
    var p := Pow10(d.exp);
    HundredthsNearest(d);
    MulSign(c, p);
    var m := c * p;
    var x := 100 * d.digits;
    assert 2 * Abs(x - m) <= p;
    assert 2 * Abs(x - m) == p ==> Abs(m) > Abs(x);
  }
}

=== FILE: recurrence.dfy ===
/**
 * Whether a date matches a recurrence rule. The management command and the
 * service layer each carry their own copy of this decision; both are
 * modelled and shown to agree.
 */
module Recurrence {
  import opened Common
  import opened BookingModels

  /** Weekday codes by `date.weekday()` index, Monday first. */
  const WeekdayCodes: seq<string> := ["mon", "tue", "wed", "thu", "fri", "sat", "sun"]

  function WeekdayCode(d: Day): string {
    WeekdayCodes[Weekday(d)]
  }

  /** Index 0 is "mon" and index 6 is "sun"; no code repeats. */
  lemma WeekdayCodeTable(d: Day)
    ensures Weekday(d) == 0 <==> WeekdayCode(d) == "mon"
    ensures Weekday(d) == 2 <==> WeekdayCode(d) == "wed"
    ensures Weekday(d) == 6 <==> WeekdayCode(d) == "sun"
    ensures forall e: Day :: WeekdayCode(e) == WeekdayCode(d) <==> Weekday(e) == Weekday(d)
  {
  }

  /** The management command's `_date_matches_rule`. */
  predicate DateMatchesRule(d: Day, r: RecurrenceRule) {
    match r.recurrenceType
    case OneOff => d == r.startDate
    case Daily => true
    case Weekly | MultiWeekly =>
      if |r.daysOfWeek| == 0 then false else WeekdayCode(d) in r.daysOfWeek
    case Unrecognised(_) => false
  }

  /** The service layer's `_matches_rule`, which reads `days_of_week or []`. */
  predicate MatchesRule(d: Day, r: RecurrenceRule) {
    match r.recurrenceType
    case OneOff => d == r.startDate
    case Daily => true
    case Weekly | MultiWeekly => WeekdayCode(d) in r.daysOfWeek
    case Unrecognised(_) => false
  }

  /** The two copies decide every date and rule alike. */
  lemma MatchersAgree(d: Day, r: RecurrenceRule)
    ensures MatchesRule(d, r) == DateMatchesRule(d, r)
  {
  }

  /**
   * The matching rule per recurrence type: a one-off rule matches only its
   * start date, a daily rule every date, a weekly rule exactly the listed
   * weekdays (an empty list none), and an unknown type no date.
   */
  lemma MatchingByType(d: Day, r: RecurrenceRule)
    ensures r.recurrenceType == OneOff ==> (DateMatchesRule(d, r) <==> d == r.startDate)
    ensures r.recurrenceType == Daily ==> DateMatchesRule(d, r)
    ensures r.recurrenceType in {Weekly, MultiWeekly} ==>
              (DateMatchesRule(d, r) <==> exists k | 0 <= k < |r.daysOfWeek| :: r.daysOfWeek[k] == WeekdayCodes[d % 7])
    ensures r.recurrenceType in {Weekly, MultiWeekly} && |r.daysOfWeek| == 0 ==> !DateMatchesRule(d, r)
    ensures r.recurrenceType.Unrecognised? ==> !DateMatchesRule(d, r)
  {
  }

  /** Apart from one-off rules, matching repeats every seven days. */
  lemma MatchingIsWeekly(d: Day, r: RecurrenceRule)
    requires r.recurrenceType != OneOff
    ensures DateMatchesRule(d + 7, r) == DateMatchesRule(d, r)
  {
    WeekdayPeriodic(d);
  }
}

=== FILE: session_generation.dfy ===
/**
 * Generation of class sessions from recurrence rules: the `generate_sessions`
 * management command and its near-duplicate in the service layer. Each walks
 * a rule's clamped date range day by day and creates a session for every
 * matching date that has none for the key (rule, date, start time).
 */
module SessionGeneration {
  import opened Common
  import opened BookingModels
  import opened Recurrence

  /** `s` is keyed to rule `r` on day `d`: same rule, date and start time. */
  predicate IsKey(s: ClassSession, r: RecurrenceRule, d: Day) {
    s.createdFromRule == Some(r.id) && s.date == d && s.startTime == r.startTime
  }

  /** Some session in the table is keyed to (`r`, `d`). */
  predicate HasSession(ss: seq<ClassSession>, r: RecurrenceRule, d: Day) {
    exists i | 0 <= i < |ss| :: IsKey(ss[i], r, d)
  }

  /** The session created for `r` on day `d`: copied times, no overrides. */
  function Generated(r: RecurrenceRule, d: Day): ClassSession {
    ClassSession(r.fitnessClass, d, r.startTime, r.endTime, None, None, Scheduled, Some(r.id))
  }

  /** `max(rule.start_date, from_date)`. */
  function RangeStart(r: RecurrenceRule, from: Day): Day {
    if r.startDate > from then r.startDate else from
  }

  /** `min(rule.end_date, to_date)`, or `to_date` for an open-ended rule. */
  function RangeEnd(r: RecurrenceRule, to: Day): Day {
    match r.endDate
    case Some(e) => if e < to then e else to
    case None => to
  }

  /** The number of days from `lo` to `hi` inclusive; 0 for an empty range. */
  function RangeLength(lo: Day, hi: Day): nat {
    if hi < lo then 0 else hi - lo + 1
  }

  /** The matching days among `lo .. lo + n - 1`, ascending. */
  function MatchingDays(r: RecurrenceRule, lo: Day, n: nat): seq<Day>
    decreases n
  {
    if n == 0 then []
    else MatchingDays(r, lo, n - 1) + (if DateMatchesRule(lo + n - 1, r) then [lo + n - 1] else [])
  }

  /** The matching days among `lo .. lo + n - 1` that have no session in `ss`. */
  function MissingDays(r: RecurrenceRule, ss: seq<ClassSession>, lo: Day, n: nat): seq<Day>
    decreases n
  {
    if n == 0 then []
    else
      var d := lo + n - 1;
      MissingDays(r, ss, lo, n - 1)
      + (if DateMatchesRule(d, r) && !HasSession(ss, r, d) then [d] else [])
  }

  /** The matching days among `lo .. lo + n - 1` that already have a session in `ss`. */
  function ExistingDays(r: RecurrenceRule, ss: seq<ClassSession>, lo: Day, n: nat): seq<Day>
    decreases n
  {
    if n == 0 then []
    else
      var d := lo + n - 1;
      ExistingDays(r, ss, lo, n - 1)
      + (if DateMatchesRule(d, r) && HasSession(ss, r, d) then [d] else [])
  }

  /** The sessions generated for `days`, in the same order. */
  function SessionsFor(r: RecurrenceRule, days: seq<Day>): (out: seq<ClassSession>)
    ensures |out| == |days|
    ensures forall k | 0 <= k < |days| :: out[k] == Generated(r, days[k])
  {
    seq(|days|, k requires 0 <= k < |days| => Generated(r, days[k]))
  }

  lemma SessionsForSnoc(r: RecurrenceRule, days: seq<Day>, d: Day)
    ensures SessionsFor(r, days + [d]) == SessionsFor(r, days) + [Generated(r, d)]
  {
  }

  /** Every matching day in the range has a session keyed to `r`. */
  predicate Covered(ss: seq<ClassSession>, r: RecurrenceRule, lo: Day, n: nat) {
    forall d | lo <= d < lo + n && DateMatchesRule(d, r) :: HasSession(ss, r, d)
  }

  /** Strictly ascending days, so no day appears twice. */
  predicate Ascending(days: seq<Day>) {
    forall i, j | 0 <= i < j < |days| :: days[i] < days[j]
  }

  /**
   * The three day lists are exactly what their names say: members of the
   * range, ascending, and split by whether a session exists.
   */
  lemma {:induction false} DayListsMeaning(r: RecurrenceRule, ss: seq<ClassSession>, lo: Day, n: nat, d: Day)
    ensures d in MatchingDays(r, lo, n) <==> lo <= d < lo + n && DateMatchesRule(d, r)
    ensures d in MissingDays(r, ss, lo, n) <==>
              lo <= d < lo + n && DateMatchesRule(d, r) && !HasSession(ss, r, d)
    ensures d in ExistingDays(r, ss, lo, n) <==>
              lo <= d < lo + n && DateMatchesRule(d, r) && HasSession(ss, r, d)
    decreases n
  {
    if n > 0 {
      DayListsMeaning(r, ss, lo, n - 1, d);
    }
  }

  lemma {:induction false} DayListsAscending(r: RecurrenceRule, ss: seq<ClassSession>, lo: Day, n: nat)
    ensures Ascending(MatchingDays(r, lo, n))
    ensures Ascending(MissingDays(r, ss, lo, n))
    ensures Ascending(ExistingDays(r, ss, lo, n))
    decreases n
  {
    if n > 0 {
      DayListsAscending(r, ss, lo, n - 1);
      var ms, xs, es := MatchingDays(r, lo, n - 1), MissingDays(r, ss, lo, n - 1), ExistingDays(r, ss, lo, n - 1);
      forall k | 0 <= k < |ms| ensures ms[k] < lo + n - 1 {
        DayListsMeaning(r, ss, lo, n - 1, ms[k]);
      }
      forall k | 0 <= k < |xs| ensures xs[k] < lo + n - 1 {
        DayListsMeaning(r, ss, lo, n - 1, xs[k]);
      }
      forall k | 0 <= k < |es| ensures es[k] < lo + n - 1 {
        DayListsMeaning(r, ss, lo, n - 1, es[k]);
      }
    }
  }

  /** Each matching day is either missing or existing, never both. */
  lemma {:induction false} DayListsPartition(r: RecurrenceRule, ss: seq<ClassSession>, lo: Day, n: nat)
    ensures |MissingDays(r, ss, lo, n)| + |ExistingDays(r, ss, lo, n)| == |MatchingDays(r, lo, n)|
    decreases n
  {
    if n > 0 {
      DayListsPartition(r, ss, lo, n - 1);
    }
  }

  /** Nothing is missing exactly when the range is covered. */
  lemma {:induction false} NoneMissingIffCovered(r: RecurrenceRule, ss: seq<ClassSession>, lo: Day, n: nat)
    ensures |MissingDays(r, ss, lo, n)| == 0 <==> Covered(ss, r, lo, n)
  {
    if |MissingDays(r, ss, lo, n)| == 0 {
      forall d | lo <= d < lo + n && DateMatchesRule(d, r)
        ensures HasSession(ss, r, d)
      {
        DayListsMeaning(r, ss, lo, n, d);
      }
    } else {
      var d := MissingDays(r, ss, lo, n)[0];
      DayListsMeaning(r, ss, lo, n, d);
    }
  }

  /**
   * Appending generated sessions adds exactly their keys: afterwards a key
   * (`r2`, `d`) has a session iff it had one or `r2` is `r` and `d` is among
   * the generated days.
   */
  lemma HasSessionAppend(ss: seq<ClassSession>, r: RecurrenceRule, days: seq<Day>, r2: RecurrenceRule, d: Day)
    ensures HasSession(ss + SessionsFor(r, days), r2, d) <==>
              HasSession(ss, r2, d)
              || (r.id == r2.id && r.startTime == r2.startTime && d in days)
  {
    var t := ss + SessionsFor(r, days);
    if HasSession(t, r2, d) {
      var i :| 0 <= i < |t| && IsKey(t[i], r2, d);
      if i < |ss| {
        assert t[i] == ss[i];
      } else {
        assert t[i] == Generated(r, days[i - |ss|]);
      }
    }
    if HasSession(ss, r2, d) {
      var i :| 0 <= i < |ss| && IsKey(ss[i], r2, d);
      assert t[i] == ss[i];
    }
    if r.id == r2.id && r.startTime == r2.startTime && d in days {
      var k :| 0 <= k < |days| && days[k] == d;
      assert IsKey(t[|ss| + k], r2, d);
    }
  }

  /** The walk reaches each day before any session for it was generated. */
  lemma NotYetGenerated(r: RecurrenceRule, ss: seq<ClassSession>, lo: Day, k: nat)
    ensures HasSession(ss + SessionsFor(r, MissingDays(r, ss, lo, k)), r, lo + k) == HasSession(ss, r, lo + k)
  {
    DayListsMeaning(r, ss, lo, k, lo + k);
    HasSessionAppend(ss, r, MissingDays(r, ss, lo, k), r, lo + k);
  }

  /**
   * A range-wide consequence: right after generating the missing sessions,
   * the range is covered and nothing is missing any more.
   */
  lemma {:induction false} GenerationCovers(r: RecurrenceRule, ss: seq<ClassSession>, lo: Day, n: nat)
    ensures Covered(ss + SessionsFor(r, MissingDays(r, ss, lo, n)), r, lo, n)
    ensures MissingDays(r, ss + SessionsFor(r, MissingDays(r, ss, lo, n)), lo, n) == []
  {
    var missing := MissingDays(r, ss, lo, n);
    var t := ss + SessionsFor(r, missing);
    forall d | lo <= d < lo + n && DateMatchesRule(d, r)
      ensures HasSession(t, r, d)
    {
      DayListsMeaning(r, ss, lo, n, d);
      HasSessionAppend(ss, r, missing, r, d);
    }
    NoneMissingIffCovered(r, t, lo, n);
  }

  /**
   * Sessions keyed to other rules never change which days a rule misses:
   * the day lists only look at sessions keyed to the rule itself.
   */
  lemma {:induction false} OtherRulesIrrelevant(
    r: RecurrenceRule, ss: seq<ClassSession>, extra: seq<ClassSession>, lo: Day, n: nat)
    requires forall i | 0 <= i < |extra| :: extra[i].createdFromRule != Some(r.id)
    ensures MissingDays(r, ss + extra, lo, n) == MissingDays(r, ss, lo, n)
    ensures ExistingDays(r, ss + extra, lo, n) == ExistingDays(r, ss, lo, n)
    decreases n
  {
    if n > 0 {
      OtherRulesIrrelevant(r, ss, extra, lo, n - 1);
      var d := lo + n - 1;
      var t := ss + extra;
      if HasSession(t, r, d) {
        var i :| 0 <= i < |t| && IsKey(t[i], r, d);
        assert i < |ss|;
        assert t[i] == ss[i];
      }
      if HasSession(ss, r, d) {
        var i :| 0 <= i < |ss| && IsKey(ss[i], r, d);
        assert t[i] == ss[i];
      }
    }
  }

  /**
   * `Command._process_rule`: walks the rule's range clamped to the window
   * and creates a session for each matching day with none (only counting in
   * a dry run). `created` counts the matching days that had no session,
   * `skipped` those that had one, each day once; the sessions created are
   * exactly those of the missing days, appended in date order.
   */
  method ProcessRule(r: RecurrenceRule, from: Day, to: Day, ss: seq<ClassSession>, dryRun: bool)
    returns (out: seq<ClassSession>, created: nat, skipped: nat)
    ensures var lo := RangeStart(r, from); var n := RangeLength(lo, RangeEnd(r, to));
      && created == |MissingDays(r, ss, lo, n)|
      && skipped == |ExistingDays(r, ss, lo, n)|
      && created + skipped == |MatchingDays(r, lo, n)|
      && (dryRun ==> out == ss)
      && (!dryRun ==> out == ss + SessionsFor(r, MissingDays(r, ss, lo, n)))
  {
    var lo := RangeStart(r, from);
    var hi := RangeEnd(r, to);
    out, created, skipped := ss, 0, 0;
    DayListsPartition(r, ss, lo, RangeLength(lo, hi));
    if hi < lo {
      return;
    }
    var cur := lo;
    while cur <= hi
      invariant lo <= cur <= hi + 1
      invariant created == |MissingDays(r, ss, lo, cur - lo)|
      invariant skipped == |ExistingDays(r, ss, lo, cur - lo)|
      invariant dryRun ==> out == ss
      invariant !dryRun ==> out == ss + SessionsFor(r, MissingDays(r, ss, lo, cur - lo))
      decreases hi - cur
    {
      var k := cur - lo;
      ghost var missing := MissingDays(r, ss, lo, k);
      assert lo + (k + 1) - 1 == cur;
      NotYetGenerated(r, ss, lo, k);
      SessionsForSnoc(r, missing, cur);
      if DateMatchesRule(cur, r) {
        var known := HasSession(out, r, cur);
        if known {
          skipped := skipped + 1;
        } else {
          if !dryRun {
            out := out + [Generated(r, cur)];
          }
          created := created + 1;
        }
      }
      cur := cur + 1;
    }
  }

  /** What a walk over a rule's range returns: the table and the two counts. */
  datatype WalkResult = WalkResult(sessions: seq<ClassSession>, created: nat, skipped: nat)

  /**
   * The loop of `generate_sessions_for_rule` over the first `n` days from
   * `lo`; each existence check sees the sessions created earlier in the walk.
   */
  function GenerateWalk(r: RecurrenceRule, ss: seq<ClassSession>, lo: Day, n: nat): WalkResult
    decreases n
  {
    if n == 0 then WalkResult(ss, 0, 0)
    else
      var prev := GenerateWalk(r, ss, lo, n - 1);
      var d := lo + n - 1;
      if !MatchesRule(d, r) then prev
      else if HasSession(prev.sessions, r, d) then prev.(skipped := prev.skipped + 1)
      else WalkResult(prev.sessions + [Generated(r, d)], prev.created + 1, prev.skipped)
  }

  lemma {:induction false} GenerateWalkMeaning(r: RecurrenceRule, ss: seq<ClassSession>, lo: Day, n: nat)
    ensures GenerateWalk(r, ss, lo, n)
            == WalkResult(ss + SessionsFor(r, MissingDays(r, ss, lo, n)),
                          |MissingDays(r, ss, lo, n)|, |ExistingDays(r, ss, lo, n)|)
    decreases n
  {
    if n > 0 {
      var k := n - 1;
      GenerateWalkMeaning(r, ss, lo, k);
      MatchersAgree(lo + k, r);
      NotYetGenerated(r, ss, lo, k);
      SessionsForSnoc(r, MissingDays(r, ss, lo, k), lo + k);
    }
  }

  /**
   * `generate_sessions_for_rule`: the sessions of exactly the matching days
   * in the clamped range that had none are appended in date order, and the
   * counts are those missing and existing days.
   */
  function GenerateSessionsForRule(r: RecurrenceRule, from: Day, to: Day, ss: seq<ClassSession>): (res: WalkResult)
    ensures var lo := RangeStart(r, from); var n := RangeLength(lo, RangeEnd(r, to));
      && res.sessions == ss + SessionsFor(r, MissingDays(r, ss, lo, n))
      && res.created == |MissingDays(r, ss, lo, n)|
      && res.skipped == |ExistingDays(r, ss, lo, n)|
  {
    var lo := RangeStart(r, from);
    var n := RangeLength(lo, RangeEnd(r, to));
    GenerateWalkMeaning(r, ss, lo, n);
    GenerateWalk(r, ss, lo, n)
  }

  /** The loop of `preview_sessions_for_rule`: counts only, against the unchanged table. */
  function PreviewWalk(r: RecurrenceRule, ss: seq<ClassSession>, lo: Day, n: nat): (nat, nat)
    decreases n
  {
    if n == 0 then (0, 0)
    else
      var (c, s) := PreviewWalk(r, ss, lo, n - 1);
      var d := lo + n - 1;
      if !MatchesRule(d, r) then (c, s)
      else if HasSession(ss, r, d) then (c, s + 1)
      else (c + 1, s)
  }

  lemma {:induction false} PreviewWalkMeaning(r: RecurrenceRule, ss: seq<ClassSession>, lo: Day, n: nat)
    ensures PreviewWalk(r, ss, lo, n) == (|MissingDays(r, ss, lo, n)|, |ExistingDays(r, ss, lo, n)|)
    decreases n
  {
    if n > 0 {
      PreviewWalkMeaning(r, ss, lo, n - 1);
      MatchersAgree(lo + n - 1, r);
    }
  }

  /**
   * `preview_sessions_for_rule` predicts exactly the counts a real
   * generation over the same table reports.
   */
  function PreviewSessionsForRule(r: RecurrenceRule, from: Day, to: Day, ss: seq<ClassSession>): (counts: (nat, nat))
    ensures counts.0 == GenerateSessionsForRule(r, from, to, ss).created
    ensures counts.1 == GenerateSessionsForRule(r, from, to, ss).skipped
  {
    var lo := RangeStart(r, from);
    var n := RangeLength(lo, RangeEnd(r, to));
    PreviewWalkMeaning(r, ss, lo, n);
    PreviewWalk(r, ss, lo, n)
  }

  /**
   * Generating twice is generating once: the second run creates nothing,
   * leaves the table alone and skips every matching day.
   */
  lemma GenerationIdempotent(r: RecurrenceRule, from: Day, to: Day, ss: seq<ClassSession>)
    ensures var once := GenerateSessionsForRule(r, from, to, ss).sessions;
      var twice := GenerateSessionsForRule(r, from, to, once);
      var lo := RangeStart(r, from);
      && twice.sessions == once
      && twice.created == 0
      && twice.skipped == |MatchingDays(r, lo, RangeLength(lo, RangeEnd(r, to)))|
  {
    var lo := RangeStart(r, from);
    var n := RangeLength(lo, RangeEnd(r, to));
    var once := GenerateSessionsForRule(r, from, to, ss).sessions;
    GenerationCovers(r, ss, lo, n);
    DayListsPartition(r, once, lo, n);
    assert once + SessionsFor(r, []) == once;
  }

  /** Created and skipped days together are the matching days, each once. */
  lemma GenerationCountsPartition(r: RecurrenceRule, from: Day, to: Day, ss: seq<ClassSession>)
    ensures var res := GenerateSessionsForRule(r, from, to, ss);
      var lo := RangeStart(r, from);
      res.created + res.skipped == |MatchingDays(r, lo, RangeLength(lo, RangeEnd(r, to)))|
  {
    var lo := RangeStart(r, from);
    DayListsPartition(r, ss, lo, RangeLength(lo, RangeEnd(r, to)));
  }

  /** A rule whose range misses the window generates nothing. */
  lemma NoOverlapNoWork(r: RecurrenceRule, from: Day, to: Day, ss: seq<ClassSession>)
    requires RangeEnd(r, to) < RangeStart(r, from)
    ensures GenerateSessionsForRule(r, from, to, ss) == WalkResult(ss, 0, 0)
  {
    assert ss + SessionsFor(r, []) == ss;
  }

  /**
   * A weekly Monday/Wednesday rule starting on Monday 2024-01-01 gives four
   * sessions over two weeks of an empty table.
   */
  lemma TwoWeeksOfMondaysAndWednesdays(c: FitnessClass)
    ensures var r := RecurrenceRule("r1", c, Weekly, ["mon", "wed"], 600, 660, 738885, None, true);
      GenerateSessionsForRule(r, 738885, 738898, []).created == 4
  {
    var r := RecurrenceRule("r1", c, Weekly, ["mon", "wed"], 600, 660, 738885, None, true);
    assert MatchingDays(r, 738885, 1) == [738885];
    assert MatchingDays(r, 738885, 2) == [738885];
    assert MatchingDays(r, 738885, 3) == [738885, 738887];
    assert MatchingDays(r, 738885, 4) == [738885, 738887];
    assert MatchingDays(r, 738885, 5) == [738885, 738887];
    assert MatchingDays(r, 738885, 6) == [738885, 738887];
    assert MatchingDays(r, 738885, 7) == [738885, 738887];
    assert MatchingDays(r, 738885, 8) == [738885, 738887, 738892];
    assert MatchingDays(r, 738885, 9) == [738885, 738887, 738892];
    assert MatchingDays(r, 738885, 10) == [738885, 738887, 738892, 738894];
    assert MatchingDays(r, 738885, 11) == [738885, 738887, 738892, 738894];
    assert MatchingDays(r, 738885, 12) == [738885, 738887, 738892, 738894];
    assert MatchingDays(r, 738885, 13) == [738885, 738887, 738892, 738894];
    assert MatchingDays(r, 738885, 14) == [738885, 738887, 738892, 738894];
    EmptyTableMissesAll(r, 738885, 14);
  }

  lemma {:induction false} EmptyTableMissesAll(r: RecurrenceRule, lo: Day, n: nat)
    ensures MissingDays(r, [], lo, n) == MatchingDays(r, lo, n)
    decreases n
  {
    if n > 0 {
      EmptyTableMissesAll(r, lo, n - 1);
    }
  }

  /** The window the command works on: `from_date` .. `to_date`. */
  datatype Window = Window(from: Day, to: Day)

  /**
   * Resolves the command's options: `--from-date` defaults to today and
   * `--to-date` to from-date plus `--days`, where `options.get("days") or 30`
   * turns a missing or zero `--days` into 30.
   */
  function ResolveWindow(today: Day, fromDate: Option<Day>, toDate: Option<Day>, days: Option<int>): Window {
    var from := fromDate.GetOr(today);
    var span := if days.None? || days.value == 0 then 30 else days.value;
    Window(from, toDate.GetOr(from + span))
  }

  /** The rule query: active, starting by `to`, and not ended before `from`. */
  predicate Selected(r: RecurrenceRule, w: Window) {
    r.isActive && r.startDate <= w.to && (r.endDate.None? || r.endDate.value >= w.from)
  }

  /** The rule's own range within the window is covered by sessions. */
  predicate RuleCovered(ss: seq<ClassSession>, r: RecurrenceRule, w: Window) {
    var lo := RangeStart(r, w.from);
    Covered(ss, r, lo, RangeLength(lo, RangeEnd(r, w.to)))
  }

  /** Rules are table rows: no two share a primary key. */
  predicate DistinctIds(rules: seq<RecurrenceRule>) {
    forall i, j | 0 <= i < j < |rules| :: rules[i].id != rules[j].id
  }

  /** `out` is `ss` plus sessions generated for the first `k` rules only. */
  predicate GrownBy(ss: seq<ClassSession>, out: seq<ClassSession>, rules: seq<RecurrenceRule>, k: nat) {
    && k <= |rules|
    && |out| >= |ss| && out[..|ss|] == ss
    && forall i | |ss| <= i < |out| ::
         exists j | 0 <= j < k :: out[i].createdFromRule == Some(rules[j].id)
  }

  /** Every selected rule among the first `k` is covered in `ss`. */
  predicate SelectedCovered(ss: seq<ClassSession>, rules: seq<RecurrenceRule>, k: nat, w: Window)
    requires k <= |rules|
  {
    forall j | 0 <= j < k && Selected(rules[j], w) :: RuleCovered(ss, rules[j], w)
  }

  /** Appending generated sessions never uncovers a rule. */
  lemma CoverageGrows(ss: seq<ClassSession>, r: RecurrenceRule, days: seq<Day>, r2: RecurrenceRule, w: Window)
    requires RuleCovered(ss, r2, w)
    ensures RuleCovered(ss + SessionsFor(r, days), r2, w)
  {
    var lo := RangeStart(r2, w.from);
    var n := RangeLength(lo, RangeEnd(r2, w.to));
    forall d | lo <= d < lo + n && DateMatchesRule(d, r2)
      ensures HasSession(ss + SessionsFor(r, days), r2, d)
    {
      HasSessionAppend(ss, r, days, r2, d);
    }
  }

  /**
   * Processing rule `k` sees exactly the sessions it would see in the
   * original table, since the sessions added so far belong to other rules.
   */
  lemma EarlierRulesIrrelevant(
    ss: seq<ClassSession>, out: seq<ClassSession>, rules: seq<RecurrenceRule>, k: nat, lo: Day, n: nat)
    requires DistinctIds(rules) && k < |rules| && GrownBy(ss, out, rules, k)
    ensures MissingDays(rules[k], out, lo, n) == MissingDays(rules[k], ss, lo, n)
    ensures ExistingDays(rules[k], out, lo, n) == ExistingDays(rules[k], ss, lo, n)
  {
    var extra := out[|ss|..];
    assert out == ss + extra;
    forall i | 0 <= i < |extra|
      ensures extra[i].createdFromRule != Some(rules[k].id)
    {
      assert out[|ss| + i] == extra[i];
    }
    OtherRulesIrrelevant(rules[k], ss, extra, lo, n);
  }

  /** The invariant of the rule loop survives processing rule `k`. */
  lemma {:induction false} RuleStep(
    ss: seq<ClassSession>, out: seq<ClassSession>, rules: seq<RecurrenceRule>, k: nat, w: Window)
    requires DistinctIds(rules) && k < |rules| && GrownBy(ss, out, rules, k)
    requires SelectedCovered(out, rules, k, w)
    ensures var r := rules[k]; var lo := RangeStart(r, w.from);
      var next := out + SessionsFor(r, MissingDays(r, out, lo, RangeLength(lo, RangeEnd(r, w.to))));
      && GrownBy(ss, next, rules, k + 1)
      && SelectedCovered(next, rules, k, w)
      && RuleCovered(next, r, w)
  {
    var r := rules[k];
    var lo := RangeStart(r, w.from);
    var n := RangeLength(lo, RangeEnd(r, w.to));
    var days := MissingDays(r, out, lo, n);
    var next := out + SessionsFor(r, days);
    GenerationCovers(r, out, lo, n);
    forall j | 0 <= j < k && Selected(rules[j], w)
      ensures RuleCovered(next, rules[j], w)
    {
      CoverageGrows(out, r, days, rules[j], w);
    }
    forall i | |ss| <= i < |next|
      ensures exists j | 0 <= j < k + 1 :: next[i].createdFromRule == Some(rules[j].id)
    {
      if i >= |out| {
        assert next[i] == Generated(r, days[i - |out|]);
        assert next[i].createdFromRule == Some(rules[k].id);
      } else {
        assert next[i] == out[i];
      }
    }
    assert next[..|ss|] == out[..|ss|];
  }

  /** The matching days rule `r` lacks within window `w`, against table `ss`. */
  function RuleMissing(r: RecurrenceRule, ss: seq<ClassSession>, w: Window): seq<Day> {
    var lo := RangeStart(r, w.from);
    MissingDays(r, ss, lo, RangeLength(lo, RangeEnd(r, w.to)))
  }

  /** The matching days rule `r` already has within window `w`, against table `ss`. */
  function RuleExisting(r: RecurrenceRule, ss: seq<ClassSession>, w: Window): seq<Day> {
    var lo := RangeStart(r, w.from);
    ExistingDays(r, ss, lo, RangeLength(lo, RangeEnd(r, w.to)))
  }

  /** The missing days of the selected rules among the first `k`, counted against the table before the run. */
  function CreatedTotal(rules: seq<RecurrenceRule>, ss: seq<ClassSession>, w: Window, k: nat): nat
    requires k <= |rules|
    decreases k
  {
    if k == 0 then 0
    else CreatedTotal(rules, ss, w, k - 1) + (if Selected(rules[k - 1], w) then |RuleMissing(rules[k - 1], ss, w)| else 0)
  }

  /** The existing days of the selected rules among the first `k`, counted against the table before the run. */
  function SkippedTotal(rules: seq<RecurrenceRule>, ss: seq<ClassSession>, w: Window, k: nat): nat
    requires k <= |rules|
    decreases k
  {
    if k == 0 then 0
    else SkippedTotal(rules, ss, w, k - 1) + (if Selected(rules[k - 1], w) then |RuleExisting(rules[k - 1], ss, w)| else 0)
  }

  /**
   * The sessions a real run appends for the first `k` rules: rule by rule,
   * each selected rule's missing days in date order.
   */
  function CreatedSessions(rules: seq<RecurrenceRule>, ss: seq<ClassSession>, w: Window, k: nat): (out: seq<ClassSession>)
    requires k <= |rules|
    ensures |out| == CreatedTotal(rules, ss, w, k)
    decreases k
  {
    if k == 0 then []
    else
      var r := rules[k - 1];
      CreatedSessions(rules, ss, w, k - 1) + (if Selected(r, w) then SessionsFor(r, RuleMissing(r, ss, w)) else [])
  }

  /**
   * The state of the command's rule loop after the first `k` rules: the
   * table grew only by those rules' sessions (not at all in a dry run),
   * by exactly the reference sessions, and the counts are the reference
   * totals.
   */
  predicate RunState(
    rules: seq<RecurrenceRule>, ss: seq<ClassSession>, w: Window, dryRun: bool,
    k: nat, out: seq<ClassSession>, created: nat, skipped: nat)
    requires k <= |rules|
  {
    && GrownBy(ss, out, rules, k)
    && (dryRun ==> out == ss)
    && (!dryRun ==> |out| == |ss| + created)
    && (!dryRun ==> SelectedCovered(out, rules, k, w))
    && (created == 0 <==> SelectedCovered(ss, rules, k, w))
    && created == CreatedTotal(rules, ss, w, k) && skipped == SkippedTotal(rules, ss, w, k)
    && (!dryRun ==> out == ss + CreatedSessions(rules, ss, w, k))
  }

  /** In a dry run, counting a selected rule `k` advances the loop state and writes nothing. */
  method StepSelectedDry(
    rules: seq<RecurrenceRule>, ss: seq<ClassSession>, w: Window,
    k: nat, created: nat, skipped: nat)
    returns (created': nat, skipped': nat)
    requires DistinctIds(rules) && k < |rules| && Selected(rules[k], w)
    requires RunState(rules, ss, w, true, k, ss, created, skipped)
    ensures RunState(rules, ss, w, true, k + 1, ss, created', skipped')
  {
    var r := rules[k];
    var lo := RangeStart(r, w.from);
    NoneMissingIffCovered(r, ss, lo, RangeLength(lo, RangeEnd(r, w.to)));
    var out', c, s := ProcessRule(r, w.from, w.to, ss, true);
    created', skipped' := created + c, skipped + s;
  }

  /** Appending a selected rule's missing sessions keeps the earlier rules covered and covers its own. */
  lemma RealStepCoverage(rules: seq<RecurrenceRule>, ss: seq<ClassSession>, w: Window, k: nat, out: seq<ClassSession>)
    requires DistinctIds(rules) && k < |rules| && Selected(rules[k], w)
    requires GrownBy(ss, out, rules, k) && SelectedCovered(out, rules, k, w)
    ensures var r := rules[k]; var next := out + SessionsFor(r, RuleMissing(r, out, w));
      GrownBy(ss, next, rules, k + 1) && SelectedCovered(next, rules, k + 1, w)
  {
    RuleStep(ss, out, rules, k, w);
  }

  /** The created count stays zero exactly while every selected rule so far was covered before the run. */
  lemma RealStepCounts(rules: seq<RecurrenceRule>, ss: seq<ClassSession>, w: Window, k: nat, created: nat)
    requires k < |rules| && Selected(rules[k], w)
    requires created == CreatedTotal(rules, ss, w, k)
    requires created == 0 <==> SelectedCovered(ss, rules, k, w)
    ensures var c := created + |RuleMissing(rules[k], ss, w)|;
      c == CreatedTotal(rules, ss, w, k + 1) && (c == 0 <==> SelectedCovered(ss, rules, k + 1, w))
  {
    var r := rules[k];
    var lo := RangeStart(r, w.from);
    NoneMissingIffCovered(r, ss, lo, RangeLength(lo, RangeEnd(r, w.to)));
  }

  /**
   * In a real run, appending a selected rule's missing sessions (counted
   * against the table before the run) advances the loop state.
   */
  lemma RealStepState(
    rules: seq<RecurrenceRule>, ss: seq<ClassSession>, w: Window,
    k: nat, out: seq<ClassSession>, created: nat, skipped: nat)
    requires DistinctIds(rules) && k < |rules| && Selected(rules[k], w)
    requires RunState(rules, ss, w, false, k, out, created, skipped)
    ensures var r := rules[k];
      RunState(rules, ss, w, false, k + 1, out + SessionsFor(r, RuleMissing(r, ss, w)),
               created + |RuleMissing(r, ss, w)|, skipped + |RuleExisting(r, ss, w)|)
  {
    var r := rules[k];
    var lo := RangeStart(r, w.from);
    EarlierRulesIrrelevant(ss, out, rules, k, lo, RangeLength(lo, RangeEnd(r, w.to)));
    assert RuleMissing(r, out, w) == RuleMissing(r, ss, w);
    RealStepCoverage(rules, ss, w, k, out);
    RealStepCounts(rules, ss, w, k, created);
    var next := out + SessionsFor(r, RuleMissing(r, ss, w));
    assert next == (ss + CreatedSessions(rules, ss, w, k)) + SessionsFor(r, RuleMissing(r, ss, w));
  }

  /** In a real run, processing a selected rule `k` appends its missing sessions and advances the loop state. */
  method StepSelectedReal(
    rules: seq<RecurrenceRule>, ss: seq<ClassSession>, w: Window,
    k: nat, out: seq<ClassSession>, created: nat, skipped: nat)
    returns (out': seq<ClassSession>, created': nat, skipped': nat)
    requires DistinctIds(rules) && k < |rules| && Selected(rules[k], w)
    requires RunState(rules, ss, w, false, k, out, created, skipped)
    ensures RunState(rules, ss, w, false, k + 1, out', created', skipped')
  {
    var r := rules[k];
    var lo := RangeStart(r, w.from);
    EarlierRulesIrrelevant(ss, out, rules, k, lo, RangeLength(lo, RangeEnd(r, w.to)));
    RealStepState(rules, ss, w, k, out, created, skipped);
    var c, s;
    out', c, s := ProcessRule(r, w.from, w.to, out, false);
    created', skipped' := created + c, skipped + s;
  }

  /** One pass of the rule loop: rule `k` is processed when the query selects it, skipped otherwise. */
  method StepRule(
    rules: seq<RecurrenceRule>, ss: seq<ClassSession>, w: Window, dryRun: bool,
    k: nat, out: seq<ClassSession>, created: nat, skipped: nat)
    returns (out': seq<ClassSession>, created': nat, skipped': nat)
    requires DistinctIds(rules) && k < |rules|
    requires RunState(rules, ss, w, dryRun, k, out, created, skipped)
    ensures RunState(rules, ss, w, dryRun, k + 1, out', created', skipped')
  {
    if Selected(rules[k], w) {
      if dryRun {
        out' := out;
        created', skipped' := StepSelectedDry(rules, ss, w, k, created, skipped);
      } else {
        out', created', skipped' := StepSelectedReal(rules, ss, w, k, out, created, skipped);
      }
    } else {
      assert GrownBy(ss, out, rules, k + 1) by {
        forall i | |ss| <= i < |out|
          ensures exists j | 0 <= j < k + 1 :: out[i].createdFromRule == Some(rules[j].id)
        {
          var j :| 0 <= j < k && out[i].createdFromRule == Some(rules[j].id);
        }
      }
      out', created', skipped' := out, created, skipped;
    }
  }

  /** Before the first rule nothing is counted and the table is as it was. */
  lemma RunStateStart(rules: seq<RecurrenceRule>, ss: seq<ClassSession>, w: Window, dryRun: bool)
    ensures RunState(rules, ss, w, dryRun, 0, ss, 0, 0)
  {
    assert ss[..|ss|] == ss;
    assert ss + [] == ss;
  }

  /** The rule loop of `Command.handle` over every rule, from the table `ss`. */
  method RunRules(rules: seq<RecurrenceRule>, ss: seq<ClassSession>, w: Window, dryRun: bool)
    returns (out: seq<ClassSession>, created: nat, skipped: nat)
    requires DistinctIds(rules)
    ensures RunState(rules, ss, w, dryRun, |rules|, out, created, skipped)
  {
    out, created, skipped := ss, 0, 0;
    RunStateStart(rules, ss, w, dryRun);
    var k := 0;
    while k < |rules|
      invariant 0 <= k <= |rules|
      invariant RunState(rules, ss, w, dryRun, k, out, created, skipped)
    {
      out, created, skipped := StepRule(rules, ss, w, dryRun, k, out, created, skipped);
      k := k + 1;
    }
  }

  datatype GenerateOutcome =
    | WindowInverted
    | NoActiveRules
    | Totals(created: nat, skipped: nat)

  /**
   * `Command.handle`. An inverted window is reported before any work and a
   * window no rule overlaps creates nothing. Otherwise each selected rule is
   * processed: after a real run every selected rule's range is covered, the
   * table only grew by the reported number of sessions, and the run created
   * nothing exactly when every selected rule was already covered, so a
   * second run over the same window creates nothing. A dry run reports the
   * same totals and leaves the table as it was.
   */
  method GenerateSessions(
    rules: seq<RecurrenceRule>, ss: seq<ClassSession>, today: Day,
    fromDate: Option<Day>, toDate: Option<Day>, days: Option<int>, dryRun: bool)
    returns (out: seq<ClassSession>, outcome: GenerateOutcome)
    requires DistinctIds(rules)
    ensures var w := ResolveWindow(today, fromDate, toDate, days);
      && (outcome.WindowInverted? <==> w.to < w.from)
      && (outcome.NoActiveRules? <==>
            w.from <= w.to && forall k | 0 <= k < |rules| :: !Selected(rules[k], w))
      && (dryRun || !outcome.Totals? ==> out == ss)
      && |out| >= |ss| && out[..|ss|] == ss
      && (outcome.Totals? && !dryRun ==> |out| == |ss| + outcome.created)
      && (outcome.Totals? && !dryRun ==> SelectedCovered(out, rules, |rules|, w))
      && (outcome.Totals? ==> (outcome.created == 0 <==> SelectedCovered(ss, rules, |rules|, w)))
      && (outcome.Totals? ==> outcome.created == CreatedTotal(rules, ss, w, |rules|)
                              && outcome.skipped == SkippedTotal(rules, ss, w, |rules|))
      && (outcome.Totals? && !dryRun ==> out == ss + CreatedSessions(rules, ss, w, |rules|))
  {
    var w := ResolveWindow(today, fromDate, toDate, days);
    out := ss;
    if w.to < w.from {
      return out, WindowInverted;
    }
    if forall k | 0 <= k < |rules| :: !Selected(rules[k], w) {
      return out, NoActiveRules;
    }
    var created, skipped;
    out, created, skipped := RunRules(rules, ss, w, dryRun);
    outcome := Totals(created, skipped);
  }
}

=== FILE: session_listing.dfy ===
/**
 * The two read-only listings of the booking API: active fitness classes
 * ordered by name, and upcoming scheduled sessions filtered by date range
 * and genre and ordered by date then start time. Ordering is by
 * lexicographic comparison of integer keys; a name compares by its
 * characters' code points.
 */
module SessionListing {
  import opened Common
  import opened BookingModels

  // ------------------------------------------------------------- ordering

  /** Lexicographic order on integer sequences, a prefix coming first. */
  predicate LexLe(a: seq<int>, b: seq<int>)
    decreases |a|
  {
    |a| == 0 || (|b| > 0 && (a[0] < b[0] || (a[0] == b[0] && LexLe(a[1..], b[1..]))))
  }

  lemma {:induction false} LexTotal(a: seq<int>, b: seq<int>)
    ensures LexLe(a, b) || LexLe(b, a)
    decreases |a|
  {
    if |a| > 0 && |b| > 0 && a[0] == b[0] {
      LexTotal(a[1..], b[1..]);
    }
  }

  lemma {:induction false} LexTrans(a: seq<int>, b: seq<int>, c: seq<int>)
    requires LexLe(a, b) && LexLe(b, c)
    ensures LexLe(a, c)
    decreases |a|
  {
    if |a| > 0 && a[0] == b[0] && b[0] == c[0] {
      LexTrans(a[1..], b[1..], c[1..]);
    }
  }

  lemma {:induction false} LexAntisymmetric(a: seq<int>, b: seq<int>)
    requires LexLe(a, b) && LexLe(b, a)
    ensures a == b
    decreases |a|
  {
    if |a| > 0 {
      LexAntisymmetric(a[1..], b[1..]);
      assert a == [a[0]] + a[1..] && b == [b[0]] + b[1..];
    }
  }

  /** `order_by("name")`: a name's key is its code points. */
  function NameKey(c: FitnessClass): (k: seq<int>)
    ensures |k| == |c.name| && forall i | 0 <= i < |k| :: k[i] == c.name[i] as int
  {
    seq(|c.name|, i requires 0 <= i < |c.name| => c.name[i] as int)
  }

  /** `order_by("date", "start_time")`. */
  function SessionKey(s: ClassSession): seq<int> {
    [s.date, s.startTime]
  }

  /** Sessions compare by date, then by start time. */
  lemma SessionKeyOrder(s: ClassSession, t: ClassSession)
    ensures LexLe(SessionKey(s), SessionKey(t)) <==>
              s.date < t.date || (s.date == t.date && s.startTime <= t.startTime)
  {
    assert SessionKey(s)[1..] == [s.startTime];
    assert SessionKey(t)[1..] == [t.startTime];
    assert [s.startTime][1..] == [] && [t.startTime][1..] == [];
    assert LexLe([], []);
    assert LexLe([s.startTime], [t.startTime]) <==> s.startTime <= t.startTime;
  }

  // -------------------------------------------------------------- sorting

  /** Each element's key is at most the next one's. */
  predicate Sorted<T>(s: seq<T>, key: T -> seq<int>) {
    forall i | 0 < i < |s| :: LexLe(key(s[i - 1]), key(s[i]))
  }

  /** Any two elements, not just neighbours, are in order. */
  lemma {:induction false} SortedPairwise<T>(s: seq<T>, key: T -> seq<int>)
    requires Sorted(s, key)
    ensures forall i, j | 0 <= i < j < |s| :: LexLe(key(s[i]), key(s[j]))
    decreases |s|
  {
    if |s| > 1 {
      var init := s[..|s| - 1];
      assert Sorted(init, key);
      SortedPairwise(init, key);
      forall i | 0 <= i < |s| - 1
        ensures LexLe(key(s[i]), key(s[|s| - 1]))
      {
        if i < |s| - 2 {
          assert LexLe(key(init[i]), key(init[|s| - 2]));
          LexTrans(key(s[i]), key(s[|s| - 2]), key(s[|s| - 1]));
        }
      }
    }
  }

  /** `x` placed before the first element whose key is larger than its own. */
  function Insert<T>(x: T, s: seq<T>, key: T -> seq<int>): (r: seq<T>)
    requires Sorted(s, key)
    ensures Sorted(r, key)
    ensures multiset(r) == multiset(s) + multiset{x}
    ensures |r| == |s| + 1 && (r[0] == x || (|s| > 0 && r[0] == s[0]))
    decreases |s|
  {
    if |s| == 0 then [x]
    else if LexLe(key(x), key(s[0])) then [x] + s
    else
      LexTotal(key(x), key(s[0]));
      var rest := Insert(x, s[1..], key);
      assert s == [s[0]] + s[1..];
      [s[0]] + rest
  }

  /** Insertion sort by key: equal keys keep their relative order. */
  function SortBy<T>(s: seq<T>, key: T -> seq<int>): (r: seq<T>)
    ensures Sorted(r, key)
    ensures multiset(r) == multiset(s)
    ensures |r| == |s|
    decreases |s|
  {
    if |s| == 0 then []
    else
      var r := Insert(s[|s| - 1], SortBy(s[..|s| - 1], key), key);
      assert s == s[..|s| - 1] + [s[|s| - 1]];
      r
  }

  /** The elements of `s` satisfying `p`, in order. */
  function Filter<T(!new)>(s: seq<T>, p: T -> bool): (r: seq<T>)
    ensures |r| <= |s|
    ensures forall x :: multiset(r)[x] == (if p(x) then multiset(s)[x] else 0)
    decreases |s|
  {
    if |s| == 0 then []
    else
      var last := s[|s| - 1];
      assert s == s[..|s| - 1] + [last];
      Filter(s[..|s| - 1], p) + (if p(last) then [last] else [])
  }

  // ------------------------------------------------------------- listings

  /**
   * `ActiveFitnessClassListView.get_queryset`: the active classes, each
   * as often as it is stored, ordered by name.
   */
  function ActiveClasses(classes: seq<FitnessClass>): (r: seq<FitnessClass>)
    ensures forall c :: multiset(r)[c] == (if c.isActive then multiset(classes)[c] else 0)
    ensures forall i, j | 0 <= i < j < |r| :: LexLe(NameKey(r[i]), NameKey(r[j]))
  {
    var r := SortBy(Filter(classes, (c: FitnessClass) => c.isActive), NameKey);
    SortedPairwise(r, NameKey);
    r
  }

  /** The query parameters: `from_date`, `to_date` and `genre`, absent or empty meaning no filter. */
  datatype SessionQuery = SessionQuery(fromDate: Option<Day>, toDate: Option<Day>, genre: string)

  /** A session the upcoming listing shows. */
  predicate Listed(s: ClassSession, q: SessionQuery, today: Day) {
    && s.status == Scheduled
    && s.date >= q.fromDate.GetOr(today)
    && (q.toDate.Some? ==> s.date <= q.toDate.value)
    && (q.genre != "" ==> s.fitnessClass.genre == q.genre)
  }

  /**
   * `UpcomingClassSessionListView.get_queryset`: the scheduled sessions
   * from `from_date` (today when absent) up to `to_date` when given, of the
   * given genre when one is given, ordered by date and start time.
   */
  function UpcomingSessions(sessions: seq<ClassSession>, q: SessionQuery, today: Day): (r: seq<ClassSession>)
    ensures forall s :: multiset(r)[s] == (if Listed(s, q, today) then multiset(sessions)[s] else 0)
    ensures forall i, j | 0 <= i < j < |r| ::
              r[i].date < r[j].date || (r[i].date == r[j].date && r[i].startTime <= r[j].startTime)
  {
    var r := SortBy(Filter(sessions, (s: ClassSession) => Listed(s, q, today)), SessionKey);
    SortedPairwise(r, SessionKey);
    forall i, j | 0 <= i < j < |r|
      ensures r[i].date < r[j].date || (r[i].date == r[j].date && r[i].startTime <= r[j].startTime)
    {
      SessionKeyOrder(r[i], r[j]);
    }
    r
  }

  /** A session is listed exactly when it is stored and passes every filter. */
  lemma UpcomingMembership(sessions: seq<ClassSession>, q: SessionQuery, today: Day, s: ClassSession)
    ensures s in UpcomingSessions(sessions, q, today) <==> s in sessions && Listed(s, q, today)
  {
    var r := UpcomingSessions(sessions, q, today);
    assert s in r <==> multiset(r)[s] > 0;
    assert s in sessions <==> multiset(sessions)[s] > 0;
  }

  /** Without `from_date` nothing before today is listed, and a cancelled session never is. */
  lemma NothingPastOrCancelled(sessions: seq<ClassSession>, genre: string, today: Day, s: ClassSession)
    requires s in UpcomingSessions(sessions, SessionQuery(None, None, genre), today)
    ensures s.date >= today && s.status == Scheduled
  {
    UpcomingMembership(sessions, SessionQuery(None, None, genre), today, s);
  }
}

=== FILE: stripe.dfy ===
/**
 * What the booking and event payment helpers share about Stripe: the
 * secret-key check, the errors a payment path can raise, the shape of a
 * PaymentIntent request and of a webhook event. The Stripe client is not
 * modelled; its calls are parameters of the operations that make them.
 */
module Stripe {
  import opened Common

  /**
   * `ImproperlyConfigured` and `ValueError` as raised by the helpers, and
   * `stripe.error.StripeError` from the provider.
   */
  datatype PaymentError = ImproperlyConfigured(message: string) | ValueError(message: string) | StripeError

  const SecretMissingMessage := "Stripe secret key is not configured. Set STRIPE_SECRET_KEY."

  /** `stripe_enabled`: a non-empty `STRIPE_SECRET_KEY` is configured. */
  predicate StripeEnabled(settings: map<string, string>) {
    Setting(settings, "STRIPE_SECRET_KEY", "") != ""
  }

  /**
   * `_configure_stripe`: the secret key when Stripe is enabled, and
   * `ImproperlyConfigured` otherwise.
   */
  function ConfigureStripe(settings: map<string, string>): (r: Result<string, PaymentError>)
    ensures r.Ok? <==> StripeEnabled(settings)
    ensures r.Ok? ==> "STRIPE_SECRET_KEY" in settings && r.value == settings["STRIPE_SECRET_KEY"] && r.value != ""
    ensures r.Err? ==> r.error == ImproperlyConfigured(SecretMissingMessage)
  {
    var secret := Setting(settings, "STRIPE_SECRET_KEY", "");
    if secret == "" then Err(ImproperlyConfigured(SecretMissingMessage)) else Ok(secret)
  }

  /** `STRIPE_CURRENCY`, "usd" unless configured. */
  function Currency(settings: map<string, string>): (c: string)
    ensures "STRIPE_CURRENCY" !in settings ==> c == "usd"
  {
    Setting(settings, "STRIPE_CURRENCY", "usd")
  }

  /**
   * The keyword arguments of `stripe.PaymentIntent.create`. Automatic
   * payment methods are always enabled without redirects, so they are not
   * a field.
   */
  datatype IntentRequest = IntentRequest(
    amount: int,
    currency: string,
    metadata: seq<(string, string)>,
    description: string,
    receiptEmail: Option<string>)

  /** `str(user_id)` of a nullable user column: "None" for a guest. */
  function UserIdText(user: Option<UserId>): string {
    match user
    case Some(u) => u
    case None => "None"
  }

  /**
   * `getattr(owner.user, "email", "")`: the account's e-mail, "" for a
   * guest (the attribute lookup on `None` falls back to the default).
   */
  function AccountEmail(emails: map<UserId, string>, user: Option<UserId>): string {
    if user.Some? && user.value in emails then emails[user.value] else ""
  }

  /** The receipt e-mail is sent only for a non-empty address. */
  function ReceiptEmail(email: string): (r: Option<string>)
    ensures r.Some? <==> email != ""
    ensures r.Some? ==> r.value == email
  {
    if email == "" then None else Some(email)
  }

  /**
   * A payment's description, "{prefix}: {subject} on {date}": the prefix is
   * the configured one when set, otherwise the default the calling module
   * passes.
   */
  function PaymentDescription(settings: map<string, string>, default: string, subject: string, dateText: string): (d: string)
    ensures "STRIPE_PAYMENT_DESCRIPTION_PREFIX" !in settings ==>
              d == default + ": " + subject + " on " + dateText
    ensures "STRIPE_PAYMENT_DESCRIPTION_PREFIX" in settings ==>
              d == settings["STRIPE_PAYMENT_DESCRIPTION_PREFIX"] + ": " + subject + " on " + dateText
  {
    Setting(settings, "STRIPE_PAYMENT_DESCRIPTION_PREFIX", default) + ": " + subject + " on " + dateText
  }

  /** A parsed webhook event: its `type` and its `data.object` as a dictionary. */
  datatype StripeEvent = StripeEvent(eventType: Option<string>, data: map<string, string>)

  /** How `stripe.Webhook.construct_event` can fail. */
  datatype WebhookFailure = InvalidPayload | InvalidSignature

  /**
   * `stripe.Webhook.construct_event(payload, sig_header, secret)`; the
   * signature check is the provider's and stays abstract.
   */
  type ConstructEvent = (string, Option<string>, Option<string>) -> Result<StripeEvent, WebhookFailure>

  /** A step that can fail before the provider is reached, or with the provider's own failure. */
  datatype ParseFailure = NotConfigured(message: string) | Rejected(failure: WebhookFailure)
}

=== FILE: text.dfy ===
/**
 * The Python string operations the core relies on: `str.strip()`,
 * ASCII case mapping, and `str.split(sep)` with a one-character separator.
 */
module Text {

  /**
   * Python's `str.isspace()`: the characters `str.strip()` removes when
   * called without arguments.
   */
  predicate IsSpace(c: char) {
    || ('\t' <= c <= '\r')
    || ('\U{1c}' <= c <= '\U{1f}')
    || c == ' ' || c == '\U{85}' || c == '\U{a0}' || c == '\U{1680}'
    || ('\U{2000}' <= c <= '\U{200a}')
    || c == '\U{2028}' || c == '\U{2029}' || c == '\U{202f}' || c == '\U{205f}'
    || c == '\U{3000}'
  }

  /** Drops leading whitespace. */
  function StripLeft(s: string): (r: string)
    ensures |r| <= |s| && r == s[|s| - |r|..]
    ensures |r| > 0 ==> !IsSpace(r[0])
    ensures forall i | 0 <= i < |s| - |r| :: IsSpace(s[i])
  {
    if |s| > 0 && IsSpace(s[0]) then StripLeft(s[1..]) else s
  }

  /** Drops trailing whitespace. */
  function StripRight(s: string): (r: string)
    ensures |r| <= |s| && r == s[..|r|]
    ensures |r| > 0 ==> !IsSpace(r[|r| - 1])
    ensures forall i | |r| <= i < |s| :: IsSpace(s[i])
  {
    if |s| > 0 && IsSpace(s[|s| - 1]) then StripRight(s[..|s| - 1]) else s
  }

  /**
   * Python's `s.strip()`: the longest slice of `s` that neither starts nor
   * ends with whitespace, everything cut off being whitespace.
   */
  function Strip(s: string): (r: string)
    ensures |r| > 0 ==> !IsSpace(r[0]) && !IsSpace(r[|r| - 1])
    ensures exists k :: TrimmedAt(s, r, k)
  {
    var l := StripLeft(s);
    var r := StripRight(l);
    var k := |s| - |l|;
    assert TrimmedAt(s, r, k);
    r
  }

  /** `r` sits at offset `k` of `s` with only whitespace around it. */
  predicate TrimmedAt(s: string, r: string, k: int) {
    && 0 <= k <= |s| - |r|
    && r == s[k..k + |r|]
    && (forall i | 0 <= i < k :: IsSpace(s[i]))
    && (forall i | k + |r| <= i < |s| :: IsSpace(s[i]))
  }

  /** Stripping a string that has no outer whitespace changes nothing. */
  lemma StripClean(s: string)
    requires |s| > 0 ==> !IsSpace(s[0]) && !IsSpace(s[|s| - 1])
    ensures Strip(s) == s
  {
  }

  /** `strip()` is idempotent. */
  lemma StripIdempotent(s: string)
    ensures Strip(Strip(s)) == Strip(s)
  {
    StripClean(Strip(s));
  }

  predicate IsUpperAscii(c: char) {
    'A' <= c <= 'Z'
  }

  predicate IsLowerAscii(c: char) {
    'a' <= c <= 'z'
  }

  function LowerChar(c: char): char {
    if IsUpperAscii(c) then (c as int + 32) as char else c
  }

  function UpperChar(c: char): char {
    if IsLowerAscii(c) then (c as int - 32) as char else c
  }

  /** `str.lower()` on ASCII letters; every other character is kept. */
  function Lower(s: string): (r: string)
    ensures |r| == |s|
    ensures forall i | 0 <= i < |s| :: r[i] == LowerChar(s[i])
    ensures forall i | 0 <= i < |r| :: !IsUpperAscii(r[i])
  {
    seq(|s|, i requires 0 <= i < |s| => LowerChar(s[i]))
  }

  /** `str.upper()` on ASCII letters; every other character is kept. */
  function Upper(s: string): (r: string)
    ensures |r| == |s|
    ensures forall i | 0 <= i < |s| :: r[i] == UpperChar(s[i])
    ensures forall i | 0 <= i < |r| :: !IsLowerAscii(r[i])
  {
    seq(|s|, i requires 0 <= i < |s| => UpperChar(s[i]))
  }

  /** Lower-casing keeps every character's whitespace status. */
  lemma LowerKeepsSpace(c: char)
    ensures IsSpace(LowerChar(c)) == IsSpace(c)
  {
  }

  /** Lower-casing is idempotent. */
  lemma LowerIdempotent(s: string)
    ensures Lower(Lower(s)) == Lower(s)
  {
  }

  /** Lower-casing commutes with stripping. */
  lemma {:induction false} StripLower(s: string)
    ensures Strip(Lower(s)) == Lower(Strip(s))
  {
    StripLeftLower(s);
    StripRightLower(StripLeft(s));
  }

  lemma {:induction false} StripLeftLower(s: string)
    ensures StripLeft(Lower(s)) == Lower(StripLeft(s))
    decreases |s|
  {
    if |s| > 0 {
      LowerKeepsSpace(s[0]);
      assert Lower(s)[1..] == Lower(s[1..]);
      if IsSpace(s[0]) {
        StripLeftLower(s[1..]);
      }
    }
  }

  lemma {:induction false} StripRightLower(s: string)
    ensures StripRight(Lower(s)) == Lower(StripRight(s))
    decreases |s|
  {
    if |s| > 0 {
      LowerKeepsSpace(s[|s| - 1]);
      assert Lower(s)[..|s| - 1] == Lower(s[..|s| - 1]);
      if IsSpace(s[|s| - 1]) {
        StripRightLower(s[..|s| - 1]);
      }
    }
  }

  /** `sep.join(parts)`. */
  function Join(parts: seq<string>, sep: char): (r: string)
    decreases |parts|
  {
    if |parts| == 0 then ""
    else if |parts| == 1 then parts[0]
    else parts[0] + [sep] + Join(parts[1..], sep)
  }

  /** Index of the first `sep` in `s`, or `|s|` when there is none. */
  function FirstIndex(s: string, sep: char): (k: nat)
    ensures k <= |s|
    ensures k < |s| ==> s[k] == sep
    ensures forall i | 0 <= i < k :: s[i] != sep
  {
    if |s| == 0 then 0
    else if s[0] == sep then 0
    else 1 + FirstIndex(s[1..], sep)
  }

  /**
   * Python's `s.split(sep)`: the pieces between separators, never empty as
   * a list, none containing `sep`, and joining them back gives `s`.
   */
  function Split(s: string, sep: char): (parts: seq<string>)
    ensures |parts| >= 1
    ensures forall j, i | 0 <= j < |parts| && 0 <= i < |parts[j]| :: parts[j][i] != sep
    ensures Join(parts, sep) == s
    decreases |s|
  {
    var k := FirstIndex(s, sep);
    if k == |s| then
      [s]
    else
      var rest := Split(s[k + 1..], sep);
      assert s == s[..k] + [sep] + s[k + 1..];
      [s[..k]] + rest
  }

  lemma {:induction false} FirstIndexAt(a: string, sep: char, b: string)
    requires forall i | 0 <= i < |a| :: a[i] != sep
    ensures FirstIndex(a + [sep] + b, sep) == |a|
    decreases |a|
  {
    if |a| > 0 {
      assert (a + [sep] + b)[1..] == a[1..] + [sep] + b;
      FirstIndexAt(a[1..], sep, b);
    }
  }

  /** Splitting a join of separator-free pieces gives the pieces back. */
  lemma {:induction false} SplitJoin(parts: seq<string>, sep: char)
    requires |parts| >= 1
    requires forall j, i | 0 <= j < |parts| && 0 <= i < |parts[j]| :: parts[j][i] != sep
    ensures Split(Join(parts, sep), sep) == parts
    decreases |parts|
  {
    var s := Join(parts, sep);
    if |parts| == 1 {
      assert FirstIndex(s, sep) == |s|;
    } else {
      var rest := Join(parts[1..], sep);
      assert s == parts[0] + [sep] + rest;
      FirstIndexAt(parts[0], sep, rest);
      assert s[|parts[0]| + 1..] == rest;
      assert s[..|parts[0]|] == parts[0];
      SplitJoin(parts[1..], sep);
    }
  }
}

=== FILE: tokens.dfy ===
/**
 * Guest cancel tokens: a signed, timestamped pair (kind, id) that lets a
 * guest cancel the ticket or booking it names. The keyed signature itself is
 * a parameter; only what the token layer does around it is modelled.
 */
module CancelTokens {
  import opened Common

  const CancelTokenSalt := "cancel-token"

  /** Seven days in seconds, used when `CANCEL_TOKEN_MAX_AGE` is not set. */
  const DefaultMaxAge: int := 60 * 60 * 24 * 7

  /** `CANCEL_TOKEN_MAX_AGE`, read once from the settings. */
  function MaxAge(setting: Option<int>): (a: int)
    ensures setting.None? ==> a == 604800
    ensures setting.Some? ==> a == setting.value
  {
    setting.GetOr(DefaultMaxAge)
  }

  /** The signed payload `{"kind": kind, "id": str(obj_id)}`. */
  datatype Claims = Claims(kind: string, id: Id)

  /**
   * A token as `signing.loads` sees it: a payload, its timestamp and its
   * signature, or text that does not even split into those parts.
   */
  datatype Token = Token(claims: Claims, issuedAt: Instant, signature: string) | Garbled(text: string)

  /** The keyed signature over (salt, payload, timestamp). */
  type Signer = (string, Claims, Instant) -> string

  /** `generate_cancel_token(kind, obj_id)` at time `now`. */
  function GenerateCancelToken(sign: Signer, kind: string, id: Id, now: Instant): (t: Token)
    ensures t.Token? && t.claims == Claims(kind, id) && t.issuedAt == now
  {
    Token(Claims(kind, id), now, sign(CancelTokenSalt, Claims(kind, id), now))
  }

  /**
   * `signing.loads(token, salt, max_age)`: the payload when the signature
   * is the one the signer gives and the token is at most `maxAge` seconds
   * old; `BadSignature` (of which an expired signature is a kind) otherwise.
   */
  function LoadClaims(sign: Signer, token: Token, now: Instant, maxAge: int): (r: Option<Claims>)
    ensures r.Some? ==> token.Token? && r.value == token.claims
    ensures r.Some? <==>
              token.Token? && token.signature == sign(CancelTokenSalt, token.claims, token.issuedAt)
              && now - token.issuedAt <= maxAge
  {
    match token
    case Garbled(_) => None
    case Token(c, ts, sig) =>
      if sig != sign(CancelTokenSalt, c, ts) then None
      else if now - ts > maxAge then None
      else Some(c)
  }

  /**
   * `verify_cancel_token`: false for any token that fails to load, else
   * whether it names exactly the expected kind and id. It never fails with
   * an error.
   */
  function VerifyCancelToken(sign: Signer, token: Token, kind: string, id: Id, now: Instant, maxAge: int): (ok: bool)
    ensures ok ==> token.Token? && token.claims == Claims(kind, id)
    ensures ok ==> token.signature == sign(CancelTokenSalt, token.claims, token.issuedAt)
    ensures ok ==> now - token.issuedAt <= maxAge
  {
    match LoadClaims(sign, token, now, maxAge)
    case None => false
    case Some(c) => c.kind == kind && c.id == id
  }

  /**
   * A token verifies for the kind and id it was issued for exactly while
   * its age is within the maximum, and never for any other kind or id.
   */
  lemma TokenRoundTrip(sign: Signer, kind: string, id: Id, issued: Instant,
                       kind': string, id': Id, now: Instant, maxAge: int)
    ensures VerifyCancelToken(sign, GenerateCancelToken(sign, kind, id, issued), kind', id', now, maxAge)
            <==> now - issued <= maxAge && kind' == kind && id' == id
  {
  }

  /**
   * Changing the payload or the timestamp of a token without a matching
   * signature makes it fail, as does any garbled text.
   */
  lemma TamperedTokenFails(sign: Signer, t: Token, c: Claims, ts: Instant, kind: string, id: Id, now: Instant, maxAge: int)
    requires t.Token?
    requires sign(CancelTokenSalt, c, ts) != t.signature
    ensures !VerifyCancelToken(sign, Token(c, ts, t.signature), kind, id, now, maxAge)
    ensures !VerifyCancelToken(sign, Garbled(t.signature), kind, id, now, maxAge)
  {
  }

  /** With the default setting a token issued a week ago still verifies, a second later it does not. */
  lemma DefaultAgeBoundary(sign: Signer, kind: string, id: Id, issued: Instant)
    ensures VerifyCancelToken(sign, GenerateCancelToken(sign, kind, id, issued), kind, id, issued + 604800, MaxAge(None))
    ensures !VerifyCancelToken(sign, GenerateCancelToken(sign, kind, id, issued), kind, id, issued + 604801, MaxAge(None))
  {
  }
}

=== FILE: truelayer.dfy ===
/**
 * The TrueLayer helpers: which settings enable the provider, how a payment
 * status is normalised and classified, the conversion to minor units, the
 * checks `create_payment` makes before any request, and the checks
 * `verify_webhook` makes around the (abstract) JWS verification, including
 * the detached-content reconstruction of Appendix F of RFC 7515.
 */
module TrueLayer {
  import opened Common
  import opened Money
  import opened Text
  import opened Base64Url

  /** `truelayer_enabled`: client id, key id, private key and merchant account are all set and non-empty. */
  predicate TrueLayerEnabled(settings: map<string, string>) {
    && Setting(settings, "TRUE_LAYER_CLIENT_ID", "") != ""
    && Setting(settings, "TRUE_LAYER_KEY_ID", "") != ""
    && Setting(settings, "TRUE_LAYER_PRIVATE_KEY", "") != ""
    && Setting(settings, "TRUE_LAYER_MERCHANT_ACCOUNT_ID", "") != ""
  }

  // ------------------------------------------------------------- statuses

  /**
   * `normalize_status`: a missing or empty status is "", anything else is
   * stripped of surrounding white space and lower-cased.
   */
  function NormalizeStatus(raw: Option<string>): (r: string)
    ensures raw.None? || raw == Some("") ==> r == ""
    ensures raw.Some? ==> |r| <= |raw.value|
    ensures |r| > 0 ==> !IsSpace(r[0]) && !IsSpace(r[|r| - 1])
    ensures forall i | 0 <= i < |r| :: !IsUpperAscii(r[i])
  {
    match raw
    case None => ""
    case Some(s) =>
      if s == "" then ""
      else
        var t := Strip(s);
        LowerKeepsEnds(t);
        assert |t| <= |s| by { var k :| TrimmedAt(s, t, k); }
        Lower(t)
  }

  lemma LowerKeepsEnds(t: string)
    requires |t| > 0 ==> !IsSpace(t[0]) && !IsSpace(t[|t| - 1])
    ensures |Lower(t)| > 0 ==> !IsSpace(Lower(t)[0]) && !IsSpace(Lower(t)[|t| - 1])
  {
    if |t| > 0 {
      LowerKeepsSpace(t[0]);
      LowerKeepsSpace(t[|t| - 1]);
    }
  }

  /** Normalising a normalised status changes nothing. */
  lemma NormalizeIdempotent(raw: Option<string>)
    ensures NormalizeStatus(Some(NormalizeStatus(raw))) == NormalizeStatus(raw)
  {
    var r := NormalizeStatus(raw);
    if r != "" {
      var s := raw.value;
      assert r == Lower(Strip(s));
      StripClean(r);
      LowerIdempotent(Strip(s));
    }
  }

  /** Normalising is trimming and lower-casing: the same status up to case and surrounding white space. */
  lemma NormalizeMeaning(raw: string)
    ensures exists k :: TrimmedAt(Lower(raw), NormalizeStatus(Some(raw)), k)
  {
    if raw != "" {
      StripLower(raw);
      assert NormalizeStatus(Some(raw)) == Strip(Lower(raw));
      var k :| TrimmedAt(Lower(raw), Strip(Lower(raw)), k);
      assert TrimmedAt(Lower(raw), NormalizeStatus(Some(raw)), k);
    } else {
      assert Lower(raw) == "" && NormalizeStatus(Some(raw)) == "";
      assert TrimmedAt(Lower(raw), NormalizeStatus(Some(raw)), 0);
    }
  }

  const SuccessStatuses: set<string> := {"executed", "settled", "credited"}
  const FailureStatuses: set<string> := {"failed", "cancelled", "canceled", "rejected", "expired"}

  predicate IsSuccessStatus(status: string) {
    status in SuccessStatuses
  }

  predicate IsFailureStatus(status: string) {
    status in FailureStatuses
  }

  /** No status is both a success and a failure, and the empty status is neither. */
  lemma StatusClassesDisjoint(status: string)
    ensures !(IsSuccessStatus(status) && IsFailureStatus(status))
    ensures !IsSuccessStatus("") && !IsFailureStatus("")
  {
  }

  /** Upper-case spellings classify like the lower-case ones; a missing status is neither. */
  lemma NormalizedClassification()
    ensures IsSuccessStatus(NormalizeStatus(Some("Settled")))
    ensures IsFailureStatus(NormalizeStatus(Some("CANCELED")))
    ensures !IsSuccessStatus(NormalizeStatus(None)) && !IsFailureStatus(NormalizeStatus(None))
  {
    SettledNormalizes();
    CanceledNormalizes();
  }

  lemma SettledNormalizes()
    ensures NormalizeStatus(Some("Settled")) == "settled"
  {
    SettledIsStripped();
    SettledLowered();
    NormalizeStripped("Settled", "settled");
  }

  lemma CanceledNormalizes()
    ensures NormalizeStatus(Some("CANCELED")) == "canceled"
  {
    CanceledIsStripped();
    CanceledLowered();
    NormalizeStripped("CANCELED", "canceled");
  }

  lemma SettledIsStripped()
    ensures Strip("Settled") == "Settled"
  {
    StripClean("Settled");
  }

  lemma CanceledIsStripped()
    ensures Strip("CANCELED") == "CANCELED"
  {
    StripClean("CANCELED");
  }

  lemma SettledLowered()
    ensures Lower("Settled") == "settled"
  {
    var s := "Settled";
    assert LowerChar(s[0]) == 's';
    assert forall i | 1 <= i < |s| :: LowerChar(s[i]) == s[i];
  }

  lemma CanceledLowered()
    ensures Lower("CANCELED") == "canceled"
  {
    var s := "CANCELED";
    assert LowerChar(s[0]) == 'c' && LowerChar(s[1]) == 'a' && LowerChar(s[2]) == 'n' && LowerChar(s[3]) == 'c';
    assert LowerChar(s[4]) == 'e' && LowerChar(s[5]) == 'l' && LowerChar(s[6]) == 'e' && LowerChar(s[7]) == 'd';
  }

  /** A status with no surrounding whitespace normalises to its lower-case form. */
  lemma NormalizeStripped(s: string, low: string)
    requires s != "" && Strip(s) == s && Lower(s) == low
    ensures NormalizeStatus(Some(s)) == low
  {
  }

  // ---------------------------------------------------------- minor units

  const AmountRequiredMessage := "Amount is required."
  const AmountNotPositiveMessage := "Amount must be greater than zero."

  /**
   * `to_minor_units`: the amount rounded half-up to hundredths, refused
   * when missing or when the rounded amount is not positive. An amount
   * converts exactly when it is at least half a minor unit.
   */
  function ToMinorUnits(amount: Option<Decimal>): (r: Result<int, string>)
    ensures amount.None? ==> r == Err(AmountRequiredMessage)
    ensures r.Ok? ==> amount.Some? && r.value == Hundredths(amount.value) && r.value > 0
    ensures r.Ok? <==> amount.Some? && 200 * amount.value.digits >= Pow10(amount.value.exp)
    ensures amount.Some? && r.Err? ==> r == Err(AmountNotPositiveMessage)
  {
    match amount
    case None => Err(AmountRequiredMessage)
    case Some(a) =>
      HundredthsPositive(a);
      var minor := Hundredths(a);
      if minor <= 0 then Err(AmountNotPositiveMessage) else Ok(minor)
  }

  // ------------------------------------------------------- create_payment

  /** `ValueError`, `ImproperlyConfigured` and `TrueLayerError` as `create_payment` raises them. */
  datatype TrueLayerFailure = InvalidArgument(message: string) | NotConfigured(message: string) | ProviderFailure(message: string)

  /** The fields of the payment body that the model keeps. */
  datatype PaymentRequest = PaymentRequest(
    amountInMinor: int,
    currency: string,
    reference: string,
    merchantAccountId: string,
    returnUri: string,
    webhookUri: string)

  /** The provider's answer: HTTP status, `id`, and `authorization_flow.actions.next.uri`. */
  datatype HttpAnswer = HttpAnswer(status: int, paymentId: Option<string>, authorizationUrl: Option<string>)

  /** `requests.post` to the payments endpoint. */
  type PostPayment = PaymentRequest -> HttpAnswer

  /**
   * What `create_payment` refuses before building a request, in order: a
   * non-positive amount, an empty return URL, an empty webhook URL, an
   * unconfigured provider, and an auth setup without an audience.
   */
  function PaymentPrecheck(settings: map<string, string>, amountMinor: int, returnUrl: string, webhookUrl: string)
    : (r: Option<TrueLayerFailure>)
    ensures r.None? <==>
              amountMinor > 0 && returnUrl != "" && webhookUrl != "" && TrueLayerEnabled(settings)
              && Setting(settings, "TRUE_LAYER_AUTH_AUDIENCE", "") != ""
    ensures amountMinor <= 0 ==> r == Some(InvalidArgument("amount_minor must be a positive integer."))
    ensures r.Some? && !r.value.InvalidArgument? ==> amountMinor > 0 && returnUrl != "" && webhookUrl != ""
  {
    if amountMinor <= 0 then Some(InvalidArgument("amount_minor must be a positive integer."))
    else if returnUrl == "" then Some(InvalidArgument("return_url is required for TrueLayer payments."))
    else if webhookUrl == "" then Some(InvalidArgument("webhook_url is required for TrueLayer payments."))
    else if !TrueLayerEnabled(settings) then Some(NotConfigured("TrueLayer is not configured."))
    else if Setting(settings, "TRUE_LAYER_AUTH_AUDIENCE", "") == "" then
      Some(NotConfigured("TrueLayer auth is not configured. Set TRUE_LAYER_CLIENT_ID/KEY_ID/AUDIENCE."))
    else None
  }

  /**
   * `create_payment`: after the prechecks, one request with the currency
   * upper-cased; an HTTP error, or an answer lacking the payment id or the
   * authorisation URL, is a provider failure; otherwise the pair
   * (payment id, authorisation URL).
   */
  function CreatePayment(
    settings: map<string, string>, amountMinor: int, currency: string, reference: string,
    returnUrl: string, webhookUrl: string, post: PostPayment): (r: Result<(string, string), TrueLayerFailure>)
    ensures PaymentPrecheck(settings, amountMinor, returnUrl, webhookUrl).Some? ==>
              r == Err(PaymentPrecheck(settings, amountMinor, returnUrl, webhookUrl).value)
    ensures r.Ok? ==> amountMinor > 0 && returnUrl != "" && webhookUrl != "" && TrueLayerEnabled(settings)
    ensures r.Ok? ==> r.value.0 != "" && r.value.1 != ""
    ensures r.Ok? ==>
              var answer := post(PaymentRequest(amountMinor, Upper(currency), reference,
                                                settings["TRUE_LAYER_MERCHANT_ACCOUNT_ID"], returnUrl, webhookUrl));
              answer.status < 400 && answer.paymentId == Some(r.value.0) && answer.authorizationUrl == Some(r.value.1)
    ensures PaymentPrecheck(settings, amountMinor, returnUrl, webhookUrl).None? ==>
              var answer := post(PaymentRequest(amountMinor, Upper(currency), reference,
                                                settings["TRUE_LAYER_MERCHANT_ACCOUNT_ID"], returnUrl, webhookUrl));
              && (r.Ok? <==> answer.status < 400 && answer.paymentId !in {None, Some("")}
                                                 && answer.authorizationUrl !in {None, Some("")})
              && (answer.status >= 400 ==> r == Err(ProviderFailure("Failed to create TrueLayer payment.")))
              && (answer.status < 400 && r.Err? ==>
                    r == Err(ProviderFailure("TrueLayer payment response missing id/authorization URL.")))
  {
    match PaymentPrecheck(settings, amountMinor, returnUrl, webhookUrl)
    case Some(failure) => Err(failure)
    case None =>
      var request := PaymentRequest(amountMinor, Upper(currency), reference,
                                    Setting(settings, "TRUE_LAYER_MERCHANT_ACCOUNT_ID", ""), returnUrl, webhookUrl);
      var answer := post(request);
      if answer.status >= 400 then Err(ProviderFailure("Failed to create TrueLayer payment."))
      else if answer.paymentId.None? || answer.paymentId == Some("")
              || answer.authorizationUrl.None? || answer.authorizationUrl == Some("") then
        Err(ProviderFailure("TrueLayer payment response missing id/authorization URL."))
      else Ok((answer.paymentId.value, answer.authorizationUrl.value))
  }

  /** A request that fails a precheck fails the same way whatever the provider would answer. */
  lemma PrecheckBeforeRequest(
    settings: map<string, string>, amountMinor: int, currency: string, reference: string,
    returnUrl: string, webhookUrl: string, post1: PostPayment, post2: PostPayment)
    requires PaymentPrecheck(settings, amountMinor, returnUrl, webhookUrl).Some?
    ensures CreatePayment(settings, amountMinor, currency, reference, returnUrl, webhookUrl, post1)
         == CreatePayment(settings, amountMinor, currency, reference, returnUrl, webhookUrl, post2)
  {
  }

  /**
   * Once the prechecks pass, the result depends on the provider's answer
   * alone: a provider that accepts with an id and an authorisation URL
   * yields exactly that pair, and one that refuses yields the HTTP failure,
   * whatever else it sends.
   */
  lemma CreatePaymentFollowsAnswer(
    settings: map<string, string>, amountMinor: int, currency: string, reference: string,
    returnUrl: string, webhookUrl: string, id: string, url: string, status: int)
    requires PaymentPrecheck(settings, amountMinor, returnUrl, webhookUrl).None?
    requires id != "" && url != ""
    ensures status < 400 ==>
              CreatePayment(settings, amountMinor, currency, reference, returnUrl, webhookUrl,
                            _ => HttpAnswer(status, Some(id), Some(url))) == Ok((id, url))
    ensures status >= 400 ==>
              CreatePayment(settings, amountMinor, currency, reference, returnUrl, webhookUrl,
                            _ => HttpAnswer(status, Some(id), Some(url)))
              == Err(ProviderFailure("Failed to create TrueLayer payment."))
  {
  }

  // ------------------------------------------------------- verify_webhook

  /** `TRUE_LAYER_WEBHOOK_TOLERANCE_SEC`, 300 seconds unless configured. */
  function Tolerance(setting: Option<int>): (t: int)
    ensures setting.None? ==> t == 300
  {
    setting.GetOr(300)
  }

  /** The timestamp header: absent or empty, present but not ISO-8601, or the instant it names. */
  datatype Timestamp = NoTimestamp | Unparsable | At(instant: Instant)

  /** `jwt.get_unverified_header(signature).get("alg")`: `None` when the header cannot be read. */
  type ReadAlgorithm = string -> Option<Option<string>>

  /** `jwt.decode(token, key, algorithms=[alg])` succeeding. */
  type VerifyJws = (string, string, string) -> bool

  /**
   * The compact JWS checked for a detached signature: the signature's
   * protected header and signature parts around the base64url of the
   * payload, whatever the signature carried between its dots.
   */
  function Reconstruct(parts: seq<string>, payload: seq<Byte>): string
    requires |parts| == 3
  {
    parts[0] + "." + Encode(payload) + "." + parts[2]
  }

  /**
   * The reconstructed token splits back into the signature's outer parts
   * around the payload's encoding exactly when those parts hold no dot.
   */
  lemma ReconstructSplits(parts: seq<string>, payload: seq<Byte>)
    requires |parts| == 3
    ensures Split(Reconstruct(parts, payload), '.') == [parts[0], Encode(payload), parts[2]] <==>
              '.' !in parts[0] && '.' !in parts[2]
  {
    var r := Reconstruct(parts, payload);
    var pieces := [parts[0], Encode(payload), parts[2]];
    JoinThree(parts[0], Encode(payload), parts[2]);
    if '.' !in parts[0] && '.' !in parts[2] {
      EncodingHasNoSeparator(payload);
      SplitJoin(pieces, '.');
    } else if '.' in parts[0] {
      var k :| 0 <= k < |parts[0]| && parts[0][k] == '.';
      assert r[..|parts[0]|] == parts[0];
      SplitFirstPiece(r, parts[0], k);
    } else {
      var k :| 0 <= k < |parts[2]| && parts[2][k] == '.';
      SplitLastPiece(r, parts[2], k);
    }
  }

  /** A string starting with `a`, where `a` holds a dot, does not split into a first piece equal to `a`. */
  lemma SplitFirstPiece(r: string, a: string, k: nat)
    requires k < |a| <= |r| && r[..|a|] == a && a[k] == '.'
    ensures Split(r, '.')[0] != a
  {
  }

  /** Joining three pieces whose last holds a dot cannot come from a split ending in that piece. */
  lemma SplitLastPiece(r: string, c: string, k: nat)
    requires k < |c| && c[k] == '.'
    ensures |Split(r, '.')| != 3 || Split(r, '.')[2] != c
  {
  }

  /**
   * `verify_webhook`: without a signing key every webhook passes; with one,
   * a missing signature fails, a timestamp further than the tolerance from
   * now (either way) or one that does not parse fails, a header without an
   * algorithm fails, a signature that is not three dot-separated parts
   * fails, and otherwise the verdict is the JWS check of the reconstructed
   * token under the signing key.
   */
  function VerifyWebhook(
    settings: map<string, string>, tolerance: Option<int>, signature: Option<string>, timestamp: Timestamp,
    payload: seq<Byte>, now: Instant, readAlg: ReadAlgorithm, verify: VerifyJws): (ok: bool)
    ensures Setting(settings, "TRUE_LAYER_WEBHOOK_SIGNING_KEY", "") == "" ==> ok
    ensures Setting(settings, "TRUE_LAYER_WEBHOOK_SIGNING_KEY", "") != "" && (signature.None? || signature == Some("")) ==> !ok
    ensures ok && Setting(settings, "TRUE_LAYER_WEBHOOK_SIGNING_KEY", "") != "" ==>
              && signature.Some? && signature.value != ""
              && !timestamp.Unparsable?
              && (timestamp.At? ==> Abs(now - timestamp.instant) <= Tolerance(tolerance))
              && |Split(signature.value, '.')| == 3
              && readAlg(signature.value).Some? && readAlg(signature.value).value.Some?
              && readAlg(signature.value).value.value != ""
              && verify(Reconstruct(Split(signature.value, '.'), payload),
                        settings["TRUE_LAYER_WEBHOOK_SIGNING_KEY"], readAlg(signature.value).value.value)
    ensures Setting(settings, "TRUE_LAYER_WEBHOOK_SIGNING_KEY", "") != ""
              && signature.Some? && signature.value != ""
              && !timestamp.Unparsable?
              && (timestamp.At? ==> Abs(now - timestamp.instant) <= Tolerance(tolerance))
              && readAlg(signature.value).Some? && readAlg(signature.value).value.Some?
              && readAlg(signature.value).value.value != ""
              && |Split(signature.value, '.')| == 3 ==>
                ok == verify(Reconstruct(Split(signature.value, '.'), payload),
                             settings["TRUE_LAYER_WEBHOOK_SIGNING_KEY"], readAlg(signature.value).value.value)
  {
    var key := Setting(settings, "TRUE_LAYER_WEBHOOK_SIGNING_KEY", "");
    if key == "" then true
    else if signature.None? || signature.value == "" then false
    else if timestamp.Unparsable? then false
    else if timestamp.At? && Abs(now - timestamp.instant) > Tolerance(tolerance) then false
    else
      var sig := signature.value;
      match readAlg(sig)
      case None => false
      case Some(alg) =>
        if alg.None? || alg.value == "" then false
        else
          var parts := Split(sig, '.');
          if |parts| != 3 then false
          else verify(Reconstruct(parts, payload), key, alg.value)
  }

  /** A timestamp exactly the tolerance away passes the time check; one second more fails the webhook. */
  lemma ToleranceBoundary(
    settings: map<string, string>, signature: string, payload: seq<Byte>, ts: Instant,
    readAlg: ReadAlgorithm, verify: VerifyJws)
    requires Setting(settings, "TRUE_LAYER_WEBHOOK_SIGNING_KEY", "") != "" && signature != ""
    ensures VerifyWebhook(settings, None, Some(signature), At(ts), payload, ts + 300, readAlg, verify)
         == VerifyWebhook(settings, None, Some(signature), NoTimestamp, payload, ts + 300, readAlg, verify)
    ensures VerifyWebhook(settings, None, Some(signature), At(ts), payload, ts - 300, readAlg, verify)
         == VerifyWebhook(settings, None, Some(signature), NoTimestamp, payload, ts - 300, readAlg, verify)
    ensures !VerifyWebhook(settings, None, Some(signature), At(ts), payload, ts + 301, readAlg, verify)
  {
  }

  lemma JoinThree(a: string, b: string, c: string)
    ensures Join([a, b, c], '.') == a + "." + b + "." + c
  {
    assert Join([c], '.') == c;
    assert [a, b, c][1..] == [b, c];
    assert [b, c][1..] == [c];
    assert Join([b, c], '.') == b + "." + c;
  }

  /** Three dot-free pieces joined by dots split back into those pieces. */
  lemma SplitThree(a: string, b: string, c: string)
    requires '.' !in a && '.' !in b && '.' !in c
    ensures Split(a + "." + b + "." + c, '.') == [a, b, c]
  {
    JoinThree(a, b, c);
    SplitJoin([a, b, c], '.');
  }

  /**
   * For a detached signature `header..signature` (Appendix F of RFC 7515)
   * the token checked is `header.<base64url payload>.signature`, which
   * splits back into exactly those three parts.
   */
  lemma DetachedReconstruction(header: string, sig: string, payload: seq<Byte>)
    requires '.' !in header && '.' !in sig
    ensures Split(header + ".." + sig, '.') == [header, "", sig]
    ensures Reconstruct([header, "", sig], payload) == header + "." + Encode(payload) + "." + sig
    ensures Split(Reconstruct([header, "", sig], payload), '.') == [header, Encode(payload), sig]
  {
    assert header + "." + "" + "." + sig == header + ".." + sig;
    SplitThree(header, "", sig);
    ReconstructSplits([header, "", sig], payload);
  }

  /** A payload attached in the signature is ignored: the reconstruction uses the payload received. */
  lemma AttachedPayloadIgnored(header: string, middle: string, sig: string, payload: seq<Byte>)
    requires '.' !in header && '.' !in middle && '.' !in sig
    ensures Split(header + "." + middle + "." + sig, '.') == [header, middle, sig]
    ensures Reconstruct([header, middle, sig], payload) == Reconstruct([header, "", sig], payload)
  {
    SplitThree(header, middle, sig);
  }
}
